=== FILE: README.md ===
# Valorwave CMS: a verified model of the content layer

Valorwave CMS edits a static web site whose pages, content files and images
live in GitHub repositories. It has no database. Every file is an entry of the
GitHub contents API: a path holding a content blob and a `sha` version token.
A PUT that carries a `sha` is a compare-and-swap on that path. A PUT without one
only creates. A DELETE needs the current `sha`.

On top of that flat, per-file store the CMS builds a folder tree with file
operations. This project models that layer and proves what it does:

- **Store**: the store itself, as a class holding a map from location
  (repository and path) to blob.
  - It mints a fresh sha on every successful write.
  - It records every request it is sent, in order, with whether it succeeded.
  - Any request may fail in transit. Which ones fail is a fixed set of request
    numbers, a parameter of the store.
  - Without a token no request is sent at all.
- **FileOps**: the admin sidebar's compound operations, built by hand out of
  store calls (`cms-admin-v2.js`, `cms-admin-v3.js`):
  - write with sha lookup, and creation of files and placeholder-file folders;
  - move, rename and duplicate;
  - the recursive delete;
  - drag-and-drop validation;
  - publish followed by its log entry.
- **ShaCache**: the sha side-table of `cms-admin-v2.js`.
- **Listing**: the folders-first in-place sort and the text-file test.
- **FolderView**: the sidebar's expand/collapse state and its persistence, the
  rows a folder shows, and the multi-select set.
- **ContentTree**: the flat-list-to-tree builder of the content editor
  (`cms/cms-admin-v2.js`) and its render order.
- **ContentEditor**: the content editor's client state: open file, last saved
  content, save in flight, cursor insertion, image gallery and upload filter.
- **Diff**: the line-by-line diff of the admin's diff viewer.
- **Worker**: the Cloudflare worker (`_worker.js`):
  - top-level routing and the `/api/` dispatch;
  - the content-file filter;
  - read and commit of content files, including `.gitkeep` folder creation;
  - the required-field checks;
  - the upload-name sanitiser.
- **Session**: the worker's signed session cookie.
- **MonacoEditor**: the single-file Monaco editor page (`editor/editor.js`):
  language detection, load and save.
- **Strings**: the string and path arithmetic the operations share: last
  segment, parent, join, slash stripping, split and join, case mapping.

Each network round trip is one atomic step, and each operation is a sequential
method over the store. The proofs state:

- which requests an operation sends, in which order, and which of them had run
  when it stopped;
- exactly what the store holds afterwards;
- when the operation must succeed: the token is held, no request is lost and
  the paths are free.

Where the source is wrong, the model keeps the code as written next to a
corrected version (see "## Findings").

Sequences of requests are compared with the store's log. `Sent(token, call)`
is the call when a token is held and nothing otherwise. `Ran(before, after,
reqs, lastOk)` says the log grew by exactly `reqs`: all but the last succeeded,
and the last succeeded iff `lastOk`. `NoneLost(faults, k, n)` says none of the
`n` requests from number `k` on fails in transit.

## Model

| member | source | states |
|---|---|---|
| Store.GitHubStore.Get | cms-admin-v2.js:238-256 | A read never changes the store. Without a token it is refused before any request is sent. Otherwise it succeeds exactly when the request is not lost and the path holds a file or a folder with children. It then answers that file, or the folder's listing of its direct children. |
| Store.GitHubStore.Put | cms-admin-v2.js:238-256 | A write is the contents API's verdict on the old files, unless it is refused for want of a token or lost in transit. On success, and only then, the path holds the new content under a freshly minted sha and nothing else changes. A write without sha only creates; a write with sha replaces only the file holding exactly that sha. |
| Store.GitHubStore.Delete | cms-admin-v2.js:238-256 | A delete removes exactly the addressed file and succeeds only when the file exists and the sha sent is its sha. Otherwise the store is unchanged. |
| Store.ReachedThroughChild | cms-admin-v2.js:683-687 | Every file below a folder lies at or below one of the entries the folder's listing returns, so visiting the listing reaches every file below the folder. |
| Store.ListedChildShape | cms-admin-v2.js:683-687 | A listed child is named by one non-empty segment directly below the folder. Its path is strictly longer than the folder's. A listed file exists in the store. |
| Store.PutKeepsTree | cms-admin-v2.js:267-275 | A write to a path that no file sits above or below keeps the store a tree, with no file also used as a folder. |
| Store.DeleteKeepsTree | cms-admin-v2.js:667-690 | Removing a file keeps the store a tree. |
| Store.RanConcat | cms-admin-v2.js:238-256 | Two runs of requests, the first wholly successful, make one run of their concatenation. |
| Store.DeletedLocsAppend | cms-admin-v2.js:667-690 | The files deleted by a sequence of requests are those deleted by its two halves. |
| FileOps.GetFileSha | cms-admin-v2.js:258-265 | One read, never an error: the sha of the file at the path, or none when the read failed, was lost, was not sent, or found a folder (`data.sha` is then undefined). The same lookup is cms-admin-v3.js:143-150 and editor/editor.js:96-103. |
| FileOps.CommitFile | cms-admin-v2.js:267-275 | Exactly a read and then a write, which carries the sha iff the read found one (also cms-admin-v3.js:152-160). On success the file holds the content under a fresh sha and nothing else changed; on failure nothing changed. With a token, no lost request, a well-formed path and no file above or below it, the commit always succeeds, as a create or as a replace. A lost read of an existing file makes the write a create, which conflicts. |
| FileOps.OutcomeOf | cms-admin-v2.js:267-275 | A commit's outcome is completed exactly when the commit succeeded; otherwise it is that commit's error. |
| FileOps.CreateNewFile | cms-admin-v2.js:600-608 | A dismissed or empty name sends nothing. Otherwise it commits an empty file at the parent joined with the name, with message `Create file <path>` (also cms-admin-v3.js:659-667): a GET of the path, then a PUT carrying the file's sha exactly when the GET found one. |
| FileOps.CreateNewFolder | cms-admin-v3.js:669-677 | A dismissed or empty name sends nothing. Otherwise it commits exactly one empty file, `<folder>/.keep`, with message `Create folder <folder>`, through a GET and a PUT carrying the sha exactly when the GET found a file, and nothing else changes (also cms-admin-v2.js:610-618). |
| FileOps.NewFolderListed | cms-admin-v3.js:669-677 | Once its `.keep` file is written, the new folder appears as a folder in its parent's listing, under its name. |
| FileOps.Transfer | cms-admin-v2.js:788-806 | The shared read, write-new, delete-old sequence, stated by `Relocated`. It stops at the first failure: the log holds exactly the requests run up to it. Unless all three ran, the store is unchanged. If the delete failed, both paths hold the content. On success the content moved under a fresh sha and the source is gone. With a free, well-formed target and no lost request it completes when the write carries no sha, and conflicts at the write when it carries the source's sha. |
| FileOps.WriteThenRemove | cms-admin-v2.js:794-803 | The write-and-delete tail of a move, with the same stop-at-first-failure and final-state guarantees. |
| FileOps.MoveTarget | cms-admin-v2.js:789-790 | A moved item lands at `<target>/<its last segment>`. |
| FileOps.MoveItemAsWritten | cms-admin-v2.js:788-806 | As written (write carries the source sha), with all of `Transfer`'s guarantees: GET, PUT, DELETE in order, stopping at the first failure; without a token nothing is sent; the store is unchanged unless all three ran; after all three the content is at the target under a fresh sha, and the source is gone iff the DELETE succeeded. Moving a file to a free path with no lost request always fails with a conflict and leaves the store unchanged. |
| FileOps.MoveItem | cms-admin-v2.js:788-806 | Corrected move: GET, PUT, DELETE in order, stopping at the first failure. If the PUT fails the source is untouched and no DELETE is sent; if the DELETE fails both paths exist. A move to a free, well-formed path with no lost request completes. |
| FileOps.SourceShaRefusedAtFreePath | cms-admin-v2.js:794-798 | A write that carries a sha to a path holding no file is always refused by the store. |
| FileOps.RenameItemAsWritten | cms-admin-v3.js:703-724 | As written (also cms-admin-v2.js:644-665): a dismissed name sends nothing. Otherwise `Transfer`'s guarantees hold for the read of the old path, the sha-carrying write of `parent/newName` and the delete: the requests in order up to the first failure, the store unchanged unless all three ran, and the final state after all three. A rename to a free name with no lost request always fails with a conflict, leaving the store unchanged. |
| FileOps.RenameItem | cms-admin-v3.js:703-724 | Corrected rename: the content goes to `parent/newName` (just `newName` at the root). The old path is deleted only after that write succeeds, and a failure leaves exactly the requests run so far. A rename to a free name with no lost request completes. |
| FileOps.RenameStaysInFolder | cms-admin-v3.js:707-708 | A renamed item stays in its folder and takes exactly the new name. |
| FileOps.DeleteItem | cms-admin-v2.js:667-690 | Recursive delete (also cms-admin-v3.js:726-749). A declined confirmation skips exactly that item and sends nothing for it. Without a token nothing is sent. Only files at or below the path are removed, and exactly the files whose DELETE succeeded are removed. Every request before the last succeeded: the walk stops at the first failure and never restores what it already deleted. A completed delete with every confirmation accepted leaves nothing below the path. |
| FileOps.DeleteFile | cms-admin-v2.js:671-681 | The file branch: a read then a delete with the sha read. It removes at most that file, reports the failing step, and on completion the file is gone. |
| FileOps.DeleteChildren | cms-admin-v2.js:683-689 | The folder branch: deletes the listed children in listing order. It stops at the first failed child, with only files below the folder removed. On completion nothing below the folder is left. |
| FileOps.DeleteEntry | cms-admin-v2.js:685-687 | One step of the loop: after a child is deleted without failure, every child before it and itself are cleared, with nothing outside the folder touched. |
| FileOps.ClearedWhenChildrenCleared | cms-admin-v2.js:683-689 | A folder is empty once every child in its listing is cleared. |
| FileOps.DropVerdictAsWritten | cms-admin-v2.js:769-779 | As written: a drop is accepted only on a folder of the same repository, and dropping a folder on itself is refused. |
| FileOps.DropVerdict | cms-admin-v2.js:769-779 | Corrected drop validation: accepted iff the target is a folder, the repositories agree, and the dragged item is not a folder with the target at or below it. |
| FileOps.AsWrittenDropIsStricter | cms-admin-v2.js:769-779 | Every drop the code as written accepts, the corrected check accepts too. |
| FileOps.SiblingWithSharedPrefixRefused | cms-admin-v2.js:776-779 | As written, dragging folder `blog` onto its sibling `blog-archive` is refused as a move into itself, though the corrected check accepts it. |
| FileOps.AcceptedDropStaysOutside | cms-admin-v2.js:776-781 | An accepted drop of a folder never moves it below itself. |
| FileOps.HandleDrop | cms-admin-v2.js:759-786 | As written: the verdict is the string-prefix check, and a refused drop sends nothing. An accepted drop is the as-written move, with all of `Transfer`'s guarantees, so dropping a file on a folder that has no file of its name always fails with a conflict and changes nothing. |
| FileOps.HandleDropCorrected | cms-admin-v2.js:759-786 | Corrected handler: the segment-wise check, then the corrected move with `Transfer`'s guarantees. A refused drop sends nothing. A drop to a free, well-formed path with no lost request completes, leaving the content under a fresh sha at `<target>/<name>` and the source gone. |
| FileOps.CopyNameAsWritten | cms-admin-v2.js:1439 | As written: `-copy` goes before the last extension, and a name without an extension, or ending in a dot, is returned unchanged. |
| FileOps.CopyName | cms-admin-v2.js:1439 | Corrected name: always five characters longer than the original, and never gains a '/'. |
| FileOps.CopyNameAgrees | cms-admin-v2.js:1439 | For names with an extension the corrected name is the one the code produces. |
| FileOps.CopyNameAsWrittenKeepsBareName | cms-admin-v2.js:1439 | `README` is copied as written to `README`, and by the corrected rule to `README-copy`. |
| FileOps.DuplicateTargetIsSibling | cms-admin-v2.js:1437-1440 | The corrected copy lands in the same folder and never on the original's path. |
| FileOps.DuplicateAsWrittenTargetsSource | cms-admin-v2.js:1437-1440 | As written, a file without an extension is duplicated onto its own path. |
| FileOps.DuplicateWith | cms-admin-v2.js:1433-1448 | A read, then a create without sha at the copy's path. On success exactly the copy is added with the original's content. A copy path already taken always conflicts and changes nothing. A free one with no lost request completes. |
| FileOps.DuplicateFileAsWritten | cms-admin-v2.js:1433-1448 | As written, duplicating an existing file without an extension always fails with a conflict and changes nothing. |
| FileOps.DuplicateFile | cms-admin-v2.js:1433-1448 | Corrected duplicate: a completed duplicate adds a copy beside the original, at a different path, and changes nothing else. With a free copy path and no lost request it completes. |
| FileOps.ParentFolderForNew | cms-admin-v3.js:626-629 | New items go into the item itself for a folder. For a file they go into the text before its last '/', which is "" exactly when the path has no '/' (or only a leading one). |
| FileOps.NewItemBesideFile | cms-admin-v3.js:626-629 | An item created from a file's context menu lands in that file's folder. |
| FileOps.PublishTimestamp | cms-admin-v2.js:895 | The timestamp is the ISO time with every ':' and '.' made '-' and every other character kept. |
| FileOps.PublishLogPath | cms-admin-v2.js:896 | The log file is `publish-logs/<timestamp>.json`. |
| FileOps.PublishLogPathInjective | cms-admin-v2.js:896 | Distinct timestamps give distinct log files. |
| FileOps.Publish | cms-admin-v2.js:879-918 | Nothing is sent without an edited page or without confirmation (also cms-admin-v3.js:825-864). Otherwise `PublishEffect` holds. Without a token nothing is sent. The first two requests are the GET and PUT of the site's `index.html`. The log entry's GET and PUT follow only when that PUT succeeded, and carry the page commit's sha. While at most the page's two requests ran, the store is unchanged. A failed log commit leaves the page published. With all four requests delivered, no folder in the way and a well-formed log path, publishing succeeds. |
| FileOps.PublishCommits | cms-admin-v2.js:887-910 | The two commits of publishing, with exactly the guarantees of `PublishEffect`. |
| FileOps.PublishEntry | cms-admin-v2.js:895-910 | Once the page commit has succeeded, the log-entry commit completes `PublishEffect`. |
| FileOps.OtherRepoClash | cms-admin-v2.js:887-903 | Writing the page in the site repository never puts a folder in the way of the log entry in the CMS repository. |
| ShaCache.CacheKey | cms-admin-v2.js:1251 | The key is `repo:path`. |
| ShaCache.CacheKeyInjective | cms-admin-v2.js:1251 | For repository names without ':', distinct (repository, path) pairs have distinct keys. |
| ShaCache.Cache.GetCachedSha | cms-admin-v2.js:1250-1261 | A cached sha is returned without any request and the cache is unchanged. On a miss: exactly one read, the sha it found or none, and the cache gains that entry only when a sha was found, so nothing is cached on an error. A cache in step with the store stays in step. |
| ShaCache.StaleAfterWrite | cms-admin-v2.js:1250-1261 | After the file is rewritten its cached sha is stale, and a write carrying it is refused. |
| Listing.NameLeTotal | cms-admin-v2.js:369 | The name order is total. |
| Listing.NameLeTrans | cms-admin-v2.js:369 | The name order is transitive. |
| Listing.NameLeAntisym | cms-admin-v2.js:369 | The name order is antisymmetric. |
| Listing.SortFoldersFirst | cms-admin-v2.js:365-371 | The array is reordered in place into a permutation of itself, sorted by the folders-first key (also cms-admin-v3.js:427-433). |
| Listing.SortEntriesFoldersFirst | cms-admin-v2.js:365-371 | In place: a permutation of the input in which every folder precedes every file, and entries of the same kind are in ascending name order. |
| Listing.SortedMeansFoldersFirst | cms-admin-v2.js:365-371 | Sorted by the key means folders before files and names ascending within each kind. |
| Listing.SortedPermutationUnique | cms-admin-v2.js:365-371 | With distinct names there is exactly one sorted arrangement of a listing, so the result does not depend on the order the listing came in. |
| Listing.IsTextFileListed | cms-admin-v2.js:348-359 | A name opens as text exactly when its lower-cased form ends with one of the seven listed extensions (also cms-admin-v3.js:410-421). |
| Listing.IsTextFileIgnoresCase | cms-admin-v2.js:348-359 | Whether a file opens in the editor depends only on the lower-cased name (also cms-admin-v3.js:410-421). |
| FolderView.FolderKey | cms-admin-v3.js:455 | A folder's key is `repo/path`. |
| FolderView.Flipped | cms-admin-v3.js:461-462 | A click flips exactly the folder's own expanded flag (an absent flag counts as collapsed) and keeps every other entry. |
| FolderView.FlipTwice | cms-admin-v3.js:461-462 | Two clicks restore every folder's expanded state. |
| FolderView.Merged | cms-admin-v3.js:1073-1079 | Saved entries override, and entries not saved are kept. |
| FolderView.ReloadRestores | cms-admin-v3.js:1069-1079 | Loading a saved state into an empty one restores exactly what was saved. |
| FolderView.Sidebar.SaveFolderState | cms-admin-v3.js:1069-1071 | Persists the whole map and changes nothing else. |
| FolderView.Sidebar.LoadFolderState | cms-admin-v3.js:1073-1079 | Merges the saved map into the current one. It is a no-op when nothing is stored or the stored text does not parse. |
| FolderView.Sidebar.ClickFolderLabelV2 | cms-admin-v2.js:397-401 | A click flips the folder's flag, persists nothing, and re-renders as written. The folder collapses exactly when it was expanded. Collapsing removes only the rows whose parent is the folder; expanding sends one read and shows the sorted listing as new elements in reverse order right after the folder row. Every row shown is an element created before the next id. |
| FolderView.Sidebar.ClickFolderLabelV3 | cms-admin-v3.js:460-465 | The same, except that the whole map is persisted before the re-render. |
| FolderView.Sidebar.ClickFolderLabelCorrected | cms-admin-v3.js:460-465 | The newer click with the corrected render: collapsing removes every row of the folder's subtree, and expanding shows the sorted listing in order. |
| FolderView.Sidebar.RenderFolderAsWritten | cms-admin-v3.js:485-515 | As written (also cms-admin-v2.js:422-454): only rows whose parent is this folder are removed, and the listing is fetched only when the folder is expanded. The fetched, sorted listing becomes new elements, numbered from the next id, inserted right after the folder row in reverse order. Every row shown is an element created before the next id. |
| FolderView.Sidebar.RenderFolder | cms-admin-v3.js:485-515 | Corrected render: every row of the folder's subtree is removed. A collapsed folder sends no request. An expanded one sends one read and shows its listing exactly once each, folders first and by name, in that order, as new elements right after the folder row. |
| FolderView.Sidebar.FetchSorted | cms-admin-v3.js:492-503 | Only the log changes. A collapsed folder sends nothing; an expanded one sends one read, and a listing comes back as each child once, folders first, names ascending. |
| FolderView.Sidebar.ClearAndShowReversed | cms-admin-v3.js:486-508 | The rows side of the render as written: child rows cleared, and a listing's new elements placed in reverse, keeping every row an element created before the next id. |
| FolderView.Sidebar.ClearAndShowInOrder | cms-admin-v3.js:486-508 | The same for the corrected render. |
| FolderView.Sidebar.ShowReversed | cms-admin-v3.js:505-508 | The listing's new elements, numbered from the next id, placed right after the folder row in reverse; the next id moves past them. |
| FolderView.Sidebar.ShowInOrder | cms-admin-v3.js:505-508 | The same, in order. |
| FolderView.Sidebar.InsertEachAfter | cms-admin-v3.js:506-508 | Inserting each row "afterend" of the same row puts the rows there in reverse order. |
| FolderView.Sidebar.InsertInOrder | cms-admin-v3.js:506-508 | The corrected insertion keeps the rows in order. |
| FolderView.InsertedAfterReverses | cms-admin-v3.js:506-508 | A folder followed by a file is shown as the file followed by the folder. |
| FolderView.WithoutChildRows | cms-admin-v3.js:486-489 | As written, removal keeps every row whose parent is not this folder. |
| FolderView.WithoutSubtreeRows | cms-admin-v3.js:486-489 | Corrected removal drops the rows of every folder at or below this one and keeps all others. |
| FolderView.CollapseLeavesGrandchildRows | cms-admin-v3.js:486-489 | Collapsing `a` while `a/b` is expanded leaves `a/b/c.md` shown as written. The corrected removal hides it. |
| FolderView.ItemRows | cms-admin-v3.js:505-507 | One new row per entry, in order, under the folder's key, one level deeper, with consecutive element ids. |
| FolderView.NextFreeId | cms-admin-v3.js:506-507 | A number above every element id shown, so the next element created is new. |
| FolderView.IdsBelowAll | cms-admin-v3.js:506-507 | Every row is an element created before `n` exactly when every row's id is below `n`. |
| FolderView.ReverseAt | cms-admin-v3.js:505-508 | Position `i` of the reversed rows holds the row from position `n - 1 - i`. |
| FolderView.ShownAsWrittenRows | cms-admin-v3.js:486-508 | Showing a listing as written keeps every row not directly under the folder, and adds only new elements. |
| FolderView.ShownRows | cms-admin-v3.js:486-508 | Showing a listing corrected keeps every row outside the folder's subtree, and adds only new elements. |
| FolderView.ClearedFresh | cms-admin-v3.js:486-489 | Clearing rows keeps every remaining row an element created before the next id. |
| FolderView.ShownAsWrittenFresh | cms-admin-v3.js:486-508 | After a listing is shown as written, every row is an element created before the ids it used up. |
| FolderView.ShownFresh | cms-admin-v3.js:486-508 | The same for the corrected render. |
| FolderView.PermutedListing | cms-admin-v3.js:502-503 | Reordering a listing keeps it a listing of the same children. |
| FolderView.SortedListing | cms-admin-v3.js:503 | The shown listing is a permutation of the fetched one, sorted folders first. |
| FolderView.Toggled | cms-admin-v3.js:1092-1099 | A modified click flips one item's membership and keeps every other item's. |
| FolderView.ToggleTwice | cms-admin-v3.js:1092-1099 | Two modified clicks on one item restore the selection. |
| FolderView.Selection.Click | cms-admin-v3.js:1088-1106 | The selection holds row elements, each told apart by its element id. A click outside any item changes nothing. A ctrl/meta click toggles the element. A plain click leaves exactly that element selected (also cms-admin-v2.js:1393-1411). |
| FolderView.ReRenderedRowSelectedTwice | cms-admin-v3.js:1086-1099 | A re-rendered row for a selected file is another element: ctrl-clicking it makes a selection of two. |
| FolderView.ReRenderedRowIsNew | cms-admin-v3.js:1086-1099 | A row a render created is in no selection of earlier elements, so ctrl-clicking it adds it and removes nothing. |
| ContentTree.Rel | cms/cms-admin-v2.js:216 | One leading `content/` is stripped, and any other path is kept whole. |
| ContentTree.Insert | cms/cms-admin-v2.js:219-231 | A successful insertion keeps every name of the level and holds the path's first segment. |
| ContentTree.BuildFrom | cms/cms-admin-v2.js:213-234 | A successful build keeps every name the starting level had. |
| ContentTree.EntriesOf | cms/cms-admin-v2.js:240 | `Object.entries`: each child of the level exactly once, with its node. |
| ContentTree.BuildTree | cms/cms-admin-v2.js:213-234 | The loop builds exactly the tree obtained by inserting the files one after the other. |
| ContentTree.InsertPlaces | cms/cms-admin-v2.js:219-231 | An insertion places a file leaf (holding the original path) at the end of its chain of folders, unless something already sits there, which is kept. |
| ContentTree.InsertKeeps | cms/cms-admin-v2.js:221-227 | An insertion never overwrites a node: what was there stays, and a folder stays a folder. |
| ContentTree.InsertFailsIff | cms/cms-admin-v2.js:221-227 | An insertion fails exactly when one of the path's folders is already a file. |
| ContentTree.ReachedThroughFolders | cms/cms-admin-v2.js:219-231 | Every node is reached through folder nodes, one per leading segment. |
| ContentTree.BuildSplit | cms/cms-admin-v2.js:213-234 | Building from two lists is building from the first, then continuing with the second. |
| ContentTree.BuildKeeps | cms/cms-admin-v2.js:221-227 | Later files never overwrite an earlier node. |
| ContentTree.FirstInsertionWins | cms/cms-admin-v2.js:221-227 | Each file is in the finished tree. If its place was free it holds its own leaf; if an earlier file held it, that earlier leaf stays. |
| ContentTree.FileThenSameNamedFolderFails | cms/cms-admin-v2.js:221-227 | A file `a` followed by a file `a/b` makes the build fail. |
| ContentTree.RenderOrder | cms/cms-admin-v2.js:240-245 | A level is shown with each child exactly once, folders before files and names ascending within each group. |
| ContentTree.RenderOrderUnique | cms/cms-admin-v2.js:240-245 | There is exactly one such order for a level. |
| ContentEditor.SaveMessage | cms/cms-admin-v2.js:349 | The commit message is `Autosave <path> via CMS` or `Update <path> via CMS`. |
| ContentEditor.NewFilePath | cms/cms-admin-v2.js:371 | A new file's path is `content/` followed by the name without its leading slashes. |
| ContentEditor.NewFilePathKeepsName | cms/cms-admin-v2.js:371 | A name without a leading slash is kept whole. |
| ContentEditor.NewFolderPath | cms/cms-admin-v2.js:394 | A new folder's path is `content/` followed by the name without its trailing slashes, and never ends in '/' unless the name is all slashes. |
| ContentEditor.Editor.OpenFile | cms/cms-admin-v2.js:304-327 | One read request. On an answer the file becomes current and both the text and `lastContent` are its content ("" when missing). On an error nothing changes. |
| ContentEditor.Editor.SaveContent | cms/cms-admin-v2.js:329-366 | Without an open file, or for an autosave of unchanged content, nothing is sent. Otherwise one write of the content with the right message is sent. `lastContent` is updated only when the write succeeded, and no save is in flight afterwards either way. |
| ContentEditor.Editor.CreateNewFile | cms/cms-admin-v2.js:368-389 | A dismissed or empty name sends nothing. Otherwise it sends the create of `content/<name>` with the starter text. Only on success does it reload the list and open the new file, whose content (or "") becomes the text and the last confirmed content. A dismissed name, a refused create or a failed read leaves the open file, its text and its content as they were. The gallery and the saving flag never change. |
| ContentEditor.Editor.CreateNewFolder | cms/cms-admin-v2.js:391-409 | A dismissed or empty name sends nothing. Otherwise it sends the folder create, and reloads the list on success. The open file, text, selection, gallery and saving flag never change. |
| ContentEditor.Editor.InsertAtCursor | cms/cms-admin-v2.js:439-446 | The text becomes `before + text + after` around the selection, and the caret lands right after the inserted text. Nothing else changes: no request, the same open file, gallery and saving flag. |
| ContentEditor.InsertThenCut | cms/cms-admin-v2.js:439-446 | Cutting the inserted text out again leaves the original text without the replaced selection. |
| ContentEditor.Editor.InsertIntoWysiwyg | cms/cms-admin-v2.js:430-436 | In WYSIWYG mode the text is appended to the Markdown, which becomes the textarea's text with the caret at its end; nothing else changes. |
| ContentEditor.Editor.AddThumbnail | cms/cms-admin-v2.js:478-499 | An upload appends its entry to the gallery and changes nothing else. |
| ContentEditor.Editor.RemoveThumbnail | cms/cms-admin-v2.js:490-492 | Every gallery entry with that original URL is dropped, and the rest are kept in order. |
| ContentEditor.WithoutImage | cms/cms-admin-v2.js:490-492 | The kept entries are exactly those with another original URL. |
| ContentEditor.WithoutImageConcat | cms/cms-admin-v2.js:490-492 | Removal works piecewise on a concatenation, so order is kept. |
| ContentEditor.WithoutAbsentImage | cms/cms-admin-v2.js:490-492 | Removing a URL no entry has keeps the gallery as it is. |
| ContentEditor.ImagesOnly | cms/cms-admin-v2.js:543-551 | Exactly the PNG, JPEG and WebP files are kept. |
| ContentEditor.HandleFiles | cms/cms-admin-v2.js:543-551 | One upload per image file, in order, and none for any other file. |
| Diff.Rows | cms-admin-v2.js:1284-1299 | One row per line up to the longer text. A row is unchanged exactly when both sides have the same line there, with a missing line read as "". |
| Diff.DiffText | cms-admin-v2.js:1284-1299 | The loop's text is the rendering of those rows. |
| Diff.RenderStep | cms-admin-v2.js:1284-1299 | Rendering grows by one row's text per row. |
| Diff.DiffKeepsBothSides | cms-admin-v2.js:1284-1299 | The rows' left sides, joined with newlines, give back the old text, and their right sides give back the new text. Rows past a text's end show "" on that side. |
| Diff.UnchangedPrintsIndented | cms-admin-v2.js:1284-1299 | Comparing a text with itself prints every line as unchanged. |
| Strings.ParentPath | cms-admin-v3.js:707 | A path's parent is its text before the last '/', or "" when it has none. |
| Strings.JoinPath | cms-admin-v3.js:708 | `parent/name`, or just the name at the root. |
| Strings.JoinParentLastSegment | cms-admin-v3.js:707-708 | Splitting a path into parent and last segment and joining them gives the path back, exactly unless its only '/' is a leading one. |
| Strings.JoinThenSplit | cms-admin-v3.js:707-708 | Joining a parent and a slash-free name and splitting again gives both back. |
| Strings.StripLeadingSlashes | cms/cms-admin-v2.js:371 | Leading slashes are removed and nothing else. |
| Strings.StripTrailingSlashes | cms/cms-admin-v2.js:394 | Trailing slashes are removed and nothing else. |
| Strings.JoinSplit | cms-admin-v2.js:1284-1285 | Splitting at newlines and joining again gives the text back. |
| Strings.SplitJoin | cms-admin-v2.js:1284-1285 | Joining newline-free lines and splitting again gives the lines back. |
| Worker.Branch | _worker.js:125-127 | The branch is GITHUB_BRANCH, or `main` when that is unset or empty. |
| Worker.RouteOf | _worker.js:36-54 | Login, callback, API, CMS shell and assets are chosen by disjoint tests, so their fixed order never matters. Everything that matches none of the first four goes to assets. |
| Worker.EndpointOf | _worker.js:371-403 | A request reaches an endpoint exactly when its path and upper-cased method are that endpoint's. Anything else matches nothing. |
| Worker.RouteMatchesTable | _worker.js:371-403 | The chain of path-and-method tests picks an endpoint exactly when the path and method are that endpoint's entry in the table, and nothing otherwise. |
| Worker.MethodCaseIgnored | _worker.js:368 | The case of the method never changes the endpoint. |
| Worker.ContentPaths | _worker.js:140-144 | Exactly the paths of blob items under `content/` are kept, and every kept path is such an item's. |
| Worker.ContentPathsConcat | _worker.js:140-144 | The filter works piecewise on a concatenation, so it keeps the original order. |
| Worker.ListFilesReply | _worker.js:133-145 | `/api/files` answers the filtered paths, `[]` when there is no tree, and no reply when the tree request fails. |
| Worker.ReadContentFile | _worker.js:151-164 | One read in the configured repository. It succeeds exactly when the read found a file with non-empty content, and then gives that content. |
| Worker.WriteContentFile | _worker.js:170-203 | A read then a write on the configured branch, carrying the sha iff the read found one. The message defaults to `Update <path> via CMS`. On success the path holds the content under a fresh sha; on failure nothing changed. |
| Worker.GitkeepInsideFolder | _worker.js:209-213 | A folder's placeholder is `.gitkeep` directly inside the folder with its trailing slashes stripped, whenever that folder is not the root. |
| Worker.CreateFolder | _worker.js:209-213 | Commits an empty `<folder>/.gitkeep` with the folder's message and nothing else. |
| Worker.HandleReadFile | _worker.js:422-436 | `ReadFileAnswered`: no reply for an unparsable body, 400 `filePath required` without a file path, and otherwise one read, answered with the content or 500 `Failed to read file`. The store never changes. |
| Worker.HandleWriteFile | _worker.js:442-454 | `WriteFileAnswered`: an unparsable body or a missing `filePath` (400) sends nothing. Otherwise the content (default "") is committed. The reply is the commit sha, or 500 `Failed to write file`. |
| Worker.HandleNewFile | _worker.js:460-472 | `NewFileAnswered`: the same for `path`, answering the path and commit sha, or 500 `Failed to create file`. |
| Worker.HandleNewFolder | _worker.js:478-490 | `NewFolderAnswered`: the same for `folderPath`, committing its `.gitkeep`, or 500 `Failed to create folder`. |
| Worker.SafeName | _worker.js:536 | The safe name has the same length. Each allowed character is kept and every other character becomes '_'. |
| Worker.SafeNameIdempotent | _worker.js:536 | A safe name is its own safe name. |
| Worker.UploadStaysInImages | _worker.js:538 | An upload's path is `images/<ts>-<safe name>`, a well-formed path directly inside `images/`. |
| Worker.HandleUploadImage | _worker.js:520-582 | `UploadAnswered`: a non-multipart request gets 400 and a form without a file gets 400, both sending nothing. Otherwise the file is committed under `images/`. All four returned URLs are the same `/<path>`, and a failed commit gives no reply. |
| Worker.Dispatch | _worker.js:365-407 | As written, `Dispatched` holds for the request's endpoint: an unmatched request gets 404 `Not found`; the listing and logout answer as they do and change nothing; read-file, write-file, new-file, new-folder and upload-image answer exactly as their handlers promise. `/api/me` reads the cookie with the reader as written (_worker.js:496-498), so it always answers no login. A request gets no reply from the worker exactly when its handler rejects, because the un-awaited promise escapes the `catch` (the top-level `fetch` returns it un-awaited too, _worker.js:44-45, so the runtime answers). |
| Worker.UnparsableReadNeverCaught | _worker.js:375-377 | `POST /api/read-file` with a body that is not JSON gets, from any dispatch that rejects exactly when `Escapes` says, a rejection and never 500 `API error`. |
| Worker.Answer | _worker.js:370-403 | The handler of the given endpoint answers, as `Dispatched` states, and it rejects exactly when `Escapes` says. |
| Worker.Caught | _worker.js:404-406 | The corrected catch turns a rejection into 500 `API error` and passes every reply through unchanged. |
| Worker.HandleApi | _worker.js:365-407 | Corrected dispatch: the handler's reply `handled` is what `Answer` gives with the corrected cookie read, as `Dispatched` states, and the reply is `Caught(handled)`. So every request gets a reply, any reply other than a rejection passes through unchanged, a rejecting handler's request gets 500 `API error`, and `/api/me` answers the login read from the cookie. |
| Session.SessionValue | _worker.js:268 | The signed part is `user=<login>`. |
| Session.CreateSessionCookie | _worker.js:267-273 | Corrected cookie line: `cms_session=` followed by the value and its signature, ended by the first ';'. |
| Session.ReadSessionCookieAsWritten | _worker.js:275-292 | As written, a login is read only from a header in which the session's value matched (and by `NoSessionEverReadAsWritten`, never). |
| Session.ReadSessionCookie | _worker.js:275-292 | Corrected read: a login is read only from a header in which the session's value matched. |
| Session.CreateSessionCookieAsWritten | _worker.js:267-273 | As written the cookie line puts a ';' straight after `cms_session=user=<login>`. |
| Session.NoSessionEverReadAsWritten | _worker.js:275-292 | As written no cookie header ever yields a login: the match stops at the first ';', so it never holds `;sig=`. |
| Session.BrowserDropsSignatureAsWritten | _worker.js:267-273 | As written a browser stores only `user=<login>`, without the signature (RFC 6265, section 5.2). |
| Session.BrowserKeepsSignature | _worker.js:267-273 | With the corrected separator the browser stores the value and its signature. |
| Session.SessionRoundTrip | _worker.js:267-292 | With the corrected separator, the login signed into the cookie is the login read back from the header the browser sends. |
| Session.ReadSigned | _worker.js:275-292 | A header carrying a value and its signature reads as that value without its `user=`. |
| Session.OnlySignedValuesRead | _worker.js:275-292 | A login is read only from a matched value of the form `v.sig=sign(v)`. |
| Session.MatchSession | _worker.js:277 | The match is non-empty and holds no ';'. |
| Session.LogoutEndsSession | _worker.js:506-514 | After logout the browser holds an empty session value, which reads as no login. |
| MonacoEditor.PageTarget | editor/editor.js:19-26 | The page has a target exactly when both URL parameters are present and non-empty, and it is then those two. |
| MonacoEditor.DetectLanguage | editor/editor.js:162-171 | The language is always one of the seven names. |
| MonacoEditor.LanguageOfExtension | editor/editor.js:162-171 | Each language is chosen exactly when the lower-cased path ends with its extension, and plaintext exactly when it ends with none of the six. |
| MonacoEditor.LanguageIgnoresCase | editor/editor.js:162-171 | The language does not depend on the path's case. |
| MonacoEditor.Utf8Units | editor/editor.js:120 | A character's UTF-8 bytes, each as one character below 256: the character itself when it is ASCII, and otherwise two to four characters, all 128 or above. |
| MonacoEditor.Utf8ReadAsLatin1 | editor/editor.js:112-120 | What `atob` gives back for a saved text: never shorter than the text. |
| MonacoEditor.AsciiReadsBack | editor/editor.js:112-120 | Reading a text's UTF-8 bytes one character per byte gives the text back exactly when it is ASCII, which is also exactly when the length is kept. |
| MonacoEditor.NonAsciiStays | editor/editor.js:112-120 | A text with a character beyond ASCII still has one after being read that way. |
| MonacoEditor.EAcuteLoadsAsTwoCharacters | editor/editor.js:112-120 | A saved `é` loads as `Ã©`. |
| MonacoEditor.ResavedTextDrifts | editor/editor.js:108-126 | Saving what was loaded and loading it again changes a non-ASCII text once more: it never settles. |
| MonacoEditor.LoadAnswerAsWritten | editor/editor.js:108-113 | The as-written load succeeds exactly when the corrected one does, and then gives the stored text's UTF-8 bytes read one character per byte. |
| MonacoEditor.LoadFile | editor/editor.js:108-113 | As written: one read. When the read succeeded and the file has non-empty content, it gives the text decoded with `atob` alone, that is its UTF-8 bytes one character per byte; otherwise nothing. The store never changes. |
| MonacoEditor.LoadFileCorrected | editor/editor.js:108-113 | With a UTF-8 decode (as the worker does, _worker.js:162-163): the file's text itself when the read succeeded and it has non-empty content, and nothing otherwise. |
| MonacoEditor.SaveFile | editor/editor.js:118-126 | A read then a write with message `Edit <path>`, carrying the sha iff the read found one. On success the file holds the text under a fresh sha; on failure nothing changed. A well-formed, non-clashing path with no lost request always saves. |
| MonacoEditor.SavedTextLoads | editor/editor.js:108-126 | With the corrected decode, saved text loads back unchanged, unless it is empty. |
| MonacoEditor.SavedTextLoadsAsWritten | editor/editor.js:108-126 | As written, saved text loads back unchanged exactly when it is non-empty ASCII. |
| MonacoEditor.EditorPage.Open | editor/editor.js:137-158 | The editor is created only when the load succeeds, in the language of its extension. It holds the as-written load's text: the file's UTF-8 bytes read one character per byte. A failed load leaves the page without an editor. |
| MonacoEditor.EditorPage.Save | editor/editor.js:177-191 | Without an editor nothing is sent. Otherwise the editor's text is saved to the page's file: on completion the file holds exactly that text, on failure nothing changed. A free, well-formed path with no lost request always completes. |

## Left out

- Transport: `fetch`, `XMLHttpRequest` and the JSON they carry are replaced
  by calls on the store. `cms-admin-v3.js` and `editor/editor.js` post every
  GitHub request to an `/api/github` proxy (cms-admin-v3.js:131-141,
  editor/editor.js:74-94). No such proxy is part of this model: the worker
  modelled here answers `/api/github` with 404 `Not found`
  (_worker.js:371-403). The model assumes a proxy outside it that forwards
  each request unchanged, and so treats those requests as direct store
  calls. The `?ref=` branch of the worker's reads is not modelled.
- Failures in transit are a fixed set of request numbers, a parameter of the
  store. This stands in for the network's nondeterminism. An error's
  `details` text and status code are not modelled.
- `hasToken` means different things on each side. For `cms-admin-v2.js` it
  is the admin's own token: without one the admin throws before sending
  anything (cms-admin-v2.js:239), which is exactly what the model does. For
  the worker it is `GITHUB_TOKEN`: without it the worker sends
  `Bearer undefined` (_worker.js:92-94), which GitHub refuses. For
  `cms-admin-v3.js` and `editor/editor.js`, which do no token check of
  their own and always post to the proxy with the browser's credentials, it
  stands for the proxy holding a credential. In the worker, v3 and the
  editor, a refusal is a request that was sent and refused. The model
  records it as a refusal with no request in the log.
- Base64 and UTF-8 (`btoa`, `atob`, `encodeURIComponent`): content is
  modelled as the text handed to a write. Saves encode the text as UTF-8
  (cms-admin-v2.js:269, cms-admin-v3.js:154, _worker.js:186) and the worker
  decodes it back with a `TextDecoder` (_worker.js:162-163). The admins'
  own reads decode with `atob` alone (cms-admin-v2.js:498, :1178, :1455,
  cms-admin-v3.js:558, :1036); the functions doing them are not part of
  this model. The editor page's read is, as the next line says.
- MonacoEditor.LoadFile, EditorPage.Open and SavedTextLoads: the editor
  page's `atob`-only decode (editor/editor.js:112) is modelled as the stored
  text's UTF-8 bytes read one character per byte (`Utf8ReadAsLatin1`), not
  as a base64 decoder; base64 itself, and stored content that is not valid
  UTF-8, are not modelled. `SavedTextLoads` is the round trip of the
  corrected decode only.
- Case mapping: `ToLower` and `ToUpper` map only the ASCII letters, where
  JavaScript's `toLowerCase` and `toUpperCase` map all of Unicode (`ſ`
  upper-cases to `S`, for example). Listing.IsTextFile,
  MonacoEditor.DetectLanguage and Worker.EndpointOf use them, so a name or
  method whose non-ASCII letters map to ASCII ones is matched in the source
  and not in the model.
- OAuth: the device-flow polling, the login redirect and callback
  (`handleLogin`, `handleCallback`) and the HMAC-SHA-256 signature.
  `Session` takes `sign` as an uninterpreted function.
- The worker's tree request (`git/trees/<branch>?recursive=1`) is an answer
  given as a parameter (`TreeAnswer`): `listContentFiles` is the filter on it.
- A blob sha is a counter minted by the store, not a hash of the content.
  Publish's log entry records the page commit's minted sha.
- RenameItemAsWritten, MoveItemAsWritten and HandleDrop: a rename to the
  same name (the prompt offers the current name, cms-admin-v2.js:645) or a
  drop of a file on its own folder writes the file over itself. On GitHub
  the blob sha of unchanged content stays the same, so the DELETE that
  follows with the old sha succeeds and the file is lost. In the model the
  write mints a fresh sha, the DELETE conflicts and the file survives. This
  data-loss path is not captured.
- SafeName: works on Unicode characters. The source's regex has no `u` flag
  and so works on UTF-16 code units: a character outside the Basic
  Multilingual Plane, such as an emoji, becomes `__` in the source and `_`
  in the model.
- `Date` timestamps are parameters: the upload's `Date.now()` and the
  publish time's ISO text.
- `localeCompare` is modelled as code-unit order on names, a total order.
  Locale rules are left out.
- A directory listing's order is some enumeration of the folder's children,
  not GitHub's.
- `buildTree` on names such as `__proto__` that clash with
  `Object.prototype`, and the insertion order of `Object.entries`, are left
  out. A level is a map, and its render order is the sort.
- Non-string JSON fields in request bodies: a body is a map of strings, and
  a missing field reads as "".
- An unparsable form in `handleUploadImage` is not modelled apart from the
  other rejections. Nor are images larger than the worker accepts.
- `serveCmsHtml`, static assets, themes, previews, drafts, the WYSIWYG
  toolbar, the add-section modal, the context menu, the drag ghost,
  auto-scroll and the back button: all UI with nothing to prove.
- `markdownToHtml` and `htmlToMarkdown`. `InsertIntoWysiwyg` takes the
  already converted Markdown as a parameter.
- Debounced autosave and `setTimeout`: a save is an explicit call.
- `openFileFromRepo`, `uploadFileToFolder`, `deleteSelectedItems`,
  `openFileInNewTab` and `loadSidebarFileListsTree` are sidebar wiring
  outside the modelled core. `deleteSelectedItems` is a loop of the modelled
  `DeleteItem` over the selection.
- Concurrency: the nested `renderFolder` calls of expanded subfolders, which
  run un-awaited, and the interleaving of concurrent operations. Each
  operation is one sequential method.
- Click: the selection holds rows that carry an element id, minted by the
  sidebar for each element it creates; this stands for the DOM element's
  identity. The elements themselves, their classes and detached elements
  kept alive only by the selection are not modelled further.
- `folderState` values other than booleans: the model's map holds booleans,
  and an absent key counts as collapsed.
- ContentEditor: the worker's answers are parameters of each method
  (`ok`, `ReadAnswer`). The editor's requests are recorded in order and not
  executed against the store.
- MonacoEditor: Ctrl+S clicks the save button, so it is `Save`.
- FileOps.DeleteItem: that a completed delete leaves nothing below the path
  is proved only for a store where no file is also used as a folder. That is
  the shape GitHub's trees have. A folder deleted as a file, or a file deleted
  as a folder (the `for…of` over a non-list throws), is modelled as an
  outcome and not proved about further.
- An empty file reads as a failure in the worker's `readContentFile` and the
  editor page's `loadFile`, because empty content is falsy. The model keeps this.

## Findings

| source | as written | input that shows it | evidently intended | confidence | as-written member | corrected member |
|---|---|---|---|---|---|---|
| editor/editor.js:112 | `loadFile` decodes with `atob` alone, while `saveFile` encodes the text as UTF-8 (editor/editor.js:120) | saving `é` stores the bytes C3 A9; loading shows `Ã©`, and each further save corrupts the text again | decode the bytes as UTF-8 (`TextDecoder`), as the worker does at _worker.js:162-163 | not executed; high | MonacoEditor.LoadFile, MonacoEditor.SavedTextLoadsAsWritten, MonacoEditor.EAcuteLoadsAsTwoCharacters, MonacoEditor.ResavedTextDrifts | MonacoEditor.LoadFileCorrected, MonacoEditor.SavedTextLoads |
| cms-admin-v2.js:788-806 | `moveItem` writes the new path with the source file's `sha` (so does `renameItem`, cms-admin-v2.js:644-665 and cms-admin-v3.js:703-724) | moving `a.md` to a folder where no `a.md` exists: a PUT with a sha to a free path is refused, so every move and rename fails | create the new path with no `sha`, then delete the old path with the old `sha` | not executed; high | FileOps.MoveItemAsWritten, FileOps.RenameItemAsWritten, FileOps.HandleDrop, FileOps.SourceShaRefusedAtFreePath | FileOps.MoveItem, FileOps.RenameItem, FileOps.HandleDropCorrected |
| cms-admin-v2.js:1437-1440 | `base.replace(/(\.[^.]+)$/, "-copy$1")` leaves a name without an extension unchanged | duplicating `docs/README`: the copy's path is `docs/README` itself, and the create conflicts | insert `-copy` at the end when there is no extension | not executed; high | FileOps.CopyNameAsWritten, FileOps.DuplicateAsWrittenTargetsSource, FileOps.DuplicateFileAsWritten | FileOps.CopyName, FileOps.DuplicateTargetIsSibling, FileOps.DuplicateFile |
| cms-admin-v2.js:776-779 | a folder is refused when the target path merely starts with its path | dragging folder `blog` onto folder `blog-archive` is refused as a move into itself | refuse only the folder itself and paths below `blog/` | not executed; high | FileOps.DropVerdictAsWritten, FileOps.SiblingWithSharedPrefixRefused, FileOps.HandleDrop | FileOps.DropVerdict, FileOps.AcceptedDropStaysOutside, FileOps.HandleDropCorrected |
| cms-admin-v3.js:502-508 | each sorted entry is inserted "afterend" of the folder row (also cms-admin-v2.js:442-445) | a folder with subfolder `b` and file `c.md`: shown as `c.md`, `b`, files first and names descending | show the sorted listing in order | not executed; high | FolderView.Sidebar.RenderFolderAsWritten, FolderView.Sidebar.ClickFolderLabelV3, FolderView.Sidebar.InsertEachAfter, FolderView.InsertedAfterReverses | FolderView.Sidebar.RenderFolder, FolderView.Sidebar.ClickFolderLabelCorrected, FolderView.Sidebar.InsertInOrder |
| cms-admin-v3.js:486-489 | collapsing removes only rows whose parent is the folder itself (also cms-admin-v2.js:423-426) | collapsing `a` while `a/b` is expanded leaves `a/b/c.md` on screen | remove the whole subtree's rows | not executed; high | FolderView.WithoutChildRows, FolderView.CollapseLeavesGrandchildRows, FolderView.Sidebar.ClickFolderLabelV2 | FolderView.WithoutSubtreeRows, FolderView.Sidebar.RenderFolder, FolderView.Sidebar.ClickFolderLabelCorrected |
| _worker.js:267-292 | the cookie is `cms_session=user=<login>;sig=<sig>` and is read with `/cms_session=([^;]+)/` split on `;sig=` | any login: the browser keeps only `user=<login>`, and the match never contains `;sig=`, so `/api/me` never sees a login | a separator allowed inside a cookie value (here `.sig=`) | not executed; high | Session.CreateSessionCookieAsWritten, Session.BrowserDropsSignatureAsWritten, Session.NoSessionEverReadAsWritten | Session.CreateSessionCookie, Session.ReadSessionCookie, Session.SessionRoundTrip |
| _worker.js:370-406 | each handler's promise is returned un-awaited inside `try` | `POST /api/read-file` with a body that is not JSON: the handler rejects outside the `try`, and there is no "API error" reply | `return await` so the `catch` answers 500 `API error` | not executed; high | Worker.Dispatch, Worker.UnparsableReadNeverCaught | Worker.HandleApi, Worker.Caught |

=== FILE: content_editor.dfy ===
/**
 * The content editor's client state (cms/cms-admin-v2.js): which file is
 * open, the content last confirmed for it, whether a save is in flight,
 * the textarea and its selection, the uploaded-image gallery, and the
 * requests it sends to the worker's API.
 *
 * The worker's answers are parameters: `ok` is whether an answer came
 * back without an error field. The editor's text is a parameter of a
 * save as well: in WYSIWYG mode it is the HTML converted to Markdown,
 * a conversion this model does not include.
 */
module ContentEditor {
  import opened Strings
  import opened Store

  /** A request to the worker's `/api/…` endpoints. */
  datatype ApiCall =
    | ReadFile(filePath: string)
    | WriteFile(filePath: string, content: string, message: string)
    | NewFile(path: string, content: string, message: string)
    | NewFolder(folderPath: string)
    | ListFiles
    | UploadImage(file: Upload)

  /** A file picked for upload: its name and MIME type. */
  datatype Upload = Upload(name: string, mimeType: string)

  /** What `read-file` answers: an error, or an object whose `content` may be missing. */
  datatype ReadAnswer = ReadError | ReadOk(content: Option<string>)

  /** A gallery entry: the four URLs an upload returned. */
  datatype Thumbnail = Thumbnail(thumbUrl: string, originalUrl: string, webpUrl: string, optimizedUrl: string)

  const NewFileContent: string := "# New File\n"
  const ImageTypes: seq<string> := ["image/png", "image/jpeg", "image/webp"]

  /** `${isAutosave ? "Autosave" : "Update"} ${currentPath} via CMS` */
  function SaveMessage(isAutosave: bool, path: string): (m: string)
    ensures EndsWith(m, " " + path + " via CMS")
    ensures StartsWith(m, if isAutosave then "Autosave " else "Update ")
  {
    (if isAutosave then "Autosave" else "Update") + " " + path + " via CMS"
  }

  /** `content/${name.replace(/^\/+/, "")}` */
  function NewFilePath(name: string): (path: string)
    ensures StartsWith(path, "content/")
    ensures |path| > 8 ==> path[8] != '/'
    ensures EndsWith(name, path[8..])
  {
    "content/" + StripLeadingSlashes(name)
  }

  /** `content/${name.replace(/\/+$/, "")}` */
  function NewFolderPath(name: string): (path: string)
    ensures StartsWith(path, "content/")
    ensures StartsWith(name, path[8..])
    ensures (exists i :: 0 <= i < |name| && name[i] != '/') ==> path[|path| - 1] != '/'
  {
    "content/" + StripTrailingSlashes(name)
  }

  /** Only the leading slashes go: a name already free of them is kept whole. */
  lemma NewFilePathKeepsName(name: string)
    requires name == [] || name[0] != '/'
    ensures NewFilePath(name) == "content/" + name
  {
  }

  // ---------------------------------------------------------------
  // The uploaded-image gallery
  // ---------------------------------------------------------------

  /** `uploadedImages.filter(i => i.originalUrl !== url)` */
  function WithoutImage(images: seq<Thumbnail>, url: string): (r: seq<Thumbnail>)
    ensures forall t :: t in r <==> t in images && t.originalUrl != url
    ensures |r| <= |images|
  {
    if images == [] then []
    else (if images[0].originalUrl == url then [] else [images[0]]) + WithoutImage(images[1..], url)
  }

  /** The filter keeps order: filtering a concatenation filters each part in place. */
  lemma {:induction false} WithoutImageConcat(a: seq<Thumbnail>, b: seq<Thumbnail>, url: string)
    ensures WithoutImage(a + b, url) == WithoutImage(a, url) + WithoutImage(b, url)
    decreases |a|
  {
    if a == [] {
      assert a + b == b;
    } else {
      assert (a + b)[0] == a[0] && (a + b)[1..] == a[1..] + b;
      WithoutImageConcat(a[1..], b, url);
    }
  }

  /** Removing an image that is not in the gallery changes nothing. */
  lemma {:induction false} WithoutAbsentImage(images: seq<Thumbnail>, url: string)
    requires forall t :: t in images ==> t.originalUrl != url
    ensures WithoutImage(images, url) == images
    decreases |images|
  {
    if images != [] {
      assert images[0] in images;
      assert forall t :: t in images[1..] ==> t in images;
      WithoutAbsentImage(images[1..], url);
    }
  }

  // ---------------------------------------------------------------
  // The upload type filter
  // ---------------------------------------------------------------

  /** The files `handleFiles` uploads: those of an accepted image type, in order. */
  function ImagesOnly(files: seq<Upload>): (r: seq<Upload>)
    ensures forall f :: f in r <==> f in files && f.mimeType in ImageTypes
  {
    if files == [] then []
    else ImagesOnly(files[..|files| - 1]) + (if files[|files| - 1].mimeType in ImageTypes then [files[|files| - 1]] else [])
  }

  /** `handleFiles`: each file of an accepted type is uploaded, the rest refused. */
  method HandleFiles(files: seq<Upload>) returns (uploads: seq<ApiCall>)
    ensures |uploads| == |ImagesOnly(files)|
    ensures forall k :: 0 <= k < |uploads| ==> uploads[k] == UploadImage(ImagesOnly(files)[k])
  {
    uploads := [];
    var i := 0;
    while i < |files|
      invariant 0 <= i <= |files|
      invariant |uploads| == |ImagesOnly(files[..i])|
      invariant forall k :: 0 <= k < |uploads| ==> uploads[k] == UploadImage(ImagesOnly(files[..i])[k])
    {
      assert files[..i + 1][..i] == files[..i];
      if files[i].mimeType in ImageTypes {
        uploads := uploads + [UploadImage(files[i])];
      }
      i := i + 1;
    }
    assert files[..i] == files;
  }

  class Editor {
    var currentPath: Option<string>
    var lastContent: string
    var isSaving: bool
    /** The textarea's text and selection. */
    var value: string
    var selStart: nat
    var selEnd: nat
    var uploadedImages: seq<Thumbnail>
    /** Every request sent to the worker, in order. */
    var sent: seq<ApiCall>
    /** For each path, the content the worker last reported or accepted. */
    ghost var confirmed: map<string, string>

    /**
     * The selection lies within the text, and `lastContent` is the content
     * last confirmed for the open file.
     */
    ghost predicate Valid()
      reads this
    {
      && selStart <= selEnd <= |value|
      && (currentPath.Some? ==> currentPath.value in confirmed && confirmed[currentPath.value] == lastContent)
    }

    constructor ()
      ensures Valid()
      ensures currentPath == None && lastContent == "" && !isSaving && value == ""
      ensures uploadedImages == [] && sent == []
    {
      currentPath, lastContent, isSaving := None, "", false;
      value, selStart, selEnd := "", 0, 0;
      uploadedImages, sent := [], [];
      confirmed := map[];
    }

    /** `!currentPath`: no file open (an empty path is falsy too). */
    predicate NoFileOpen()
      reads this
    {
      currentPath.None? || currentPath.value == ""
    }

    /**
     * `openFile`: on an error the open file stays as it was; otherwise the
     * path becomes the open file and its content (or "" when the answer
     * has none) both the text and the last confirmed content.
     */
    method OpenFile(path: string, answer: ReadAnswer)
      requires Valid()
      modifies this
      ensures Valid()
      ensures sent == old(sent) + [ReadFile(path)]
      ensures answer.ReadError? ==>
        currentPath == old(currentPath) && lastContent == old(lastContent) && value == old(value)
        && confirmed == old(confirmed)
      ensures answer.ReadOk? ==>
        var content := if answer.content.Some? then answer.content.value else "";
        currentPath == Some(path) && lastContent == content && value == content
      ensures isSaving == old(isSaving) && uploadedImages == old(uploadedImages)
    {
      sent := sent + [ReadFile(path)];
      if answer.ReadError? {
        return;
      }
      currentPath := Some(path);
      var content := if answer.content.Some? then answer.content.value else "";
      lastContent := content;
      confirmed := confirmed[path := content];
      value, selStart, selEnd := content, |content|, |content|;
    }

    /** Whether `saveContent(isAutosave)` sends a write for `content`. */
    predicate WouldWrite(content: string, isAutosave: bool)
      reads this
    {
      !NoFileOpen() && !(content == lastContent && isAutosave)
    }

    /**
     * `saveContent`: nothing without an open file, nothing for an autosave
     * of unchanged content; otherwise one write of the content to the open
     * path. `lastContent` moves to the content only when the write was
     * accepted, and no save is in flight afterwards either way.
     */
    method SaveContent(isAutosave: bool, content: string, ok: bool)
      requires Valid()
      modifies this
      ensures Valid()
      ensures !old(WouldWrite(content, isAutosave)) ==>
        sent == old(sent) && lastContent == old(lastContent) && isSaving == old(isSaving)
      ensures old(WouldWrite(content, isAutosave)) ==>
        && sent == old(sent) + [WriteFile(old(currentPath).value, content, SaveMessage(isAutosave, old(currentPath).value))]
        && lastContent == (if ok then content else old(lastContent))
        && !isSaving
      ensures currentPath == old(currentPath) && value == old(value)
      ensures uploadedImages == old(uploadedImages)
    {
      if NoFileOpen() {
        return;
      }
      if content == lastContent && isAutosave {
        return;
      }
      var path := currentPath.value;
      isSaving := true;
      sent := sent + [WriteFile(path, content, SaveMessage(isAutosave, path))];
      isSaving := false;
      if !ok {
        return;
      }
      lastContent := content;
      confirmed := confirmed[path := content];
    }

    /**
     * `createNewFile`: a cancelled or empty name does nothing; otherwise the
     * file is created under content/, and when that is accepted the list
     * is reloaded and the new file opened.
     */
    method CreateNewFile(name: Option<string>, ok: bool, answer: ReadAnswer)
      requires Valid()
      modifies this
      ensures Valid()
      ensures name.None? || name.value == "" || !ok || answer.ReadError? ==>
        && currentPath == old(currentPath) && value == old(value) && lastContent == old(lastContent)
        && confirmed == old(confirmed)
      ensures name.None? || name.value == "" ==> sent == old(sent)
      ensures name.Some? && name.value != "" ==>
        var path := NewFilePath(name.value);
        && sent == old(sent) + [NewFile(path, NewFileContent, "Create " + path + " via CMS")]
             + (if ok then [ListFiles, ReadFile(path)] else [])
        && (ok && answer.ReadOk? ==>
              var content := if answer.content.Some? then answer.content.value else "";
              currentPath == Some(path) && value == content && lastContent == content)
      ensures uploadedImages == old(uploadedImages) && isSaving == old(isSaving)
    {
      if name.None? || name.value == "" {
        return;
      }
      var path := NewFilePath(name.value);
      sent := sent + [NewFile(path, NewFileContent, "Create " + path + " via CMS")];
      if !ok {
        return;
      }
      sent := sent + [ListFiles];
      OpenFile(path, answer);
    }

    /** `createNewFolder`: a cancelled or empty name does nothing; otherwise the folder request, then a reload. */
    method CreateNewFolder(name: Option<string>, ok: bool)
      modifies this
      ensures name.None? || name.value == "" ==> sent == old(sent)
      ensures name.Some? && name.value != "" ==>
        sent == old(sent) + [NewFolder(NewFolderPath(name.value))] + (if ok then [ListFiles] else [])
      ensures currentPath == old(currentPath) && lastContent == old(lastContent) && value == old(value)
      ensures selStart == old(selStart) && selEnd == old(selEnd) && confirmed == old(confirmed)
      ensures uploadedImages == old(uploadedImages) && isSaving == old(isSaving)
    {
      if name.None? || name.value == "" {
        return;
      }
      sent := sent + [NewFolder(NewFolderPath(name.value))];
      if ok {
        sent := sent + [ListFiles];
      }
    }

    /**
     * `insertAtCursor` on the textarea: the selection is replaced by the
     * text and the caret put right after it.
     */
    method InsertAtCursor(text: string)
      requires Valid()
      modifies this
      ensures Valid()
      ensures value == old(value)[..old(selStart)] + text + old(value)[old(selEnd)..]
      ensures selStart == selEnd == old(selStart) + |text|
      ensures value[..selStart] == old(value)[..old(selStart)] + text
      ensures value[selEnd..] == old(value)[old(selEnd)..]
      ensures currentPath == old(currentPath) && lastContent == old(lastContent) && sent == old(sent)
      ensures uploadedImages == old(uploadedImages) && isSaving == old(isSaving) && confirmed == old(confirmed)
    {
      var before := value[..selStart];
      var after := value[selEnd..];
      value := before + text + after;
      var pos := selStart + |text|;
      selStart, selEnd := pos, pos;
      assert value[..pos] == before + text;
      assert value[pos..] == after;
    }

    /**
     * `insertAtCursor` on the WYSIWYG pane: the text is appended to the
     * pane's Markdown, `md`, which becomes the textarea's text; assigning
     * the textarea's text leaves the caret at its end.
     */
    method InsertIntoWysiwyg(md: string, text: string)
      requires Valid()
      modifies this
      ensures Valid()
      ensures value == md + text
      ensures selStart == selEnd == |md| + |text|
      ensures currentPath == old(currentPath) && lastContent == old(lastContent) && sent == old(sent)
      ensures uploadedImages == old(uploadedImages) && isSaving == old(isSaving) && confirmed == old(confirmed)
    {
      value := md + text;
      selStart, selEnd := |value|, |value|;
    }

    /** `addThumbnail`: the upload's URLs join the end of the gallery. */
    method AddThumbnail(t: Thumbnail)
      modifies this
      ensures uploadedImages == old(uploadedImages) + [t]
      ensures currentPath == old(currentPath) && lastContent == old(lastContent) && sent == old(sent)
      ensures value == old(value) && selStart == old(selStart) && selEnd == old(selEnd) && confirmed == old(confirmed)
    {
      uploadedImages := uploadedImages + [t];
    }

    /** A thumbnail's delete button: every entry with that original URL goes, the rest stay in order. */
    method RemoveThumbnail(originalUrl: string)
      modifies this
      ensures uploadedImages == WithoutImage(old(uploadedImages), originalUrl)
      ensures currentPath == old(currentPath) && lastContent == old(lastContent) && sent == old(sent)
      ensures value == old(value) && selStart == old(selStart) && selEnd == old(selEnd) && confirmed == old(confirmed)
    {
      uploadedImages := WithoutImage(uploadedImages, originalUrl);
    }
  }

  /**
   * After an insertion, taking the inserted text back out gives the old
   * text with its selection removed.
   */
  lemma InsertThenCut(value: string, start: nat, end: nat, text: string)
    requires start <= end <= |value|
    ensures var v := value[..start] + text + value[end..];
            v[..start] + v[start + |text|..] == value[..start] + value[end..]
  {
    var v := value[..start] + text + value[end..];
    assert v[..start] == value[..start];
    assert v[start + |text|..] == value[end..];
  }
}

=== FILE: content_tree.dfy ===
/**
 * The content editor's file tree (cms/cms-admin-v2.js): `buildTree`
 * turns the flat list of content files the worker returns into nested
 * folder nodes, and `renderTree` lists one level folders first.
 *
 * A node is either a file leaf carrying the file's original path
 * (`__isFile: true, __path`) or a folder with its children by name
 * (`__isFile: false, __children`).
 */
module ContentTree {
  import opened Strings
  import opened Store
  import opened Listing

  datatype Node = Leaf(path: string) | Folder(children: map<string, Node>)

  /** One level of the tree: child nodes by name. */
  type Level = map<string, Node>

  const ContentPrefix: string := "content/"

  /** `f.path.replace(/^content\//, "")`: one leading "content/" removed, if there is one. */
  function Rel(path: string): (rel: string)
    ensures StartsWith(path, ContentPrefix) ==> path == ContentPrefix + rel
    ensures !StartsWith(path, ContentPrefix) ==> rel == path
  {
    if StartsWith(path, ContentPrefix) then path[|ContentPrefix|..] else path
  }

  /** The segments a file is placed under: `rel.split("/")`. */
  function PartsOf(path: string): seq<string>
  {
    Split(Rel(path), '/')
  }

  /** The node reached from `level` by following `parts` through folders. */
  function Lookup(level: Level, parts: seq<string>): Option<Node>
    requires |parts| >= 1
    decreases |parts|
  {
    var part := parts[0];
    if part !in level then None
    else if |parts| == 1 then Some(level[part])
    else if level[part].Leaf? then None
    else Lookup(level[part].children, parts[1..])
  }

  predicate LeafAt(level: Level, parts: seq<string>)
    requires |parts| >= 1
  {
    Lookup(level, parts).Some? && Lookup(level, parts).value.Leaf?
  }

  /**
   * The inner `forEach` of `buildTree` for one file: walk the segments,
   * creating a folder for each missing intermediate name and a leaf for a
   * missing last name; an existing node is never replaced. When an
   * intermediate name is already a file, `node` becomes the leaf's null
   * `__children` and the next step throws: that is `None`.
   */
  function Insert(level: Level, parts: seq<string>, path: string): (r: Option<Level>)
    requires |parts| >= 1
    ensures r.Some? ==> parts[0] in r.value && level.Keys <= r.value.Keys
    decreases |parts|
  {
    var part := parts[0];
    if |parts| == 1 then
      Some(if part in level then level else level[part := Leaf(path)])
    else
      var child := if part in level then level[part] else Folder(map[]);
      if child.Leaf? then None
      else match Insert(child.children, parts[1..], path)
        case None => None
        case Some(c) => Some(level[part := Folder(c)])
  }

  /** `buildTree` as a fold over the file list, starting from `tree`. */
  function BuildFrom(tree: Level, files: seq<string>): (r: Option<Level>)
    ensures r.Some? ==> tree.Keys <= r.value.Keys
    decreases |files|
  {
    if files == [] then Some(tree)
    else match Insert(tree, PartsOf(files[0]), files[0])
      case None => None
      case Some(t) => BuildFrom(t, files[1..])
  }

  /** `buildTree(files)`: one insertion per file, in list order. */
  method BuildTree(files: seq<string>) returns (root: Option<Level>)
    ensures root == BuildFrom(map[], files)
  {
    var tree: Level := map[];
    var i := 0;
    while i < |files|
      invariant 0 <= i <= |files|
      invariant BuildFrom(tree, files[i..]) == BuildFrom(map[], files)
    {
      var next := Insert(tree, PartsOf(files[i]), files[i]);
      assert files[i..][1..] == files[i + 1..];
      if next.None? {
        return None;
      }
      tree := next.value;
      i := i + 1;
    }
    return Some(tree);
  }

  // ---------------------------------------------------------------
  // What one insertion does
  // ---------------------------------------------------------------

  /** `b` still holds what `a` held: the same leaf, or again a folder. */
  predicate Kept(a: Option<Node>, b: Option<Node>)
  {
    a.Some? ==> b.Some? && (a.value.Leaf? ==> b == a) && (a.value.Folder? ==> b.value.Folder?)
  }

  /**
   * After an insertion the file's segments lead to a node: the node that
   * was already there, or else a new leaf carrying the file's path.
   */
  lemma {:induction false} InsertPlaces(level: Level, parts: seq<string>, path: string)
    requires |parts| >= 1 && Insert(level, parts, path).Some?
    ensures Lookup(Insert(level, parts, path).value, parts)
         == if Lookup(level, parts).Some? then Lookup(level, parts) else Some(Leaf(path))
    decreases |parts|
  {
    if |parts| > 1 {
      var part := parts[0];
      var child := if part in level then level[part] else Folder(map[]);
      InsertPlaces(child.children, parts[1..], path);
      if part !in level {
        assert Lookup(child.children, parts[1..]).None?;
      }
    }
  }

  /** An insertion never replaces a node: every leaf stays, every folder stays a folder. */
  lemma {:induction false} InsertKeeps(level: Level, parts: seq<string>, path: string, q: seq<string>)
    requires |parts| >= 1 && |q| >= 1 && Insert(level, parts, path).Some?
    ensures Kept(Lookup(level, q), Lookup(Insert(level, parts, path).value, q))
    decreases |parts|
  {
    var t := Insert(level, parts, path).value;
    if |parts| > 1 && q[0] == parts[0] && parts[0] in level && |q| > 1 && level[q[0]].Folder? {
      InsertKeeps(level[q[0]].children, parts[1..], path, q[1..]);
    }
  }

  /**
   * An insertion fails exactly when one of the file's folder segments
   * names a file already in the tree.
   */
  lemma {:induction false} InsertFailsIff(level: Level, parts: seq<string>, path: string)
    requires |parts| >= 1
    ensures Insert(level, parts, path).None? <==> exists k :: 1 <= k < |parts| && LeafAt(level, parts[..k])
    decreases |parts|
  {
    if |parts| > 1 {
      var part := parts[0];
      var child := if part in level then level[part] else Folder(map[]);
      assert parts[..1] == [part];
      if child.Leaf? {
        assert LeafAt(level, parts[..1]);
      } else {
        InsertFailsIff(child.children, parts[1..], path);
        forall k | 1 <= k < |parts| - 1
          ensures LeafAt(level, parts[..k + 1]) == LeafAt(child.children, parts[1..][..k])
        {
          assert parts[..k + 1][0] == part && parts[..k + 1][1..] == parts[1..][..k];
        }
        assert !LeafAt(level, parts[..1]);
        if Insert(level, parts, path).None? {
          var k :| 1 <= k < |parts| - 1 && LeafAt(child.children, parts[1..][..k]);
          assert LeafAt(level, parts[..k + 1]);
        }
        if exists k :: 1 <= k < |parts| && LeafAt(level, parts[..k]) {
          var k :| 1 <= k < |parts| && LeafAt(level, parts[..k]);
          assert LeafAt(child.children, parts[1..][..k - 1]);
        }
      }
    }
  }

  /** A node is reached only through folders: every proper prefix of its segments is a folder. */
  lemma {:induction false} ReachedThroughFolders(level: Level, parts: seq<string>, k: nat)
    requires 1 <= k < |parts| && Lookup(level, parts).Some?
    ensures Lookup(level, parts[..k]).Some? && Lookup(level, parts[..k]).value.Folder?
    decreases |parts|
  {
    assert parts[..k][0] == parts[0];
    if k > 1 {
      assert parts[..k][1..] == parts[1..][..k - 1];
      ReachedThroughFolders(level[parts[0]].children, parts[1..], k - 1);
    }
  }

  // ---------------------------------------------------------------
  // What the whole build does
  // ---------------------------------------------------------------

  /** Building from a concatenation builds the first part, then the second. */
  lemma {:induction false} BuildSplit(tree: Level, a: seq<string>, b: seq<string>)
    ensures BuildFrom(tree, a + b)
         == match BuildFrom(tree, a) case None => None case Some(m) => BuildFrom(m, b)
    decreases |a|
  {
    if a == [] {
      assert a + b == b;
    } else {
      assert (a + b)[0] == a[0] && (a + b)[1..] == a[1..] + b;
      var next := Insert(tree, PartsOf(a[0]), a[0]);
      if next.Some? {
        BuildSplit(next.value, a[1..], b);
      }
    }
  }

  /** Later files never replace a node earlier files made. */
  lemma {:induction false} BuildKeeps(tree: Level, files: seq<string>, q: seq<string>)
    requires |q| >= 1 && BuildFrom(tree, files).Some?
    ensures Kept(Lookup(tree, q), Lookup(BuildFrom(tree, files).value, q))
    decreases |files|
  {
    if files != [] {
      var next := Insert(tree, PartsOf(files[0]), files[0]).value;
      InsertKeeps(tree, PartsOf(files[0]), files[0], q);
      BuildKeeps(next, files[1..], q);
    }
  }

  /**
   * The first file of a build either finds a node already at its segments,
   * which the finished tree still shows if it is a leaf, or gets a new
   * leaf there carrying its own path, which no later file replaces.
   */
  lemma BuildFirstWins(tree: Level, files: seq<string>)
    requires files != [] && BuildFrom(tree, files).Some?
    ensures var after := BuildFrom(tree, files).value;
            var parts := PartsOf(files[0]);
            Lookup(after, parts).Some?
            && (Lookup(tree, parts).None? ==> Lookup(after, parts) == Some(Leaf(files[0])))
            && (LeafAt(tree, parts) ==> Lookup(after, parts) == Lookup(tree, parts))
  {
    var parts := PartsOf(files[0]);
    var mid := Insert(tree, parts, files[0]).value;
    InsertPlaces(tree, parts, files[0]);
    BuildKeeps(mid, files[1..], parts);
  }

  /**
   * The first insertion wins: when the tree built from the files before
   * `files[i]` has no node at its segments, the finished tree has a leaf
   * there carrying `files[i]` itself; when it already has a leaf there,
   * that leaf is what the finished tree shows. Either way every file's
   * segments lead to a node.
   */
  lemma FirstInsertionWins(files: seq<string>, i: nat)
    requires i < |files| && BuildFrom(map[], files).Some?
    ensures BuildFrom(map[], files[..i]).Some?
    ensures var before := BuildFrom(map[], files[..i]).value;
            var after := BuildFrom(map[], files).value;
            var parts := PartsOf(files[i]);
            Lookup(after, parts).Some?
            && (Lookup(before, parts).None? ==> Lookup(after, parts) == Some(Leaf(files[i])))
            && (LeafAt(before, parts) ==> Lookup(after, parts) == Lookup(before, parts))
  {
    assert files == files[..i] + files[i..];
    BuildSplit(map[], files[..i], files[i..]);
    var before := BuildFrom(map[], files[..i]).value;
    assert BuildFrom(before, files[i..]) == BuildFrom(map[], files);
    BuildFirstWins(before, files[i..]);
  }

  /** The crash: a file listed before a folder of the same name makes the build throw. */
  lemma FileThenSameNamedFolderFails()
    ensures BuildFrom(map[], ["content/a", "content/a/b"]).None?
  {
    var first := ["content/a", "content/a/b"][0];
    assert Rel(first) == "a";
    assert PartsOf(first) == ["a"];
    var tree := Insert(map[], ["a"], first).value;
    assert Rel("content/a/b") == "a/b";
    assert IndexOf("a/b", '/') == 1 && IndexOf("b", '/') == 1;
    assert "a/b"[..1] == "a" && "a/b"[2..] == "b";
    assert Split("b", '/') == ["b"];
    assert PartsOf("content/a/b") == ["a", "b"];
    assert Insert(tree, ["a", "b"], "content/a/b").None?;
  }

  // ---------------------------------------------------------------
  // renderTree's order for one level
  // ---------------------------------------------------------------

  /** The comparator's view of `[name, info]`: folders are the non-files. */
  function TreeKey(e: (string, Node)): (k: SortKey)
    ensures k.isDir <==> !e.1.Leaf?
    ensures k.name == e.0
  {
    SortKey(e.1.Folder?, e.0)
  }

  /**
   * `Object.entries(node).sort(...)`: every child exactly once, folders
   * before files, each group in name order.
   */
  method RenderOrder(level: Level) returns (entries: seq<(string, Node)>)
    ensures |entries| == |level|
    ensures forall e :: e in entries ==> e.0 in level && level[e.0] == e.1
    ensures forall name :: name in level ==> (name, level[name]) in entries
    ensures SortedBy(entries, TreeKey)
    ensures forall p, q :: 0 <= p < q < |entries| && entries[q].1.Folder? ==> entries[p].1.Folder?
  {
    var listed := EntriesOf(level);
    var a := new (string, Node)[|listed|](k requires 0 <= k < |listed| => listed[k]);
    assert a[..] == listed;
    SortFoldersFirst(a, TreeKey);
    entries := a[..];
    SameElements(listed, entries);
    SortedMeansFoldersFirst(entries, TreeKey);
  }

  /** `Object.entries(node)`: each child once, in some order. */
  method EntriesOf(level: Level) returns (listed: seq<(string, Node)>)
    ensures |listed| == |level|
    ensures forall e :: e in listed ==> e.0 in level && level[e.0] == e.1
    ensures forall name :: name in level ==> (name, level[name]) in listed
  {
    var names := level.Keys;
    listed := [];
    while names != {}
      invariant names <= level.Keys
      invariant forall e :: e in listed ==> e.0 in level && level[e.0] == e.1
      invariant forall e :: e in listed ==> e.0 !in names
      invariant forall name :: name in level ==> name in names || (name, level[name]) in listed
      invariant |listed| + |names| == |level|
      decreases names
    {
      var name :| name in names;
      listed := listed + [(name, level[name])];
      names := names - {name};
    }
  }

  lemma SameElements<T>(s: seq<T>, t: seq<T>)
    requires multiset(s) == multiset(t)
    ensures |s| == |t|
    ensures forall e :: e in s <==> e in t
  {
    assert |s| == |multiset(s)|;
    forall e ensures e in s <==> e in t {
      assert e in s <==> e in multiset(s);
      assert e in t <==> e in multiset(t);
    }
  }

  /**
   * The render order does not depend on the order in which the entries
   * were enumerated: names at one level are distinct, so there is only
   * one sorted arrangement.
   */
  lemma RenderOrderUnique(level: Level, s: seq<(string, Node)>, t: seq<(string, Node)>)
    requires multiset(s) == multiset(t)
    requires forall k :: 0 <= k < |s| ==> s[k].0 in level && level[s[k].0] == s[k].1
    requires forall p, q :: 0 <= p < q < |s| ==> s[p] != s[q]
    requires SortedBy(s, TreeKey) && SortedBy(t, TreeKey)
    ensures s == t
  {
    SortedPermutationUnique(s, t, TreeKey);
  }
}

=== FILE: diff.dfy ===
/**
 * The unsaved-changes viewer's line diff (cms-admin-v2.js,
 * `showDiffViewer`): both texts are split into lines and compared
 * position by position, with no alignment. An equal pair prints as
 * "  line"; a differing pair prints as "- old" then "+ new". A position
 * past the end of the shorter text reads as the empty line.
 */
module Diff {
  import opened Strings

  /** One position of the comparison. */
  datatype Row = Same(line: string) | Changed(before: string, after: string)

  /** `lines[i] || ""`: the line, or "" past the end. */
  function LineAt(lines: seq<string>, i: nat): (line: string)
    ensures i < |lines| ==> line == lines[i]
    ensures i >= |lines| ==> line == ""
  {
    if i < |lines| then lines[i] else ""
  }

  function Max(a: nat, b: nat): (m: nat)
    ensures m >= a && m >= b && (m == a || m == b)
  {
    if a < b then b else a
  }

  /** The row at position `i`. */
  function RowAt(o: seq<string>, n: seq<string>, i: nat): (row: Row)
    ensures row.Same? <==> LineAt(o, i) == LineAt(n, i)
    ensures row.Same? ==> row.line == LineAt(o, i)
    ensures row.Changed? ==> row.before == LineAt(o, i) && row.after == LineAt(n, i)
  {
    if LineAt(o, i) != LineAt(n, i) then Changed(LineAt(o, i), LineAt(n, i)) else Same(LineAt(o, i))
  }

  /** Every position up to the longer of the two line lists. */
  function Rows(o: seq<string>, n: seq<string>): (rows: seq<Row>)
    ensures |rows| == Max(|o|, |n|)
    ensures forall i :: 0 <= i < |rows| ==> rows[i] == RowAt(o, n, i)
  {
    seq(Max(|o|, |n|), i requires 0 <= i => RowAt(o, n, i))
  }

  /** The printed form of one row. */
  function RowText(row: Row): string
  {
    match row
    case Same(line) => "  " + line + "\n"
    case Changed(before, after) => "- " + before + "\n" + "+ " + after + "\n"
  }

  function Render(rows: seq<Row>): string
  {
    if rows == [] then "" else Render(rows[..|rows| - 1]) + RowText(rows[|rows| - 1])
  }

  /** The diff loop: one row's text appended per position. */
  method DiffText(oldContent: string, newContent: string) returns (text: string)
    ensures text == Render(Rows(Split(oldContent, '\n'), Split(newContent, '\n')))
  {
    var oldLines := Split(oldContent, '\n');
    var newLines := Split(newContent, '\n');
    ghost var rows := Rows(oldLines, newLines);
    text := "";
    var max := Max(|oldLines|, |newLines|);
    var i := 0;
    while i < max
      invariant 0 <= i <= max
      invariant text == Render(rows[..i])
    {
      var oldLine := LineAt(oldLines, i);
      var newLine := LineAt(newLines, i);
      RenderStep(rows, i);
      if oldLine != newLine {
        text := text + ("- " + oldLine + "\n" + "+ " + newLine + "\n");
      } else {
        text := text + ("  " + oldLine + "\n");
      }
      i := i + 1;
    }
    assert rows[..max] == rows;
  }

  lemma RenderStep(rows: seq<Row>, i: nat)
    requires i < |rows|
    ensures Render(rows[..i + 1]) == Render(rows[..i]) + RowText(rows[i])
  {
    assert rows[..i + 1][..i] == rows[..i];
  }

  // ---------------------------------------------------------------
  // What the rows say about the two texts
  // ---------------------------------------------------------------

  /** The left column: what each row says the old text had there. */
  function Before(rows: seq<Row>): (lines: seq<string>)
    ensures |lines| == |rows|
    ensures forall i :: 0 <= i < |rows| ==> lines[i] == (if rows[i].Same? then rows[i].line else rows[i].before)
  {
    seq(|rows|, i requires 0 <= i < |rows| => if rows[i].Same? then rows[i].line else rows[i].before)
  }

  /** The right column: what each row says the new text has there. */
  function After(rows: seq<Row>): (lines: seq<string>)
    ensures |lines| == |rows|
    ensures forall i :: 0 <= i < |rows| ==> lines[i] == (if rows[i].Same? then rows[i].line else rows[i].after)
  {
    seq(|rows|, i requires 0 <= i < |rows| => if rows[i].Same? then rows[i].line else rows[i].after)
  }

  /**
   * Nothing is lost: the left column read back gives the old text, the
   * right column the new one, and past the end of the shorter text its
   * column holds only empty lines.
   */
  lemma DiffKeepsBothSides(oldContent: string, newContent: string)
    ensures var o := Split(oldContent, '\n');
            var n := Split(newContent, '\n');
            var rows := Rows(o, n);
            && Join(Before(rows)[..|o|], '\n') == oldContent
            && Join(After(rows)[..|n|], '\n') == newContent
            && (forall i :: |o| <= i < |rows| ==> Before(rows)[i] == "")
            && (forall i :: |n| <= i < |rows| ==> After(rows)[i] == "")
  {
    var o := Split(oldContent, '\n');
    var n := Split(newContent, '\n');
    var rows := Rows(o, n);
    assert Before(rows)[..|o|] == o;
    assert After(rows)[..|n|] == n;
    JoinSplit(oldContent, '\n');
    JoinSplit(newContent, '\n');
  }

  /** Comparing a text with itself marks nothing and prints every line indented. */
  lemma {:induction false} UnchangedPrintsIndented(lines: seq<string>)
    ensures Render(Rows(lines, lines)) == Indented(lines)
    decreases |lines|
  {
    if lines != [] {
      var shorter := lines[..|lines| - 1];
      assert Rows(lines, lines)[..|lines| - 1] == Rows(shorter, shorter);
      UnchangedPrintsIndented(shorter);
    }
  }

  /** Every line prefixed with two spaces and ended by a newline. */
  function Indented(lines: seq<string>): string
  {
    if lines == [] then "" else Indented(lines[..|lines| - 1]) + "  " + lines[|lines| - 1] + "\n"
  }
}

=== FILE: file_ops.dfy ===
/**
 * The file operations the admin sidebar builds by hand out of the store's
 * three primitives: the write that first looks up the current sha, folder
 * creation through a placeholder file, move and rename (read, write the new
 * path, delete the old one), duplicate, the recursive delete, and publish.
 *
 * Every operation runs its requests one after the other and gives up at the
 * first request that fails, leaving whatever was already done in place; the
 * JavaScript does this by letting the exception propagate. `Outcome` records
 * how the operation ended.
 */
module FileOps {
  import opened Strings
  import opened Store

  datatype Outcome =
    | Skipped          // a prompt or confirmation was dismissed: no request sent
    | Completed        // every request succeeded
    | Failed(error: Error)  // a request failed (or none could be sent)
    | Crashed          // the client threw on an answer of an unexpected shape

  /** What `file.content` and `file.sha` read from a GET answer. */
  function ContentOf(res: Resource): (c: Option<string>)
    ensures c.Some? <==> res.FileRes?
  {
    if res.FileRes? then Some(res.content) else None
  }

  function ShaOf(res: Resource): (t: Option<Sha>)
    ensures t.Some? <==> res.FileRes?
  {
    if res.FileRes? then Some(res.sha) else None
  }

  /** The sha a read of `loc` reports: the file's sha, or nothing when the read was lost or found no file. */
  ghost function ShaRead(files: map<Loc, Blob>, loc: Loc, lost: bool): Option<Sha>
  {
    if !lost && loc in files then Some(files[loc].sha) else None
  }

  // ---------------------------------------------------------------
  // Write with sha lookup
  // ---------------------------------------------------------------

  /** `getFileSha`: the current sha of a file, or nothing; never fails. */
  method GetFileSha(s: GitHubStore, loc: Loc) returns (sha: Option<Sha>)
    requires s.Valid()
    modifies s
    ensures s.Valid() && s.files == old(s.files) && s.nextSha == old(s.nextSha)
    ensures s.log == old(s.log) + Sent(s.hasToken, Call(GetReq(loc), |old(s.log)| !in s.faults && GetOk(s.files, loc)))
    ensures sha == ShaRead(s.files, loc, !s.hasToken || |old(s.log)| in s.faults)
  {
    var got := s.Get(loc);
    sha := if got.Ok? then ShaOf(got.value) else None;
  }

  /**
   * `commitFile`: look the sha up, then PUT the content, carrying the sha
   * exactly when the lookup found a file. With both requests delivered to a
   * well-formed path that does not clash with a folder, this is an upsert.
   */
  method CommitFile(s: GitHubStore, loc: Loc, content: string, message: string, branch: Option<string>)
    returns (r: Result<Sha>)
    requires s.Valid()
    modifies s
    ensures s.Valid()
    ensures !s.hasToken ==> r == Err(Unauthorized) && s.log == old(s.log)
    ensures s.hasToken ==>
      var k := |old(s.log)|;
      s.log == old(s.log) + [
        Call(GetReq(loc), k !in s.faults && GetOk(old(s.files), loc)),
        Call(PutReq(loc, PutBody(message, Some(content), ShaRead(old(s.files), loc, k in s.faults), branch)), r.Ok?)]
    ensures r.Ok? ==> s.files == old(s.files)[loc := Blob(content, r.value)] && r.value == old(s.nextSha)
    ensures r.Err? ==> s.files == old(s.files)
    ensures s.nextSha == if r.Ok? then old(s.nextSha) + 1 else old(s.nextSha)
    ensures s.hasToken && NoneLost(s.faults, |old(s.log)|, 2) && WellFormed(loc.path) && !Clashes(old(s.files), loc)
      ==> r.Ok?
    ensures s.hasToken && |old(s.log)| in s.faults && |old(s.log)| + 1 !in s.faults && loc in old(s.files)
      ==> r == Err(Conflict)
  {
    var sha := GetFileSha(s, loc);
    r := s.Put(loc, PutBody(message, Some(content), sha, branch));
  }

  /**
   * The two requests a commit sends, as the callers of `CommitFile` see
   * them: a GET of the path, then a PUT of `content` with `message`,
   * carrying the sha the file had in `files` exactly when the GET
   * succeeded and found a file.
   */
  ghost predicate Committed(files: map<Loc, Blob>, before: seq<Call>, after: seq<Call>, loc: Loc, content: string,
                            message: string, branch: Option<string>, token: bool)
  {
    if !token then after == before
    else
      && |after| == |before| + 2
      && after[..|before|] == before
      && after[|before|].req == GetReq(loc)
      && after[|before| + 1].req.PutReq?
      && after[|before| + 1].req.loc == loc
      && after[|before| + 1].req.body.message == message
      && after[|before| + 1].req.body.content == Some(content)
      && after[|before| + 1].req.body.branch == branch
      && after[|before| + 1].req.body.sha == ShaRead(files, loc, !after[|before|].ok)
  }

  function OutcomeOf<T>(r: Result<T>): (o: Outcome)
    ensures o == Completed <==> r.Ok?
    ensures r.Err? ==> o == Failed(r.error)
  {
    if r.Ok? then Completed else Failed(r.error)
  }

  // ---------------------------------------------------------------
  // New file and new folder
  // ---------------------------------------------------------------

  /** `prompt` answered with nothing or with the empty string. */
  predicate Dismissed(answer: Option<string>)
  {
    answer.None? || answer.value == ""
  }

  /** `createNewFile`: an empty file named by the prompt, inside `parentPath`. */
  method CreateNewFile(s: GitHubStore, repo: string, parentPath: Path, name: Option<string>) returns (r: Outcome)
    requires s.Valid()
    modifies s
    ensures s.Valid()
    ensures Dismissed(name) ==> r == Skipped && s.log == old(s.log) && s.files == old(s.files)
    ensures !Dismissed(name) ==>
      var loc := Loc(repo, JoinPath(parentPath, name.value));
      && (r == Completed || r.Failed?)
      && Committed(old(s.files), old(s.log), s.log, loc, "", "Create file " + loc.path, None, s.hasToken)
      && (r == Completed ==> s.files == old(s.files)[loc := Blob("", old(s.nextSha))])
      && (r.Failed? ==> s.files == old(s.files))
  {
    if Dismissed(name) {
      return Skipped;
    }
    var fullPath := JoinPath(parentPath, name.value);
    var c := CommitFile(s, Loc(repo, fullPath), "", "Create file " + fullPath, None);
    r := OutcomeOf(c);
  }

  /** Where a folder's placeholder file goes. */
  function KeepFile(folder: Path): Path
  {
    folder + "/.keep"
  }

  /**
   * `createNewFolder`: the store has no folders, so the folder is made to
   * exist by writing exactly one empty placeholder file inside it.
   */
  method CreateNewFolder(s: GitHubStore, repo: string, parentPath: Path, name: Option<string>) returns (r: Outcome)
    requires s.Valid()
    modifies s
    ensures s.Valid()
    ensures Dismissed(name) ==> r == Skipped && s.log == old(s.log) && s.files == old(s.files)
    ensures !Dismissed(name) ==>
      var folder := JoinPath(parentPath, name.value);
      var loc := Loc(repo, KeepFile(folder));
      && (r == Completed || r.Failed?)
      && Committed(old(s.files), old(s.log), s.log, loc, "", "Create folder " + folder, None, s.hasToken)
      && (r == Completed ==> s.files == old(s.files)[loc := Blob("", old(s.nextSha))])
      && (r.Failed? ==> s.files == old(s.files))
  {
    if Dismissed(name) {
      return Skipped;
    }
    var fullPath := JoinPath(parentPath, name.value);
    var c := CommitFile(s, Loc(repo, KeepFile(fullPath)), "", "Create folder " + fullPath, None);
    r := OutcomeOf(c);
  }

  /** The first '/' of `name + "/" + tail` is the one after `name`. */
  lemma SlashAfterName(name: string, tail: string)
    requires '/' !in name
    ensures IndexOf(name + "/" + tail, '/') == |name|
  {
    var t := name + "/" + tail;
    assert t[|name|] == '/';
    assert forall j :: 0 <= j < |name| ==> t[j] == name[j];
  }

  /**
   * Once the placeholder is stored, the parent folder's listing shows the
   * new folder, by its name, as a folder.
   */
  lemma {:induction false} NewFolderListed(files: map<Loc, Blob>, repo: string, parentPath: Path, name: string, b: Blob)
    requires name != "" && '/' !in name
    ensures var folder := JoinPath(parentPath, name);
      Entry(name, folder, Dir) in Children(files[Loc(repo, KeepFile(folder)) := b], Loc(repo, parentPath))
  {
    var folder := JoinPath(parentPath, name);
    var keep := KeepFile(folder);
    var pre := DirPrefix(parentPath);
    assert folder == pre + name;
    assert keep == pre + (name + "/" + ".keep");
    assert keep[..|pre|] == pre;
    assert Below(keep, parentPath);
    var rest := keep[|pre|..];
    assert rest == name + "/" + ".keep";
    SlashAfterName(name, ".keep");
    assert rest[..|name|] == name;
    assert ChildToward(parentPath, keep) == Entry(name, folder, Dir);
    var files' := files[Loc(repo, keep) := b];
    assert Loc(repo, keep) in files';
  }

  // ---------------------------------------------------------------
  // Move and rename: read, write the new path, delete the old path
  // ---------------------------------------------------------------

  /**
   * The three requests of a relocation when all of them run: GET the
   * source, PUT what was read at the destination (carrying the source's sha
   * when `carrySha`), DELETE the source with its sha. A folder reads back
   * with neither content nor sha.
   */
  ghost function TransferRequests(files: map<Loc, Blob>, src: Loc, dst: Loc, putMessage: string,
                                  deleteMessage: string, carrySha: bool): seq<Request>
  {
    var content := if src in files then Some(files[src].content) else None;
    var sha := if src in files then Some(files[src].sha) else None;
    [ GetReq(src),
      PutReq(dst, PutBody(putMessage, content, if carrySha then sha else None, None)),
      DeleteReq(src, deleteMessage, sha) ]
  }

  /**
   * What a relocation did, given the store's files, log and next sha
   * before it: the requests ran in order and stopped at the first failure;
   * without a token nothing was sent; the store is unchanged unless all
   * three requests ran; once they have, the content is at `dst` under a
   * fresh sha, and `src` is gone exactly when the DELETE succeeded.
   */
  ghost predicate Relocated(s: GitHubStore, files0: map<Loc, Blob>, log0: seq<Call>, sha0: Sha, src: Loc, dst: Loc,
                            putMessage: string, deleteMessage: string, carrySha: bool, r: Outcome)
    reads s
  {
    && (r == Completed || r.Failed?)
    && (!s.hasToken ==> r == Failed(Unauthorized) && s.log == log0 && s.files == files0)
    && (s.hasToken ==>
          && |log0| + 1 <= |s.log| <= |log0| + 3
          && Ran(log0, s.log, TransferRequests(files0, src, dst, putMessage, deleteMessage, carrySha)[..|s.log| - |log0|],
                 r == Completed))
    && (|s.log| < |log0| + 3 ==> s.files == files0)
    && (r == Completed ==> |s.log| == |log0| + 3)
    && (|s.log| == |log0| + 3 ==>
          && src in files0
          && s.files == files0[dst := Blob(files0[src].content, sha0)] - (if r == Completed then {src} else {}))
  }

  /**
   * The relocation shared by move and rename. It is not atomic: the
   * requests run in order and stop at the first failure; until the DELETE
   * runs nothing in the store has changed, and a failed DELETE leaves the
   * content at both paths.
   */
  method Transfer(s: GitHubStore, src: Loc, dst: Loc, putMessage: string, deleteMessage: string, carrySha: bool)
    returns (r: Outcome)
    requires s.Valid()
    modifies s
    ensures s.Valid()
    ensures Relocated(s, old(s.files), old(s.log), old(s.nextSha), src, dst, putMessage, deleteMessage, carrySha, r)
    ensures s.hasToken && NoneLost(s.faults, |old(s.log)|, 3) && src in old(s.files) && dst !in old(s.files)
            && WellFormed(dst.path) && !Clashes(old(s.files), dst)
      ==> if carrySha then r == Failed(Conflict) && s.files == old(s.files)
          else r == Completed && s.files == old(s.files)[dst := Blob(old(s.files)[src].content, old(s.nextSha))] - {src}
  {
    ghost var files0 := s.files;
    ghost var reqs := TransferRequests(files0, src, dst, putMessage, deleteMessage, carrySha);
    ghost var log0 := s.log;
    var got := s.Get(src);
    if !s.hasToken {
      return Failed(got.error);
    }
    RanOneMore(log0, log0, [], reqs[0], got.Ok?);
    assert reqs[..1] == [] + [reqs[0]];
    if got.Err? {
      r := Failed(got.error);
      assert |s.log| - |log0| == 1;
      return;
    }
    ghost var log1 := s.log;
    assert |log1| == |log0| + 1 && s.files == files0;
    assert NoneLost(s.faults, |log0|, 3) ==> NoneLost(s.faults, |log1|, 2);
    r := WriteThenRemove(s, src, dst, got.value, putMessage, deleteMessage, carrySha);
    ghost var n := |s.log| - |log1|;
    ghost var tail := WriteThenRemoveRequests(src, dst, got.value, putMessage, deleteMessage, carrySha);
    RanConcat(log0, log1, s.log, reqs[..1], tail[..n], r == Completed);
    TransferSplits(files0, src, dst, got.value, putMessage, deleteMessage, carrySha, n);
  }

  /** The requests of a relocation are its GET followed by those of `WriteThenRemove`. */
  lemma TransferSplits(files: map<Loc, Blob>, src: Loc, dst: Loc, res: Resource, putMessage: string,
                       deleteMessage: string, carrySha: bool, n: nat)
    requires GetAnswer(files, src, res) && n <= 2
    ensures var reqs := TransferRequests(files, src, dst, putMessage, deleteMessage, carrySha);
            reqs[..1] + WriteThenRemoveRequests(src, dst, res, putMessage, deleteMessage, carrySha)[..n] == reqs[..n + 1]
  {
  }

  /** The PUT and the DELETE of a relocation, once the read answered `res`. */
  function WriteThenRemoveRequests(src: Loc, dst: Loc, res: Resource, putMessage: string, deleteMessage: string,
                                   carrySha: bool): seq<Request>
  {
    [ PutReq(dst, PutBody(putMessage, ContentOf(res), if carrySha then ShaOf(res) else None, None)),
      DeleteReq(src, deleteMessage, ShaOf(res)) ]
  }

  /** The second half of `Transfer`: write what was read at `dst`, then delete `src`. */
  method WriteThenRemove(s: GitHubStore, src: Loc, dst: Loc, res: Resource, putMessage: string,
                         deleteMessage: string, carrySha: bool) returns (r: Outcome)
    requires s.Valid() && s.hasToken
    requires GetAnswer(s.files, src, res)
    modifies s
    ensures s.Valid()
    ensures r == Completed || r.Failed?
    ensures var n := |s.log| - |old(s.log)|;
      && 1 <= n <= 2
      && Ran(old(s.log), s.log, WriteThenRemoveRequests(src, dst, res, putMessage, deleteMessage, carrySha)[..n],
             r == Completed)
    ensures |s.log| < |old(s.log)| + 2 ==> s.files == old(s.files)
    ensures r == Completed ==> |s.log| == |old(s.log)| + 2
    ensures |s.log| == |old(s.log)| + 2 ==>
      && src in old(s.files)
      && s.files == old(s.files)[dst := Blob(old(s.files)[src].content, old(s.nextSha))]
                    - (if r == Completed then {src} else {})
    ensures NoneLost(s.faults, |old(s.log)|, 2) && src in old(s.files) && dst !in old(s.files)
            && WellFormed(dst.path) && !Clashes(old(s.files), dst)
      ==> if carrySha then r == Failed(Conflict) && s.files == old(s.files)
          else r == Completed && s.files == old(s.files)[dst := Blob(old(s.files)[src].content, old(s.nextSha))] - {src}
  {
    ghost var reqs := WriteThenRemoveRequests(src, dst, res, putMessage, deleteMessage, carrySha);
    ghost var log0 := s.log;
    var sha := ShaOf(res);
    var put := s.Put(dst, PutBody(putMessage, ContentOf(res), if carrySha then sha else None, None));
    RanOneMore(log0, log0, [], reqs[0], put.Ok?);
    assert reqs[..1] == [] + [reqs[0]];
    if put.Err? {
      r := Failed(put.error);
      assert |s.log| - |log0| == 1;
      return;
    }
    ghost var log1 := s.log;
    var del := s.Delete(src, deleteMessage, sha);
    RanOneMore(log0, log1, reqs[..1], reqs[1], del.Ok?);
    assert reqs[..2] == reqs[..1] + [reqs[1]];
    assert |s.log| - |log0| == 2;
    r := if del.Err? then Failed(del.error) else Completed;
  }

  /** `moveItem`'s destination: the dragged item's name inside the target folder. */
  function MoveTarget(oldPath: Path, targetFolder: Path): (p: Path)
    ensures StartsWith(p, targetFolder + "/")
  {
    targetFolder + "/" + LastSegment(oldPath)
  }

  /**
   * `moveItem` as written: the PUT at the new path carries the SOURCE's
   * sha, which the store reads as "replace the file at the new path that
   * has this sha". Moving a file to a path where nothing is stored is
   * therefore always refused, and nothing changes.
   */
  method MoveItemAsWritten(s: GitHubStore, repo: string, oldPath: Path, targetFolder: Path) returns (r: Outcome)
    requires s.Valid()
    modifies s
    ensures s.Valid()
    ensures var newPath := MoveTarget(oldPath, targetFolder);
      Relocated(s, old(s.files), old(s.log), old(s.nextSha), Loc(repo, oldPath), Loc(repo, newPath),
                "Move " + oldPath + " → " + newPath, "Remove old path " + oldPath, true, r)
    ensures var src, dst := Loc(repo, oldPath), Loc(repo, MoveTarget(oldPath, targetFolder));
      s.hasToken && NoneLost(s.faults, |old(s.log)|, 3) && src in old(s.files) && dst !in old(s.files)
      && WellFormed(dst.path) && !Clashes(old(s.files), dst)
      ==> r == Failed(Conflict) && s.files == old(s.files)
  {
    var newPath := MoveTarget(oldPath, targetFolder);
    r := Transfer(s, Loc(repo, oldPath), Loc(repo, newPath),
                  "Move " + oldPath + " → " + newPath, "Remove old path " + oldPath, true);
  }

  /**
   * `moveItem` with the PUT sent as a plain create: the requests run GET,
   * PUT, DELETE in that order; a failed PUT leaves the store untouched and
   * sends no DELETE; a failed DELETE leaves the content at both paths; and
   * with every request delivered, a file moves to a free path.
   */
  method MoveItem(s: GitHubStore, repo: string, oldPath: Path, targetFolder: Path) returns (r: Outcome)
    requires s.Valid()
    modifies s
    ensures s.Valid()
    ensures var newPath := MoveTarget(oldPath, targetFolder);
      Relocated(s, old(s.files), old(s.log), old(s.nextSha), Loc(repo, oldPath), Loc(repo, newPath),
                "Move " + oldPath + " → " + newPath, "Remove old path " + oldPath, false, r)
    ensures var src, dst := Loc(repo, oldPath), Loc(repo, MoveTarget(oldPath, targetFolder));
      s.hasToken && NoneLost(s.faults, |old(s.log)|, 3) && src in old(s.files) && dst !in old(s.files)
      && WellFormed(dst.path) && !Clashes(old(s.files), dst)
      ==> r == Completed && s.files == old(s.files)[dst := Blob(old(s.files)[src].content, old(s.nextSha))] - {src}
  {
    var newPath := MoveTarget(oldPath, targetFolder);
    r := Transfer(s, Loc(repo, oldPath), Loc(repo, newPath),
                  "Move " + oldPath + " → " + newPath, "Remove old path " + oldPath, false);
  }

  /**
   * The store's answer to the move's PUT as written: a sha for a path
   * where nothing is stored is a conflict, whatever the sha.
   */
  lemma SourceShaRefusedAtFreePath(files: map<Loc, Blob>, dst: Loc, message: string, content: string,
                                   sourceSha: Sha, minted: Sha)
    requires dst !in files
    ensures PutVerdict(files, dst, PutBody(message, Some(content), Some(sourceSha), None), minted).Err?
  {
  }

  /** `renameItem`'s destination: the new name in the same folder. */
  function RenameTarget(path: Path, newName: string): Path
  {
    JoinPath(ParentPath(path), newName)
  }

  /** `renameItem` as written: the same sha-carrying PUT as the move. */
  method RenameItemAsWritten(s: GitHubStore, repo: string, path: Path, newName: Option<string>) returns (r: Outcome)
    requires s.Valid()
    modifies s
    ensures s.Valid()
    ensures Dismissed(newName) ==> r == Skipped && s.log == old(s.log) && s.files == old(s.files)
    ensures !Dismissed(newName) ==>
      var newPath := RenameTarget(path, newName.value);
      Relocated(s, old(s.files), old(s.log), old(s.nextSha), Loc(repo, path), Loc(repo, newPath),
                "Rename " + path + " → " + newPath, "Remove old name " + path, true, r)
    ensures !Dismissed(newName) ==>
      var src, dst := Loc(repo, path), Loc(repo, RenameTarget(path, newName.value));
      s.hasToken && NoneLost(s.faults, |old(s.log)|, 3) && src in old(s.files) && dst !in old(s.files)
      && WellFormed(dst.path) && !Clashes(old(s.files), dst)
      ==> r == Failed(Conflict) && s.files == old(s.files)
  {
    if Dismissed(newName) {
      return Skipped;
    }
    var newPath := RenameTarget(path, newName.value);
    r := Transfer(s, Loc(repo, path), Loc(repo, newPath),
                  "Rename " + path + " → " + newPath, "Remove old name " + path, true);
  }

  /**
   * `renameItem` with the PUT sent as a plain create: the new path is in
   * the same folder; the old path is deleted only after the write
   * succeeded; with every request delivered, a file is renamed to a free
   * name.
   */
  method RenameItem(s: GitHubStore, repo: string, path: Path, newName: Option<string>) returns (r: Outcome)
    requires s.Valid()
    modifies s
    ensures s.Valid()
    ensures Dismissed(newName) ==> r == Skipped && s.log == old(s.log) && s.files == old(s.files)
    ensures !Dismissed(newName) ==>
      var newPath := RenameTarget(path, newName.value);
      Relocated(s, old(s.files), old(s.log), old(s.nextSha), Loc(repo, path), Loc(repo, newPath),
                "Rename " + path + " → " + newPath, "Remove old name " + path, false, r)
    ensures !Dismissed(newName) ==>
      var src, dst := Loc(repo, path), Loc(repo, RenameTarget(path, newName.value));
      s.hasToken && NoneLost(s.faults, |old(s.log)|, 3) && src in old(s.files) && dst !in old(s.files)
      && WellFormed(dst.path) && !Clashes(old(s.files), dst)
      ==> r == Completed && s.files == old(s.files)[dst := Blob(old(s.files)[src].content, old(s.nextSha))] - {src}
  {
    if Dismissed(newName) {
      return Skipped;
    }
    var newPath := RenameTarget(path, newName.value);
    r := Transfer(s, Loc(repo, path), Loc(repo, newPath),
                  "Rename " + path + " → " + newPath, "Remove old name " + path, false);
  }

  /** A rename keeps the item in its folder and gives it the new name. */
  lemma {:induction false} RenameStaysInFolder(path: Path, newName: string)
    requires '/' !in newName
    ensures ParentPath(RenameTarget(path, newName)) == ParentPath(path)
    ensures LastSegment(RenameTarget(path, newName)) == newName
  {
    JoinThenSplit(ParentPath(path), newName);
  }

  // ---------------------------------------------------------------
  // Recursive delete
  // ---------------------------------------------------------------

  /** No file of `repo` is at or below `path`. */
  ghost predicate Cleared(files: map<Loc, Blob>, repo: string, path: Path)
  {
    forall l | l in files && l.repo == repo :: !AtOrBelow(l.path, path)
  }

  /** None of the first `n` entries has a file of `repo` left at or below it. */
  ghost predicate AllCleared(files: map<Loc, Blob>, repo: string, entries: seq<Entry>, n: nat)
    requires n <= |entries|
  {
    forall j :: 0 <= j < n ==> Cleared(files, repo, entries[j].path)
  }

  /** Deleting more files keeps the cleared entries cleared, and adds the one just cleared. */
  lemma AllClearedStep(files1: map<Loc, Blob>, files2: map<Loc, Blob>, repo: string, entries: seq<Entry>, i: nat)
    requires i < |entries| && files2.Keys <= files1.Keys
    requires AllCleared(files1, repo, entries, i) && Cleared(files2, repo, entries[i].path)
    ensures AllCleared(files2, repo, entries, i + 1)
  {
  }

  /** The user confirmed every deletion at or below `path`. */
  predicate NoneDeclined(declined: set<Path>, path: Path)
  {
    forall q | q in declined :: !AtOrBelow(q, path)
  }

  /** Only files of `repo` at or below `path` were removed, and nothing was changed. */
  ghost predicate RemovedOnlyUnder(before: map<Loc, Blob>, after: map<Loc, Blob>, repo: string, path: Path)
  {
    && after.Keys <= before.Keys
    && (forall l | l in after :: after[l] == before[l])
    && (forall l | l in before && l !in after :: l.repo == repo && AtOrBelow(l.path, path))
  }

  /**
   * What a recursive delete under `path` did between two states: it
   * removed some files of `repo` at or below `path` and changed nothing
   * else, it only appended to the log and stopped at its first failure,
   * and the files it removed are exactly those of its successful DELETE
   * requests.
   */
  ghost predicate DeleteRun(files0: map<Loc, Blob>, files: map<Loc, Blob>, log0: seq<Call>, log: seq<Call>,
                            repo: string, path: Path)
  {
    && RemovedOnlyUnder(files0, files, repo, path)
    && |log0| <= |log| && log[..|log0|] == log0
    && files0.Keys - files.Keys == DeletedLocs(log[|log0|..])
    && OkUntilLast(log[|log0|..])
  }

  /** The outcome reports a failure exactly when the last request failed. */
  ghost predicate Reported(r: Outcome, calls: seq<Call>)
  {
    r.Failed? <==> |calls| > 0 && !calls[|calls| - 1].ok
  }

  /**
   * `deleteItem`: ask for confirmation (the paths in `declined` are the ones
   * the user refuses); delete a file by reading its sha and deleting it; for
   * anything else, list it and delete each listed entry in listing order,
   * recursively. The first failing request ends the whole operation:
   * what was deleted before it stays deleted and nothing after it is
   * attempted. When it completes with every confirmation given, no file at
   * or below the path is left.
   *
   * `bound` is proof-only: no stored path below `path` is longer, so the
   * recursion, which goes one level deeper each time, ends.
   */
  method DeleteItem(s: GitHubStore, repo: string, path: Path, kind: Kind, declined: set<Path>, ghost bound: nat)
    returns (r: Outcome)
    requires s.Valid()
    requires |path| <= bound
    requires forall l | l in s.files && l.repo == repo && Below(l.path, path) :: |l.path| <= bound
    modifies s
    decreases bound - |path|, 2
    ensures s.Valid() && s.nextSha == old(s.nextSha)
    ensures DeleteRun(old(s.files), s.files, old(s.log), s.log, repo, path)
    ensures s.hasToken ==> Reported(r, s.log[|old(s.log)|..])
    ensures r == Skipped <==> path in declined
    ensures r == Skipped ==> s.log == old(s.log) && s.files == old(s.files)
    ensures !s.hasToken && path !in declined ==> r == Failed(Unauthorized) && s.log == old(s.log) && s.files == old(s.files)
    ensures NoNesting(old(s.files)) ==> NoNesting(s.files)
    ensures NoNesting(old(s.files)) && r == Completed && NoneDeclined(declined, path) ==> Cleared(s.files, repo, path)
  {
    if path in declined {
      return Skipped;
    }
    var loc := Loc(repo, path);
    var got := s.Get(loc);
    if got.Err? {
      return Failed(got.error);
    }
    ghost var log1 := s.log;
    if kind == File {
      r := DeleteFile(s, loc, ShaOf(got.value));
    } else if got.value.FileRes? {
      r := Crashed;
    } else {
      r := DeleteChildren(s, loc, got.value.entries, declined, bound);
    }
    DeleteRunAfterGet(old(s.files), s.files, old(s.log), log1, s.log, loc, r);
  }

  /**
   * The file branch of `deleteItem`: one DELETE with the sha the preceding
   * GET returned (none when the path turned out to be a folder).
   */
  method DeleteFile(s: GitHubStore, loc: Loc, sha: Option<Sha>) returns (r: Outcome)
    requires s.Valid()
    modifies s
    ensures s.Valid() && s.nextSha == old(s.nextSha)
    ensures DeleteRun(old(s.files), s.files, old(s.log), s.log, loc.repo, loc.path)
    ensures r == Completed || r.Failed?
    ensures s.hasToken ==> Reported(r, s.log[|old(s.log)|..])
    ensures NoNesting(old(s.files)) ==> NoNesting(s.files)
    ensures NoNesting(old(s.files)) && r == Completed ==> Cleared(s.files, loc.repo, loc.path)
  {
    var message := "Delete file " + loc.path;
    var del := s.Delete(loc, message, sha);
    FileDeleteRun(old(s.files), s.files, old(s.log), s.log, loc, message, sha, s.hasToken, del.Ok?);
    if NoNesting(old(s.files)) {
      DeleteKeepsTree(old(s.files), loc);
      if del.Ok? {
        OnlyFileCleared(old(s.files), loc);
      }
    }
    if del.Err? {
      return Failed(del.error);
    }
    return Completed;
  }

  /**
   * The folder branch of `deleteItem`: delete each listed entry in turn,
   * stopping at the first one that fails.
   */
  method DeleteChildren(s: GitHubStore, dir: Loc, entries: seq<Entry>, declined: set<Path>, ghost bound: nat)
    returns (r: Outcome)
    requires s.Valid() && s.hasToken && dir !in s.files
    requires IsListing(entries, Children(s.files, dir))
    requires |dir.path| <= bound
    requires forall l | l in s.files && l.repo == dir.repo && Below(l.path, dir.path) :: |l.path| <= bound
    modifies s
    decreases bound - |dir.path|, 1
    ensures s.Valid() && s.nextSha == old(s.nextSha)
    ensures DeleteRun(old(s.files), s.files, old(s.log), s.log, dir.repo, dir.path)
    ensures r == Completed || r == Crashed || r.Failed?
    ensures Reported(r, s.log[|old(s.log)|..])
    ensures NoNesting(old(s.files)) ==> NoNesting(s.files)
    ensures NoNesting(old(s.files)) && r == Completed && NoneDeclined(declined, dir.path) ==>
      Cleared(s.files, dir.repo, dir.path)
  {
    ghost var files0 := s.files;
    ghost var log0 := s.log;
    var i := 0;
    while i < |entries|
      invariant 0 <= i <= |entries|
      invariant s.Valid() && s.nextSha == old(s.nextSha)
      invariant Progress(files0, s.files, log0, s.log, dir, entries, i, declined)
    {
      var sub := DeleteEntry(s, dir, entries, i, declined, bound, files0, log0);
      if sub.Failed? || sub == Crashed {
        return sub;
      }
      i := i + 1;
    }
    if NoNesting(files0) && NoneDeclined(declined, dir.path) {
      ClearedWhenChildrenCleared(files0, s.nextSha, s.files, dir, entries);
    }
    return Completed;
  }

  /** How far the folder branch of `deleteItem` got: the first `i` entries are done. */
  ghost predicate Progress(files0: map<Loc, Blob>, files: map<Loc, Blob>, log0: seq<Call>, log: seq<Call>,
                           dir: Loc, entries: seq<Entry>, i: nat, declined: set<Path>)
    requires i <= |entries|
  {
    && DeleteRun(files0, files, log0, log, dir.repo, dir.path)
    && AllOk(log[|log0|..])
    && (NoNesting(files0) ==> NoNesting(files))
    && (NoNesting(files0) && NoneDeclined(declined, dir.path) ==> AllCleared(files, dir.repo, entries, i))
  }

  /** One turn of the folder branch: delete the `i`-th listed entry. */
  method DeleteEntry(s: GitHubStore, dir: Loc, entries: seq<Entry>, i: nat, declined: set<Path>, ghost bound: nat,
                     ghost files0: map<Loc, Blob>, ghost log0: seq<Call>)
    returns (sub: Outcome)
    requires s.Valid() && s.hasToken && i < |entries|
    requires ValidFiles(files0, s.nextSha) && IsListing(entries, Children(files0, dir))
    requires forall l | l in files0 && l.repo == dir.repo && Below(l.path, dir.path) :: |l.path| <= bound
    requires Progress(files0, s.files, log0, s.log, dir, entries, i, declined)
    modifies s
    decreases bound - |dir.path|, 0
    ensures s.Valid() && s.nextSha == old(s.nextSha)
    ensures DeleteRun(files0, s.files, log0, s.log, dir.repo, dir.path)
    ensures Reported(sub, s.log[|log0|..])
    ensures NoNesting(files0) ==> NoNesting(s.files)
    ensures !sub.Failed? && sub != Crashed ==> Progress(files0, s.files, log0, s.log, dir, entries, i + 1, declined)
  {
    var e := entries[i];
    ListedChildShape(files0, s.nextSha, dir, e, bound);
    forall l | l in s.files && l.repo == dir.repo && Below(l.path, e.path)
      ensures |l.path| <= bound
    {
      BelowChild(l.path, dir.path, e.name);
    }
    ghost var files1 := s.files;
    ghost var log1 := s.log;
    sub := DeleteItem(s, dir.repo, e.path, e.kind, declined, bound);
    DeleteRunStep(files0, files1, s.files, log0, log1, s.log, dir.repo, dir.path, e, sub);
    if NoNesting(files0) && NoneDeclined(declined, dir.path) {
      ConfirmedBelow(declined, dir.path, e);
      if sub == Completed {
        AllClearedStep(files1, s.files, dir.repo, entries, i);
      }
    }
  }

  /** A single DELETE is a run under the deleted path. */
  lemma FileDeleteRun(files0: map<Loc, Blob>, files: map<Loc, Blob>, log0: seq<Call>, log: seq<Call>,
                      loc: Loc, message: string, sha: Option<Sha>, token: bool, ok: bool)
    requires log == log0 + Sent(token, Call(DeleteReq(loc, message, sha), ok))
    requires !token ==> !ok
    requires ok ==> loc in files0
    requires files == if ok then files0 - {loc} else files0
    ensures DeleteRun(files0, files, log0, log, loc.repo, loc.path)
  {
    var seg := log[|log0|..];
    if token {
      assert seg == [Call(DeleteReq(loc, message, sha), ok)];
      assert seg[..0] == [];
      assert DeletedLocs(seg) == if ok then {loc} else {};
    } else {
      assert seg == [];
    }
  }

  /** With no nesting, deleting a stored file leaves nothing at or below its path. */
  lemma OnlyFileCleared(files: map<Loc, Blob>, loc: Loc)
    requires NoNesting(files) && loc in files
    ensures Cleared(files - {loc}, loc.repo, loc.path)
  {
  }

  /** A successful listing GET followed by the run over the children is a run under the folder. */
  lemma DeleteRunAfterGet(files0: map<Loc, Blob>, files: map<Loc, Blob>, log0: seq<Call>, log1: seq<Call>,
                          log: seq<Call>, loc: Loc, r: Outcome)
    requires log1 == log0 + [Call(GetReq(loc), true)]
    requires DeleteRun(files0, files, log1, log, loc.repo, loc.path) && Reported(r, log[|log1|..])
    ensures DeleteRun(files0, files, log0, log, loc.repo, loc.path) && Reported(r, log[|log0|..])
  {
    var seg := log[|log0|..];
    assert seg == [Call(GetReq(loc), true)] + log[|log1|..];
    DeletedLocsAppend([Call(GetReq(loc), true)], log[|log1|..]);
    assert [Call(GetReq(loc), true)][..0] == [];
    OkConcat([Call(GetReq(loc), true)], log[|log1|..]);
  }

  /** One more child deleted: the run under the folder extends by the run under the child. */
  lemma DeleteRunStep(files0: map<Loc, Blob>, files1: map<Loc, Blob>, files2: map<Loc, Blob>,
                      log0: seq<Call>, log1: seq<Call>, log2: seq<Call>, repo: string, path: Path, e: Entry,
                      sub: Outcome)
    requires e.name != "" && e.path == DirPrefix(path) + e.name
    requires DeleteRun(files0, files1, log0, log1, repo, path) && AllOk(log1[|log0|..])
    requires DeleteRun(files1, files2, log1, log2, repo, e.path) && Reported(sub, log2[|log1|..])
    ensures DeleteRun(files0, files2, log0, log2, repo, path)
    ensures Reported(sub, log2[|log0|..])
    ensures !sub.Failed? ==> AllOk(log2[|log0|..])
  {
    RemovedStep(files0, files1, files2, repo, path, e);
    LogStep(log0, log1, log2, sub);
  }

  /** Files removed under a child of a folder are removed under the folder. */
  lemma RemovedStep(files0: map<Loc, Blob>, files1: map<Loc, Blob>, files2: map<Loc, Blob>,
                    repo: string, path: Path, e: Entry)
    requires e.name != "" && e.path == DirPrefix(path) + e.name
    requires RemovedOnlyUnder(files0, files1, repo, path)
    requires RemovedOnlyUnder(files1, files2, repo, e.path)
    ensures RemovedOnlyUnder(files0, files2, repo, path)
    ensures files0.Keys - files2.Keys == (files0.Keys - files1.Keys) + (files1.Keys - files2.Keys)
  {
    forall l | l in files0 && l !in files2 ensures l.repo == repo && AtOrBelow(l.path, path) {
      if l in files1 {
        BelowChild(l.path, path, e.name);
      }
    }
  }

  /** A run of successes followed by a run of the child's requests. */
  lemma LogStep(log0: seq<Call>, log1: seq<Call>, log2: seq<Call>, sub: Outcome)
    requires |log0| <= |log1| <= |log2| && log1[..|log0|] == log0 && log2[..|log1|] == log1
    requires AllOk(log1[|log0|..]) && OkUntilLast(log2[|log1|..]) && Reported(sub, log2[|log1|..])
    ensures log2[..|log0|] == log0
    ensures DeletedLocs(log2[|log0|..]) == DeletedLocs(log1[|log0|..]) + DeletedLocs(log2[|log1|..])
    ensures OkUntilLast(log2[|log0|..]) && Reported(sub, log2[|log0|..])
    ensures !sub.Failed? ==> AllOk(log2[|log0|..])
  {
    var a, b := log1[|log0|..], log2[|log1|..];
    assert log2[|log0|..] == a + b;
    DeletedLocsAppend(a, b);
    OkConcat(a, b);
    if !sub.Failed? && b != [] {
      assert b[|b| - 1].ok;
    }
  }

  /** Confirmation for everything under a folder covers everything under each child. */
  lemma ConfirmedBelow(declined: set<Path>, path: Path, e: Entry)
    requires e.name != "" && e.path == DirPrefix(path) + e.name
    requires NoneDeclined(declined, path)
    ensures NoneDeclined(declined, e.path)
  {
    forall q | q in declined ensures !AtOrBelow(q, e.path) {
      if AtOrBelow(q, e.path) {
        BelowChild(q, path, e.name);
      }
    }
  }

  /** A folder none of whose listed children has a file left has no file left. */
  lemma ClearedWhenChildrenCleared(files0: map<Loc, Blob>, nextSha: Sha, files: map<Loc, Blob>, dir: Loc,
                                   entries: seq<Entry>)
    requires ValidFiles(files0, nextSha)
    requires dir !in files0 && files.Keys <= files0.Keys
    requires IsListing(entries, Children(files0, dir))
    requires AllCleared(files, dir.repo, entries, |entries|)
    ensures Cleared(files, dir.repo, dir.path)
  {
    forall l | l in files && l.repo == dir.repo ensures !AtOrBelow(l.path, dir.path) {
      if AtOrBelow(l.path, dir.path) {
        ReachedThroughChild(files0, nextSha, dir, l);
      }
    }
  }

  // ---------------------------------------------------------------
  // Drag and drop
  // ---------------------------------------------------------------

  /** A sidebar row: the `data-repo`, `data-path` and `data-type` of a `.file-item`. */
  datatype Item = Item(repo: string, path: Path, kind: Kind)

  datatype DropDecision =
    | NotAFolder   // the row dropped on is not a folder: ignored
    | OtherRepo    // "Cannot move items between repos."
    | IntoItself   // "Cannot move a folder into itself or its own subfolder."
    | Accepted     // `moveItem` runs

  /**
   * The drop handler's checks as written: the folder test compares the
   * paths as strings, so a folder is also kept out of every sibling whose
   * name it begins ("blog" cannot go into "blog-archive").
   */
  function DropVerdictAsWritten(dragged: Item, target: Item): (v: DropDecision)
    ensures v == Accepted ==> target.kind == Dir && target.repo == dragged.repo
    ensures dragged.kind == Dir && target == dragged ==> v == IntoItself
  {
    if target.kind != Dir then NotAFolder
    else if target.repo != dragged.repo then OtherRepo
    else if dragged.kind == Dir && StartsWith(target.path, dragged.path) then IntoItself
    else Accepted
  }

  /**
   * The drop checks with the folder test done on whole path segments: a
   * folder may not be dropped on itself or on anything inside it.
   */
  function DropVerdict(dragged: Item, target: Item): (v: DropDecision)
    ensures v == Accepted <==>
      target.kind == Dir && target.repo == dragged.repo && !(dragged.kind == Dir && AtOrBelow(target.path, dragged.path))
  {
    if target.kind != Dir then NotAFolder
    else if target.repo != dragged.repo then OtherRepo
    else if dragged.kind == Dir && AtOrBelow(target.path, dragged.path) then IntoItself
    else Accepted
  }

  /** Every drop the handler as written accepts is accepted by the corrected check. */
  lemma AsWrittenDropIsStricter(dragged: Item, target: Item)
    ensures DropVerdictAsWritten(dragged, target) == Accepted ==> DropVerdict(dragged, target) == Accepted
  {
    if dragged.kind == Dir && AtOrBelow(target.path, dragged.path) && dragged.path != "" {
      assert target.path[..|dragged.path|] == dragged.path;
    }
  }

  /** Moving the folder "blog" into its sibling "blog-archive" is refused as written. */
  lemma SiblingWithSharedPrefixRefused()
    ensures var dragged, target := Item("site", "blog", Dir), Item("site", "blog-archive", Dir);
      DropVerdictAsWritten(dragged, target) == IntoItself && DropVerdict(dragged, target) == Accepted
  {
    var dragged, target := Item("site", "blog", Dir), Item("site", "blog-archive", Dir);
    assert target.path[..|dragged.path|] == dragged.path;
    assert target.path[4] == '-';
  }

  /**
   * An accepted drop never puts a folder below itself: the target the
   * move computes is outside the dragged folder's subtree (at most the
   * folder's own path again, when it is dropped on its own parent).
   */
  lemma {:induction false} AcceptedDropStaysOutside(dragged: Item, target: Item)
    requires WellFormed(target.path) && dragged.kind == Dir
    requires DropVerdict(dragged, target) == Accepted
    ensures !Below(MoveTarget(dragged.path, target.path), dragged.path)
  {
    var d, t := dragged.path, target.path;
    var seg := LastSegment(d);
    var n := MoveTarget(d, t);
    assert n == t + "/" + seg;
    if |d| < |t| {
      assert n[..|d| + 1] == t[..|d| + 1];
      SharedPrefixBelow(n, t, d);
    } else if |d| == |t| {
      assert n[..|d|] == t;
    } else {
      NoSlashAfterFolder(t, seg, |d|);
    }
  }

  /** A well-formed path sharing `d + "/"` with a path below `d` is itself below `d`. */
  lemma SharedPrefixBelow(n: Path, t: Path, d: Path)
    requires WellFormed(t) && |d| < |t| && |d| < |n| && n[..|d| + 1] == t[..|d| + 1]
    ensures StartsWith(n, d + "/") ==> d == "" || Below(t, d)
  {
    if StartsWith(n, d + "/") && d != "" {
      assert t[..|d| + 1] == d + "/";
      assert t[|d|] == '/';
    }
  }

  /** Past the folder's own '/', a moved item's new path holds no '/'. */
  lemma NoSlashAfterFolder(t: Path, seg: string, k: nat)
    requires '/' !in seg && |t| < k
    ensures k < |t + "/" + seg| ==> (t + "/" + seg)[k] != '/'
  {
    if k < |t + "/" + seg| {
      assert (t + "/" + seg)[k] == seg[k - |t| - 1];
    }
  }

  /**
   * The drop handler as written: the string-prefix checks, then `moveItem`
   * as written from the dragged row's path into the target folder. A
   * refused drop sends nothing; an accepted one runs the move's requests,
   * and moving a file to a free path is refused by the store.
   */
  method HandleDrop(s: GitHubStore, dragged: Item, target: Item) returns (v: DropDecision, r: Outcome)
    requires s.Valid()
    modifies s
    ensures s.Valid()
    ensures v == DropVerdictAsWritten(dragged, target)
    ensures v != Accepted ==> r == Skipped && s.log == old(s.log) && s.files == old(s.files)
    ensures v == Accepted ==>
      var newPath := MoveTarget(dragged.path, target.path);
      Relocated(s, old(s.files), old(s.log), old(s.nextSha), Loc(dragged.repo, dragged.path), Loc(dragged.repo, newPath),
                "Move " + dragged.path + " → " + newPath, "Remove old path " + dragged.path, true, r)
    ensures v == Accepted ==>
      var src, dst := Loc(dragged.repo, dragged.path), Loc(dragged.repo, MoveTarget(dragged.path, target.path));
      s.hasToken && NoneLost(s.faults, |old(s.log)|, 3) && src in old(s.files) && dst !in old(s.files)
      && WellFormed(dst.path) && !Clashes(old(s.files), dst)
      ==> r == Failed(Conflict) && s.files == old(s.files)
  {
    v := DropVerdictAsWritten(dragged, target);
    if v != Accepted {
      return v, Skipped;
    }
    r := MoveItemAsWritten(s, dragged.repo, dragged.path, target.path);
  }

  /**
   * The drop handler corrected: the segment-wise checks, then the
   * corrected `moveItem`. A refused drop sends nothing; an accepted one
   * starts by reading the dragged item, and a completed one has moved it.
   */
  method HandleDropCorrected(s: GitHubStore, dragged: Item, target: Item) returns (v: DropDecision, r: Outcome)
    requires s.Valid()
    modifies s
    ensures s.Valid()
    ensures v == DropVerdict(dragged, target)
    ensures v != Accepted ==> r == Skipped && s.log == old(s.log) && s.files == old(s.files)
    ensures v == Accepted ==>
      var newPath := MoveTarget(dragged.path, target.path);
      Relocated(s, old(s.files), old(s.log), old(s.nextSha), Loc(dragged.repo, dragged.path), Loc(dragged.repo, newPath),
                "Move " + dragged.path + " → " + newPath, "Remove old path " + dragged.path, false, r)
    ensures v == Accepted ==>
      var src, dst := Loc(dragged.repo, dragged.path), Loc(dragged.repo, MoveTarget(dragged.path, target.path));
      s.hasToken && NoneLost(s.faults, |old(s.log)|, 3) && src in old(s.files) && dst !in old(s.files)
      && WellFormed(dst.path) && !Clashes(old(s.files), dst)
      ==> r == Completed && s.files == old(s.files)[dst := Blob(old(s.files)[src].content, old(s.nextSha))] - {src}
  {
    v := DropVerdict(dragged, target);
    if v != Accepted {
      return v, Skipped;
    }
    r := MoveItem(s, dragged.repo, dragged.path, target.path);
  }

  // ---------------------------------------------------------------
  // Duplicate
  // ---------------------------------------------------------------

  /**
   * `base.replace(/(\.[^.]+)$/, "-copy$1")`: "-copy" goes in front of the
   * last extension. A name without one (no dot, or a dot at the very end)
   * matches nothing and is returned unchanged.
   */
  function CopyNameAsWritten(name: string): (r: string)
    ensures var i := LastIndexOf(name, '.');
      0 <= i < |name| - 1 ==> r == name[..i] + "-copy" + name[i..]
    ensures !(0 <= LastIndexOf(name, '.') < |name| - 1) ==> r == name
  {
    var i := LastIndexOf(name, '.');
    if 0 <= i < |name| - 1 then name[..i] + "-copy" + name[i..] else name
  }

  /** The copy's name: "-copy" before the last extension, or at the end when there is none. */
  function CopyName(name: string): (r: string)
    ensures |r| == |name| + 5
    ensures '/' !in name ==> '/' !in r
  {
    var i := LastIndexOf(name, '.');
    if 0 <= i < |name| - 1 then name[..i] + "-copy" + name[i..] else name + "-copy"
  }

  /** The two agree on every name that has an extension. */
  lemma CopyNameAgrees(name: string)
    requires 0 <= LastIndexOf(name, '.') < |name| - 1
    ensures CopyName(name) == CopyNameAsWritten(name)
  {
  }

  /** As written, a name without an extension is "duplicated" onto itself. */
  lemma CopyNameAsWrittenKeepsBareName()
    ensures CopyNameAsWritten("README") == "README"
    ensures CopyName("README") == "README-copy"
  {
    assert LastIndexOf("README", '.') == -1;
  }

  function DuplicateTarget(path: Path, name: string): Path
  {
    JoinPath(ParentPath(path), name)
  }

  /** The corrected duplicate always writes somewhere else, in the same folder. */
  lemma {:induction false} DuplicateTargetIsSibling(path: Path)
    ensures var target := DuplicateTarget(path, CopyName(LastSegment(path)));
      target != path && ParentPath(target) == ParentPath(path)
  {
    var name := CopyName(LastSegment(path));
    JoinThenSplit(ParentPath(path), name);
    assert LastSegment(DuplicateTarget(path, name)) == name != LastSegment(path);
  }

  /** As written, a file without an extension is duplicated onto its own path. */
  lemma {:induction false} DuplicateAsWrittenTargetsSource(path: Path)
    requires '.' !in LastSegment(path) && LastIndexOf(path, '/') != 0
    ensures DuplicateTarget(path, CopyNameAsWritten(LastSegment(path))) == path
  {
    assert LastIndexOf(LastSegment(path), '.') == -1;
    JoinParentLastSegment(path);
  }

  /**
   * `duplicateFile`: read the file, then create its copy (a PUT without a
   * sha) under `newName` in the same folder. The source is never changed.
   */
  method DuplicateWith(s: GitHubStore, repo: string, path: Path, newName: string) returns (r: Outcome)
    requires s.Valid()
    modifies s
    ensures s.Valid()
    ensures r == Completed || r.Failed?
    ensures !s.hasToken ==> r == Failed(Unauthorized) && s.log == old(s.log) && s.files == old(s.files)
    ensures var src, dst := Loc(repo, path), Loc(repo, DuplicateTarget(path, newName));
      r == Completed ==>
        src in old(s.files) && s.files == old(s.files)[dst := Blob(old(s.files)[src].content, old(s.nextSha))]
    ensures r.Failed? ==> s.files == old(s.files)
    ensures s.hasToken ==> 1 <= |s.log| - |old(s.log)| <= 2 && s.log[|old(s.log)|].req == GetReq(Loc(repo, path))
    ensures var src, dst := Loc(repo, path), Loc(repo, DuplicateTarget(path, newName));
      s.hasToken && NoneLost(s.faults, |old(s.log)|, 2) && src in old(s.files) && dst in old(s.files)
      ==> r == Failed(Conflict) && s.files == old(s.files)
    ensures var src, dst := Loc(repo, path), Loc(repo, DuplicateTarget(path, newName));
      s.hasToken && NoneLost(s.faults, |old(s.log)|, 2) && src in old(s.files) && dst !in old(s.files)
      && WellFormed(dst.path) && !Clashes(old(s.files), dst)
      ==> r == Completed
  {
    var src, dst := Loc(repo, path), Loc(repo, DuplicateTarget(path, newName));
    var got := s.Get(src);
    if got.Err? {
      return Failed(got.error);
    }
    var put := s.Put(dst, PutBody("Duplicate " + path, ContentOf(got.value), None, None));
    r := OutcomeOf(put);
  }

  /** `duplicateFile` as written, with the extension-only "-copy" rule. */
  method DuplicateFileAsWritten(s: GitHubStore, repo: string, path: Path) returns (r: Outcome)
    requires s.Valid()
    modifies s
    ensures s.Valid()
    ensures s.hasToken && NoneLost(s.faults, |old(s.log)|, 2) && Loc(repo, path) in old(s.files)
      && '.' !in LastSegment(path) && LastIndexOf(path, '/') != 0
      ==> r == Failed(Conflict) && s.files == old(s.files)
  {
    if '.' !in LastSegment(path) && LastIndexOf(path, '/') != 0 {
      DuplicateAsWrittenTargetsSource(path);
    }
    r := DuplicateWith(s, repo, path, CopyNameAsWritten(LastSegment(path)));
  }

  /** `duplicateFile` with the corrected name: with both requests delivered to a free path, a copy appears. */
  method DuplicateFile(s: GitHubStore, repo: string, path: Path) returns (r: Outcome)
    requires s.Valid()
    modifies s
    ensures s.Valid()
    ensures var src, dst := Loc(repo, path), Loc(repo, DuplicateTarget(path, CopyName(LastSegment(path))));
      r == Completed ==>
        dst != src && src in old(s.files)
        && s.files == old(s.files)[dst := Blob(old(s.files)[src].content, old(s.nextSha))]
    ensures r.Failed? ==> s.files == old(s.files)
    ensures var src, dst := Loc(repo, path), Loc(repo, DuplicateTarget(path, CopyName(LastSegment(path))));
      s.hasToken && NoneLost(s.faults, |old(s.log)|, 2) && src in old(s.files) && dst !in old(s.files)
      && WellFormed(dst.path) && !Clashes(old(s.files), dst)
      ==> r == Completed
  {
    DuplicateTargetIsSibling(path);
    r := DuplicateWith(s, repo, path, CopyName(LastSegment(path)));
  }

  // ---------------------------------------------------------------
  // Where "New file" / "New folder" put their item
  // ---------------------------------------------------------------

  /**
   * The folder a context-menu "New ..." creates into: a folder row's own
   * path, or the folder holding a file row.
   */
  function ParentFolderForNew(path: Path, kind: Kind): (folder: Path)
    ensures kind == Dir ==> folder == path
    ensures kind == File ==> StartsWith(path, folder) && (folder == "" <==> LastIndexOf(path, '/') <= 0)
  {
    if kind == Dir then path else ParentPath(path)
  }

  /**
   * A new item made from a file's context menu lands next to that file:
   * same folder, and the file's own path is rebuilt from that folder and
   * its name (unless its only slash is a leading one).
   */
  lemma {:induction false} NewItemBesideFile(path: Path, name: string)
    requires '/' !in name
    ensures ParentPath(JoinPath(ParentFolderForNew(path, File), name)) == ParentPath(path)
    ensures LastIndexOf(path, '/') != 0 ==> JoinPath(ParentFolderForNew(path, File), LastSegment(path)) == path
  {
    JoinThenSplit(ParentPath(path), name);
    JoinParentLastSegment(path);
  }

  // ---------------------------------------------------------------
  // Publish
  // ---------------------------------------------------------------

  const SiteRepo := "valorwaveentertainment"
  /** The repository the publish log goes to, spelled differently by the two admin versions. */
  const CmsRepoV2 := "Valorwave-CMS"
  const CmsRepoV3 := "ValorWave-CMS"
  const PublishMessage := "Publish from CMS"
  const PreviewUrl := "https://raw.githubusercontent.com/sammassengale82/valorwaveentertainment/main/index.html"

  /** `toISOString().replace(/[:.]/g, "-")`: the time with its colons and dots made dashes. */
  function PublishTimestamp(iso: string): (ts: string)
    ensures |ts| == |iso|
    ensures forall i :: 0 <= i < |ts| ==> ts[i] != ':' && ts[i] != '.'
    ensures forall i :: 0 <= i < |iso| && iso[i] != ':' && iso[i] != '.' ==> ts[i] == iso[i]
  {
    if iso == [] then []
    else [if iso[0] == ':' || iso[0] == '.' then '-' else iso[0]] + PublishTimestamp(iso[1..])
  }

  function PublishLogPath(ts: string): (p: Path)
    ensures StartsWith(p, "publish-logs/") && EndsWith(p, ".json")
  {
    "publish-logs/" + ts + ".json"
  }

  /** Different timestamps give different log files. */
  lemma PublishLogPathInjective(ts1: string, ts2: string)
    requires PublishLogPath(ts1) == PublishLogPath(ts2)
    ensures ts1 == ts2
  {
    assert ts1 == PublishLogPath(ts1)[13..|PublishLogPath(ts1)| - 5];
  }

  /** `JSON.stringify(logData, null, 2)`; none of the values needs escaping. */
  function PublishLogJson(ts: string, commitSha: string): string
  {
    "{\n  \"timestamp\": \"" + ts + "\",\n  \"message\": \"" + PublishMessage + "\",\n  \"commitSha\": \""
    + commitSha + "\",\n  \"previewUrl\": \"" + PreviewUrl + "\"\n}"
  }

  datatype PublishOutcome =
    | NoChanges                // "No changes to publish."
    | Cancelled                // the confirmation was declined
    | Published(commit: Sha)   // "Site published and publish log saved!"
    | PublishFailed(error: Error)  // "Failed to publish."

  /**
   * The publish button: commit the edited page as the site's `index.html`,
   * then record a log entry in the CMS repository. Nothing is sent when
   * there is no edited page or the confirmation is declined.
   */
  method Publish(s: GitHubStore, html: string, confirmed: bool, isoTime: string, cmsRepo: string)
    returns (r: PublishOutcome)
    requires s.Valid() && cmsRepo in {CmsRepoV2, CmsRepoV3}
    modifies s
    ensures s.Valid()
    ensures html == "" ==> r == NoChanges
    ensures html != "" && !confirmed ==> r == Cancelled
    ensures r.NoChanges? || r.Cancelled? ==> s.log == old(s.log) && s.files == old(s.files)
    ensures html != "" && confirmed ==> PublishEffect(old(s.files), s.files, old(s.log), s.log, old(s.nextSha), s.hasToken,
                                                      s.faults, html, PublishTimestamp(isoTime), cmsRepo, r)
  {
    if html == "" {
      return NoChanges;
    }
    if !confirmed {
      return Cancelled;
    }
    r := PublishCommits(s, html, PublishTimestamp(isoTime), cmsRepo);
  }

  /**
   * What publishing did to the store. Without a token nothing is sent.
   * Otherwise the page is committed first (a GET and a PUT of
   * `index.html`), and the log entry's two requests follow only once that
   * PUT has succeeded; so a failed page commit leaves the store as it was.
   * The two commits are not atomic: a failed log commit leaves the page
   * published. With all four requests delivered, a well-formed log path
   * and no folder in the way, publishing succeeds.
   */
  ghost predicate PublishEffect(files0: map<Loc, Blob>, files: map<Loc, Blob>, log0: seq<Call>, log: seq<Call>,
                                sha0: Sha, token: bool, faults: set<nat>, html: string, ts: string, cmsRepo: string,
                                r: PublishOutcome)
  {
    var site := Loc(SiteRepo, "index.html");
    var entry := Loc(cmsRepo, PublishLogPath(ts));
    var json := PublishLogJson(ts, NatToString(sha0));
    var page := files0[site := Blob(html, sha0)];
    && (r.Published? || r.PublishFailed?)
    && (!token ==> r == PublishFailed(Unauthorized) && log == log0)
    && (token ==>
          && |log0| + 2 <= |log|
          && Committed(files0, log0, log[..|log0| + 2], site, html, PublishMessage, None, true)
          && (|log| > |log0| + 2 ==>
                && log[|log0| + 1].ok
                && Committed(page, log[..|log0| + 2], log, entry, json, "Publish log " + ts, None, true)))
    && (r.Published? ==> r.commit == sha0 && files == page[entry := Blob(json, sha0 + 1)])
    && (r.PublishFailed? ==> files == files0 || files == page)
    && (|log| <= |log0| + 2 ==> files == files0)
    && (|log| > |log0| + 2 ==> site in files && files[site] == Blob(html, sha0))
    && (token && NoneLost(faults, |log0|, 4) && !Clashes(files0, site) && WellFormed(entry.path) && !Clashes(files0, entry)
        ==> r.Published?)
  }

  /** `index.html` is a well-formed path. */
  lemma SiteIndexWellFormed()
    ensures WellFormed("index.html")
  {
    var p := "index.html";
    forall i | 0 <= i < |p| - 1
      ensures !(p[i] == '/' && p[i + 1] == '/')
    {
    }
  }

  /** Writing a file in one repository never puts a folder in the way in another. */
  lemma OtherRepoClash(files: map<Loc, Blob>, loc: Loc, b: Blob, other: Loc)
    requires loc.repo != other.repo
    ensures Clashes(files[loc := b], other) == Clashes(files, other)
  {
    if Clashes(files[loc := b], other) {
      var l :| l in files[loc := b] && l.repo == other.repo && (Below(l.path, other.path) || Below(other.path, l.path));
      assert l in files;
    }
  }

  /** The two commits of publishing: the page, then the log entry. */
  method PublishCommits(s: GitHubStore, html: string, ts: string, cmsRepo: string) returns (r: PublishOutcome)
    requires s.Valid() && cmsRepo in {CmsRepoV2, CmsRepoV3}
    modifies s
    ensures s.Valid()
    ensures PublishEffect(old(s.files), s.files, old(s.log), s.log, old(s.nextSha), s.hasToken, s.faults, html, ts,
                          cmsRepo, r)
  {
    var site := Loc(SiteRepo, "index.html");
    SiteIndexWellFormed();
    var page := CommitFile(s, site, html, PublishMessage, None);
    if page.Err? {
      assert s.hasToken ==> s.log[..|old(s.log)| + 2] == s.log;
      assert NoneLost(s.faults, |old(s.log)|, 4) ==> NoneLost(s.faults, |old(s.log)|, 2);
      return PublishFailed(page.error);
    }
    r := PublishEntry(s, html, ts, cmsRepo, page.value, old(s.files), old(s.log));
  }

  /**
   * The page commit has succeeded: its two requests are the last ones
   * sent, the page is stored under the sha minted for it, and it was
   * delivered whenever nothing was lost and nothing was in the way.
   */
  ghost predicate PageCommitted(files0: map<Loc, Blob>, files: map<Loc, Blob>, log0: seq<Call>, log: seq<Call>,
                                sha0: Sha, token: bool, html: string)
  {
    var site := Loc(SiteRepo, "index.html");
    && token
    && Committed(files0, log0, log, site, html, PublishMessage, None, true)
    && log[|log0| + 1].ok
    && files == files0[site := Blob(html, sha0)]
  }

  /** The second commit of publishing, once the page commit has succeeded: the log entry. */
  method PublishEntry(s: GitHubStore, html: string, ts: string, cmsRepo: string, commit: Sha,
                      ghost files0: map<Loc, Blob>, ghost log0: seq<Call>) returns (r: PublishOutcome)
    requires s.Valid() && cmsRepo in {CmsRepoV2, CmsRepoV3}
    requires PageCommitted(files0, s.files, log0, s.log, commit, s.hasToken, html)
    requires s.nextSha == commit + 1
    modifies s
    ensures s.Valid()
    ensures PublishEffect(files0, s.files, log0, s.log, commit, s.hasToken, s.faults, html, ts, cmsRepo, r)
  {
    var site := Loc(SiteRepo, "index.html");
    var logLoc := Loc(cmsRepo, PublishLogPath(ts));
    ghost var log1 := s.log;
    assert log1[..|log0| + 2] == log1;
    assert NoneLost(s.faults, |log0|, 4) ==> NoneLost(s.faults, |log0| + 2, 2);
    OtherRepoClash(files0, site, Blob(html, commit), logLoc);
    var entry := CommitFile(s, logLoc, PublishLogJson(ts, NatToString(commit)), "Publish log " + ts, None);
    assert s.log[..|log0| + 2] == log1;
    if entry.Err? {
      return PublishFailed(entry.error);
    }
    return Published(commit);
  }
}

=== FILE: folder_view.dfy ===
/**
 * The admin sidebar's folder tree (cms-admin-v2.js, cms-admin-v3.js):
 * the expand/collapse state of each folder, its persistence in local
 * storage, the rows a folder shows when it is expanded, and the
 * multi-select set.
 *
 * The sidebar is a flat list of rows. A row rendered under a folder
 * carries that folder's key, `${repo}/${path}`, as its parent; a
 * repository's top-level rows carry none. Every row is a distinct DOM
 * element: `id` names the element, so two rows are equal only when they
 * are the same element, and a row rendered again is a new one.
 */
module FolderView {
  import opened Strings
  import opened Store
  import opened Listing

  /** `${repoName}/${path}` */
  function FolderKey(repo: string, path: Path): (key: string)
    ensures StartsWith(key, repo + "/") && |key| == |repo| + 1 + |path|
  {
    repo + "/" + path
  }

  datatype Row = Row(repo: string, path: Path, kind: Kind, parent: Option<string>, depth: nat, id: nat)

  /** What local storage holds under "cms-folder-state": a map that parses, or text that does not. */
  datatype Stored = Parsable(state: map<string, bool>) | Unparsable

  datatype RenderOutcome = Collapsed | Listed | Failed(error: Error) | Crashed

  // ---------------------------------------------------------------
  // Expand/collapse state
  // ---------------------------------------------------------------

  /** `folderState[key] === true`: a missing key is collapsed. */
  predicate Expanded(state: map<string, bool>, key: string)
  {
    key in state && state[key]
  }

  /** `folderState[key] = !expandedNow` */
  function Flipped(state: map<string, bool>, key: string): (r: map<string, bool>)
    ensures Expanded(r, key) <==> !Expanded(state, key)
    ensures r.Keys == state.Keys + {key}
    ensures forall k :: k in state && k != key ==> r[k] == state[k]
  {
    state[key := !Expanded(state, key)]
  }

  /** Two clicks on one folder label leave every folder as it was shown. */
  lemma FlipTwice(state: map<string, bool>, key: string, other: string)
    ensures Expanded(Flipped(Flipped(state, key), key), other) == Expanded(state, other)
  {
  }

  /** `Object.assign(folderState, saved)`: saved entries win, the rest stay. */
  function Merged(state: map<string, bool>, saved: map<string, bool>): (r: map<string, bool>)
    ensures r.Keys == state.Keys + saved.Keys
    ensures forall k :: k in saved ==> r[k] == saved[k]
    ensures forall k :: k in state && k !in saved ==> r[k] == state[k]
  {
    state + saved
  }

  /** Loading what was saved into a fresh page gives back the saved state exactly. */
  lemma ReloadRestores(saved: map<string, bool>)
    ensures Merged(map[], saved) == saved
  {
  }

  // ---------------------------------------------------------------
  // Rows
  // ---------------------------------------------------------------

  /** First index of `row`, or |rows| when it is not shown. */
  function RowIndex(rows: seq<Row>, row: Row): (i: nat)
    ensures i <= |rows|
    ensures i < |rows| ==> rows[i] == row
    ensures forall j :: 0 <= j < i ==> rows[j] != row
  {
    if rows == [] then 0 else if rows[0] == row then 0 else 1 + RowIndex(rows[1..], row)
  }

  /**
   * The rows a listing becomes: one new element per entry, under `key`,
   * one level deeper, numbered from `firstId` in the order they are created.
   */
  function ItemRows(entries: seq<Entry>, repo: string, key: string, depth: nat, firstId: nat): (items: seq<Row>)
    ensures |items| == |entries|
    ensures forall i :: 0 <= i < |entries| ==>
      items[i] == Row(repo, entries[i].path, entries[i].kind, Some(key), depth, firstId + i)
  {
    seq(|entries|, i requires 0 <= i < |entries| => Row(repo, entries[i].path, entries[i].kind, Some(key), depth, firstId + i))
  }

  /** Every row of `rows` is an element created before `n`. */
  ghost predicate IdsBelow(rows: seq<Row>, n: nat)
  {
    rows == [] || (rows[0].id < n && IdsBelow(rows[1..], n))
  }

  lemma {:induction false} IdsBelowAll(rows: seq<Row>, n: nat)
    ensures IdsBelow(rows, n) <==> forall x :: x in rows ==> x.id < n
  {
    if rows != [] {
      IdsBelowAll(rows[1..], n);
      assert forall x :: x in rows <==> x == rows[0] || x in rows[1..];
    }
  }

  /** A number above every element id in `rows`. */
  function NextFreeId(rows: seq<Row>): (n: nat)
    ensures forall x :: x in rows ==> x.id < n
  {
    if rows == [] then 0
    else
      var rest := NextFreeId(rows[1..]);
      assert forall x :: x in rows ==> x == rows[0] || x in rows[1..];
      if rows[0].id < rest then rest else rows[0].id + 1
  }

  /**
   * A run of rows placed right after the folder's row; a folder row that
   * is no longer shown takes nothing (inserting next to a detached
   * element does nothing).
   */
  function Placed(rows: seq<Row>, folder: Row, items: seq<Row>): seq<Row>
  {
    var i := RowIndex(rows, folder);
    if i < |rows| then rows[..i + 1] + items + rows[i + 1..] else rows
  }

  function Reverse<T>(s: seq<T>): (r: seq<T>)
    ensures |r| == |s|
  {
    if s == [] then [] else [s[|s| - 1]] + Reverse(s[..|s| - 1])
  }

  /** The i-th element of the reversal is the i-th from the end. */
  lemma {:induction false} ReverseAt<T>(s: seq<T>)
    ensures forall i :: 0 <= i < |s| ==> Reverse(s)[i] == s[|s| - 1 - i]
  {
    if s != [] {
      ReverseAt(s[..|s| - 1]);
    }
  }

  /** The parent key `p` belongs to the folder `key` or to a folder inside it. */
  predicate UnderKey(p: string, key: string)
  {
    p == key || StartsWith(p, key + "/")
  }

  /**
   * `renderFolder`'s clean-up as written: rows whose parent is exactly this
   * folder are removed, and only those.
   */
  function WithoutChildRows(rows: seq<Row>, key: string): (r: seq<Row>)
    ensures forall x :: x in r <==> x in rows && x.parent != Some(key)
  {
    if rows == [] then []
    else (if rows[0].parent == Some(key) then [] else [rows[0]]) + WithoutChildRows(rows[1..], key)
  }

  /** The clean-up corrected: the rows of every folder inside this one go too. */
  function WithoutSubtreeRows(rows: seq<Row>, key: string): (r: seq<Row>)
    ensures forall x :: x in r <==> x in rows && !(x.parent.Some? && UnderKey(x.parent.value, key))
  {
    if rows == [] then []
    else
      var head := if rows[0].parent.Some? && UnderKey(rows[0].parent.value, key) then [] else [rows[0]];
      head + WithoutSubtreeRows(rows[1..], key)
  }

  /**
   * Collapsing "a" after expanding "a" and then "a/b" leaves the row of
   * "a/b/c.md" on screen as written, though the row of "a/b" it sits
   * under is gone; corrected, only "a" remains.
   */
  lemma CollapseLeavesGrandchildRows()
    ensures var a := Row("site", "a", Dir, None, 0, 0);
            var b := Row("site", "a/b", Dir, Some("site/a"), 1, 1);
            var c := Row("site", "a/b/c.md", File, Some("site/a/b"), 2, 2);
            WithoutChildRows([a, b, c], FolderKey("site", "a")) == [a, c]
            && WithoutSubtreeRows([a, b, c], FolderKey("site", "a")) == [a]
  {
    var a := Row("site", "a", Dir, None, 0, 0);
    var b := Row("site", "a/b", Dir, Some("site/a"), 1, 1);
    var c := Row("site", "a/b/c.md", File, Some("site/a/b"), 2, 2);
    var key := FolderKey("site", "a");
    assert key == "site/a";
    assert [a, b, c][1..] == [b, c] && [b, c][1..] == [c] && [c][1..] == [];
    assert "site/a/b" != key && "site/a/b"[..|key + "/"|] == key + "/";
    assert WithoutChildRows([c], key) == [c];
    assert WithoutChildRows([b, c], key) == [c];
    assert WithoutSubtreeRows([c], key) == [];
    assert WithoutSubtreeRows([b, c], key) == [];
  }

  /**
   * As written, each entry is inserted right after the folder row, so the
   * last one inserted ends up first: a folder listed before a file shows
   * below it.
   */
  lemma InsertedAfterReverses(dir: Row, file: Row)
    ensures Reverse([dir, file]) == [file, dir]
  {
    assert [dir, file][..1] == [dir];
  }

  /** Every entry of a distinct listing is there once; so is every entry of a permutation of it. */
  lemma PermutedListing(a: seq<Entry>, b: seq<Entry>, s: set<Entry>)
    requires IsListing(a, s) && multiset(a) == multiset(b)
    ensures IsListing(b, s)
  {
    forall e ensures e in b <==> e in s {
      assert e in a <==> e in multiset(a);
      assert e in b <==> e in multiset(b);
    }
    DistinctCount(a);
    DistinctCount(b);
  }

  /** A sequence has no repeats exactly when nothing occurs in it twice. */
  lemma {:induction false} DistinctCount<T>(s: seq<T>)
    ensures (forall i, j :: 0 <= i < j < |s| ==> s[i] != s[j]) <==> (forall x :: multiset(s)[x] <= 1)
  {
    if s != [] {
      var t := s[1..];
      assert s == [s[0]] + t;
      DistinctCount(t);
      assert multiset(s) == multiset{s[0]} + multiset(t);
      if forall i, j :: 0 <= i < j < |s| ==> s[i] != s[j] {
        assert forall i, j :: 0 <= i < j < |t| ==> t[i] != t[j] by {
          forall i, j | 0 <= i < j < |t| ensures t[i] != t[j] {
            assert t[i] == s[i + 1] && t[j] == s[j + 1];
          }
        }
        assert s[0] !in t by {
          forall k | 0 <= k < |t| ensures t[k] != s[0] {
            assert t[k] == s[k + 1];
          }
        }
      }
      if forall x :: multiset(s)[x] <= 1 {
        assert multiset(s)[s[0]] <= 1;
        assert multiset(t)[s[0]] == 0;
        assert forall x :: multiset(t)[x] <= multiset(s)[x];
        forall i, j | 0 <= i < j < |s| ensures s[i] != s[j] {
          if i == 0 {
            assert s[j] == t[j - 1] && s[j] in t;
          } else {
            assert s[i] == t[i - 1] && s[j] == t[j - 1];
          }
        }
      }
    }
  }

  /**
   * The request a render makes: none for a collapsed folder, otherwise one
   * GET of the folder, whose outcome is the render's: refused or lost, a
   * file where a folder was expected (the sort then throws), or a listing.
   */
  ghost predicate Fetched(s: GitHubStore, log0: seq<Call>, state: map<string, bool>, folder: Row, r: RenderOutcome)
    reads s
  {
    var loc := Loc(folder.repo, folder.path);
    if !Expanded(state, FolderKey(folder.repo, folder.path)) then r == Collapsed && s.log == log0
    else
      && r != Collapsed
      && s.log == log0 + Sent(s.hasToken, Call(GetReq(loc), !r.Failed?))
      && (r.Failed? <==> !(s.hasToken && |log0| !in s.faults && GetOk(s.files, loc)))
      && (r.Failed? ==> r.error == Deliver<Resource>(s.hasToken, |log0| in s.faults, Err(NotFound)).error)
      && (r == Crashed <==> !r.Failed? && loc in s.files)
  }

  /** The folder's listing as shown: each child once, folders first, each group by name. */
  ghost predicate ShownListing(files: map<Loc, Blob>, folder: Row, shown: seq<Entry>)
  {
    IsListing(shown, Children(files, Loc(folder.repo, folder.path))) && SortedBy(shown, EntryKey)
  }

  /** What a render fetched, and the listing it shows when it shows one. */
  ghost predicate FetchedListing(s: GitHubStore, log0: seq<Call>, state: map<string, bool>, folder: Row, r: RenderOutcome, shown: seq<Entry>)
    reads s
  {
    && Fetched(s, log0, state, folder, r)
    && (r == Listed ==> ShownListing(s.files, folder, shown))
    && (r != Listed ==> shown == [])
  }

  /** The sorted listing: `sortEntriesFoldersFirst(entries)`. */
  method SortedListing(entries: seq<Entry>) returns (shown: seq<Entry>)
    ensures multiset(shown) == multiset(entries)
    ensures SortedBy(shown, EntryKey)
  {
    var a := new Entry[|entries|](i requires 0 <= i < |entries| => entries[i]);
    assert a[..] == entries;
    SortFoldersFirst(a, EntryKey);
    shown := a[..];
  }

  /**
   * The rows after `renderFolder` as written has shown a listing: the
   * folder's direct child rows are gone and the listing's new rows
   * (element ids from `firstId` up) follow the folder's row in reverse.
   */
  function ShownAsWritten(rows: seq<Row>, folder: Row, shown: seq<Entry>, firstId: nat): seq<Row>
  {
    var key := FolderKey(folder.repo, folder.path);
    Placed(WithoutChildRows(rows, key), folder, Reverse(ItemRows(shown, folder.repo, key, folder.depth + 1, firstId)))
  }

  /**
   * The rows after the corrected render has shown a listing: the rows of
   * the folder's whole subtree are gone and the listing's new rows follow
   * the folder's row in order.
   */
  function Shown(rows: seq<Row>, folder: Row, shown: seq<Entry>, firstId: nat): seq<Row>
  {
    var key := FolderKey(folder.repo, folder.path);
    Placed(WithoutSubtreeRows(rows, key), folder, ItemRows(shown, folder.repo, key, folder.depth + 1, firstId))
  }

  /**
   * The rows and the next element id after `renderFolder` as written:
   * cleared, and the listing shown when there is one.
   */
  ghost predicate RenderedAsWritten(rows0: seq<Row>, rows: seq<Row>, folder: Row, r: RenderOutcome, shown: seq<Entry>, id0: nat, id: nat)
  {
    && (r != Listed ==> rows == WithoutChildRows(rows0, FolderKey(folder.repo, folder.path)))
    && (r == Listed ==> rows == ShownAsWritten(rows0, folder, shown, id0))
    && id == id0 + |shown|
  }

  /** The same after the corrected render. */
  ghost predicate Rendered(rows0: seq<Row>, rows: seq<Row>, folder: Row, r: RenderOutcome, shown: seq<Entry>, id0: nat, id: nat)
  {
    && (r != Listed ==> rows == WithoutSubtreeRows(rows0, FolderKey(folder.repo, folder.path)))
    && (r == Listed ==> rows == Shown(rows0, folder, shown, id0))
    && id == id0 + |shown|
  }

  /** Placing a run of rows keeps every row there was and adds only the run. */
  lemma PlacedRows(rows: seq<Row>, folder: Row, items: seq<Row>)
    ensures forall x :: x in rows ==> x in Placed(rows, folder, items)
    ensures forall x :: x in Placed(rows, folder, items) ==> x in rows || x in items
  {
    var i := RowIndex(rows, folder);
    if i < |rows| {
      assert rows == rows[..i + 1] + rows[i + 1..];
    }
  }

  /** The new rows of a listing are new elements, numbered from `firstId`. */
  lemma ItemRowsFresh(shown: seq<Entry>, repo: string, key: string, depth: nat, firstId: nat, x: Row)
    requires x in ItemRows(shown, repo, key, depth, firstId)
    ensures firstId <= x.id < firstId + |shown|
  {
    var items := ItemRows(shown, repo, key, depth, firstId);
    var i :| 0 <= i < |items| && items[i] == x;
  }

  /** Reversing adds nothing. */
  lemma ReversedFrom<T>(s: seq<T>, x: T)
    requires x in Reverse(s)
    ensures x in s
  {
    var i :| 0 <= i < |s| && Reverse(s)[i] == x;
    ReverseAt(s);
    assert s[|s| - 1 - i] == x;
  }

  /**
   * Showing a listing as written keeps every row not directly under the
   * folder, and every row it leaves is either one there was or a new
   * element.
   */
  lemma ShownAsWrittenRows(rows: seq<Row>, folder: Row, shown: seq<Entry>, firstId: nat)
    ensures forall x :: x in rows && x.parent != Some(FolderKey(folder.repo, folder.path)) ==> x in ShownAsWritten(rows, folder, shown, firstId)
    ensures forall x :: x in ShownAsWritten(rows, folder, shown, firstId) ==> x in rows || firstId <= x.id < firstId + |shown|
  {
    var key := FolderKey(folder.repo, folder.path);
    var made := ItemRows(shown, folder.repo, key, folder.depth + 1, firstId);
    var after := ShownAsWritten(rows, folder, shown, firstId);
    assert after == Placed(WithoutChildRows(rows, key), folder, Reverse(made));
    PlacedRows(WithoutChildRows(rows, key), folder, Reverse(made));
    forall x | x in after && x !in rows
      ensures firstId <= x.id < firstId + |shown|
    {
      ReversedFrom(made, x);
      ItemRowsFresh(shown, folder.repo, key, folder.depth + 1, firstId, x);
    }
  }

  /**
   * Showing a listing corrected keeps every row outside the folder's
   * subtree, and every row it leaves is either one there was or a new
   * element.
   */
  lemma ShownRows(rows: seq<Row>, folder: Row, shown: seq<Entry>, firstId: nat)
    ensures forall x :: x in rows && !(x.parent.Some? && UnderKey(x.parent.value, FolderKey(folder.repo, folder.path))) ==> x in Shown(rows, folder, shown, firstId)
    ensures forall x :: x in Shown(rows, folder, shown, firstId) ==> x in rows || firstId <= x.id < firstId + |shown|
  {
    var key := FolderKey(folder.repo, folder.path);
    var made := ItemRows(shown, folder.repo, key, folder.depth + 1, firstId);
    var after := Shown(rows, folder, shown, firstId);
    assert after == Placed(WithoutSubtreeRows(rows, key), folder, made);
    PlacedRows(WithoutSubtreeRows(rows, key), folder, made);
    forall x | x in after && x !in rows
      ensures firstId <= x.id < firstId + |shown|
    {
      ItemRowsFresh(shown, folder.repo, key, folder.depth + 1, firstId, x);
    }
  }

  /** Clearing rows keeps every remaining row an element created before `n`. */
  lemma ClearedFresh(rows: seq<Row>, key: string, n: nat)
    requires IdsBelow(rows, n)
    ensures IdsBelow(WithoutChildRows(rows, key), n) && IdsBelow(WithoutSubtreeRows(rows, key), n)
  {
    IdsBelowAll(rows, n);
    IdsBelowAll(WithoutChildRows(rows, key), n);
    IdsBelowAll(WithoutSubtreeRows(rows, key), n);
  }

  /** After a listing is shown as written, every row is an element created before the ids it used up. */
  lemma ShownAsWrittenFresh(rows: seq<Row>, folder: Row, shown: seq<Entry>, firstId: nat)
    requires IdsBelow(rows, firstId)
    ensures IdsBelow(ShownAsWritten(rows, folder, shown, firstId), firstId + |shown|)
  {
    var after := ShownAsWritten(rows, folder, shown, firstId);
    IdsBelowAll(rows, firstId);
    ShownAsWrittenRows(rows, folder, shown, firstId);
    assert forall x :: x in after ==> x.id < firstId + |shown|;
    IdsBelowAll(after, firstId + |shown|);
  }

  /** The same for the corrected render. */
  lemma ShownFresh(rows: seq<Row>, folder: Row, shown: seq<Entry>, firstId: nat)
    requires IdsBelow(rows, firstId)
    ensures IdsBelow(Shown(rows, folder, shown, firstId), firstId + |shown|)
  {
    var after := Shown(rows, folder, shown, firstId);
    IdsBelowAll(rows, firstId);
    ShownRows(rows, folder, shown, firstId);
    assert forall x :: x in after ==> x.id < firstId + |shown|;
    IdsBelowAll(after, firstId + |shown|);
  }

  class Sidebar {
    /** `folderState`: expanded flags by folder key. */
    var folderState: map<string, bool>
    /** Local storage's "cms-folder-state", when set. */
    var stored: Option<Stored>
    /** The sidebar's rows, top to bottom. */
    var rows: seq<Row>
    /** The id the next element created gets. */
    var nextId: nat

    /** Every row shown is an element created before the next one. */
    ghost predicate Valid()
      reads this
    {
      IdsBelow(rows, nextId)
    }

    constructor (saved: Option<Stored>, initialRows: seq<Row>)
      ensures Valid()
      ensures folderState == map[] && stored == saved && rows == initialRows
    {
      folderState, stored, rows := map[], saved, initialRows;
      nextId := NextFreeId(initialRows);
      IdsBelowAll(initialRows, NextFreeId(initialRows));
    }

    /** `saveFolderState`: the whole map is written. */
    method SaveFolderState()
      modifies this
      ensures stored == Some(Parsable(folderState))
      ensures folderState == old(folderState) && rows == old(rows) && nextId == old(nextId)
    {
      stored := Some(Parsable(folderState));
    }

    /** `loadFolderState`: merge what parses; nothing stored, or text that does not parse, changes nothing. */
    method LoadFolderState()
      modifies this
      ensures folderState == if old(stored).Some? && old(stored).value.Parsable?
        then Merged(old(folderState), old(stored).value.state) else old(folderState)
      ensures stored == old(stored) && rows == old(rows) && nextId == old(nextId)
    {
      if stored.None? {
        return;
      }
      match stored.value {
        case Unparsable =>
        case Parsable(saved) => folderState := Merged(folderState, saved);
      }
    }

    /**
     * The fetch `renderFolder` makes: nothing for a collapsed folder,
     * otherwise the folder's listing, sorted folders first.
     */
    method FetchSorted(s: GitHubStore, folder: Row) returns (r: RenderOutcome, shown: seq<Entry>)
      requires s.Valid()
      modifies s
      ensures s.Valid() && s.files == old(s.files) && s.nextSha == old(s.nextSha)
      ensures FetchedListing(s, old(s.log), folderState, folder, r, shown)
    {
      shown := [];
      if !Expanded(folderState, FolderKey(folder.repo, folder.path)) {
        return Collapsed, shown;
      }
      var got := s.Get(Loc(folder.repo, folder.path));
      if got.Err? {
        return Failed(got.error), shown;
      }
      if got.value.FileRes? {
        return Crashed, shown;
      }
      shown := SortedListing(got.value.entries);
      PermutedListing(got.value.entries, shown, Children(s.files, Loc(folder.repo, folder.path)));
      r := Listed;
    }

    /**
     * `renderFolder` as written: the folder's direct child rows are removed;
     * if it is expanded its listing is fetched, sorted, and each entry is
     * made a new element inserted right after the folder's row, so the
     * rows come out in reverse of the sorted order.
     */
    method RenderFolderAsWritten(s: GitHubStore, folder: Row) returns (r: RenderOutcome, shown: seq<Entry>)
      requires s.Valid() && Valid()
      modifies this, s
      ensures s.Valid() && s.files == old(s.files) && s.nextSha == old(s.nextSha)
      ensures folderState == old(folderState) && stored == old(stored)
      ensures FetchedListing(s, old(s.log), folderState, folder, r, shown)
      ensures RenderedAsWritten(old(rows), rows, folder, r, shown, old(nextId), nextId) && Valid()
    {
      r, shown := FetchSorted(s, folder);
      ClearAndShowReversed(folder, r, shown);
    }

    /** The rows side of `renderFolder` as written, once the fetch is done. */
    method ClearAndShowReversed(folder: Row, r: RenderOutcome, shown: seq<Entry>)
      requires Valid() && (r != Listed ==> shown == [])
      modifies this
      ensures folderState == old(folderState) && stored == old(stored)
      ensures RenderedAsWritten(old(rows), rows, folder, r, shown, old(nextId), nextId) && Valid()
    {
      var key := FolderKey(folder.repo, folder.path);
      rows := WithoutChildRows(rows, key);
      if r == Listed {
        ShowReversed(folder, shown);
        assert rows == ShownAsWritten(old(rows), folder, shown, old(nextId));
        ShownAsWrittenFresh(old(rows), folder, shown, old(nextId));
      } else {
        ClearedFresh(old(rows), key, nextId);
      }
    }

    /**
     * `renderFolder` corrected: the rows of the folder and of every folder
     * inside it are removed, and the listing is shown below the folder's
     * row in sorted order, folders first.
     */
    method RenderFolder(s: GitHubStore, folder: Row) returns (r: RenderOutcome, shown: seq<Entry>)
      requires s.Valid() && Valid()
      modifies this, s
      ensures s.Valid() && s.files == old(s.files) && s.nextSha == old(s.nextSha)
      ensures folderState == old(folderState) && stored == old(stored)
      ensures FetchedListing(s, old(s.log), folderState, folder, r, shown)
      ensures Rendered(old(rows), rows, folder, r, shown, old(nextId), nextId) && Valid()
    {
      r, shown := FetchSorted(s, folder);
      ClearAndShowInOrder(folder, r, shown);
    }

    /** The rows side of the corrected render, once the fetch is done. */
    method ClearAndShowInOrder(folder: Row, r: RenderOutcome, shown: seq<Entry>)
      requires Valid() && (r != Listed ==> shown == [])
      modifies this
      ensures folderState == old(folderState) && stored == old(stored)
      ensures Rendered(old(rows), rows, folder, r, shown, old(nextId), nextId) && Valid()
    {
      var key := FolderKey(folder.repo, folder.path);
      rows := WithoutSubtreeRows(rows, key);
      if r == Listed {
        ShowInOrder(folder, shown);
        ShownFresh(old(rows), folder, shown, old(nextId));
      } else {
        ClearedFresh(old(rows), key, nextId);
      }
    }

    /** The listing's new rows inserted one by one right after the folder's row: they come out reversed. */
    method ShowReversed(folder: Row, shown: seq<Entry>)
      modifies this
      ensures rows == Placed(old(rows), folder, Reverse(ItemRows(shown, folder.repo, FolderKey(folder.repo, folder.path), folder.depth + 1, old(nextId))))
      ensures nextId == old(nextId) + |shown|
      ensures folderState == old(folderState) && stored == old(stored)
    {
      var items := ItemRows(shown, folder.repo, FolderKey(folder.repo, folder.path), folder.depth + 1, nextId);
      var at := RowIndex(rows, folder);
      if at < |rows| {
        InsertEachAfter(items, at + 1);
      }
      nextId := nextId + |shown|;
    }

    /** The listing's new rows inserted in order after the folder's row. */
    method ShowInOrder(folder: Row, shown: seq<Entry>)
      modifies this
      ensures rows == Placed(old(rows), folder, ItemRows(shown, folder.repo, FolderKey(folder.repo, folder.path), folder.depth + 1, old(nextId)))
      ensures nextId == old(nextId) + |shown|
      ensures folderState == old(folderState) && stored == old(stored)
    {
      var items := ItemRows(shown, folder.repo, FolderKey(folder.repo, folder.path), folder.depth + 1, nextId);
      var at := RowIndex(rows, folder);
      if at < |rows| {
        InsertInOrder(items, at + 1);
      }
      nextId := nextId + |shown|;
    }

    /** `container.insertAdjacentElement("afterend", item)` for each item in turn. */
    method InsertEachAfter(items: seq<Row>, at: nat)
      requires at <= |rows|
      modifies this
      ensures rows == old(rows)[..at] + Reverse(items) + old(rows)[at..]
      ensures folderState == old(folderState) && stored == old(stored) && nextId == old(nextId)
    {
      var i := 0;
      while i < |items|
        invariant 0 <= i <= |items|
        invariant rows == old(rows)[..at] + Reverse(items[..i]) + old(rows)[at..]
        invariant folderState == old(folderState) && stored == old(stored) && nextId == old(nextId)
      {
        assert items[..i + 1][..i] == items[..i];
        assert rows[..at] == old(rows)[..at];
        assert rows[at..] == Reverse(items[..i]) + old(rows)[at..];
        rows := rows[..at] + [items[i]] + rows[at..];
        i := i + 1;
      }
      assert items[..i] == items;
    }

    /** Each item inserted after the one before it: the run keeps its order. */
    method InsertInOrder(items: seq<Row>, at: nat)
      requires at <= |rows|
      modifies this
      ensures rows == old(rows)[..at] + items + old(rows)[at..]
      ensures folderState == old(folderState) && stored == old(stored) && nextId == old(nextId)
    {
      var i := 0;
      while i < |items|
        invariant 0 <= i <= |items|
        invariant rows == old(rows)[..at] + items[..i] + old(rows)[at..]
        invariant folderState == old(folderState) && stored == old(stored) && nextId == old(nextId)
      {
        assert items[..i + 1] == items[..i] + [items[i]];
        assert rows[..at + i] == old(rows)[..at] + items[..i];
        assert rows[at + i..] == old(rows)[at..];
        rows := rows[..at + i] + [items[i]] + rows[at + i..];
        i := i + 1;
      }
      assert items[..i] == items;
    }

    /**
     * A click on a folder label in the older admin: the folder's flag is
     * flipped and it is rendered again as written; the new state is not
     * saved.
     */
    method ClickFolderLabelV2(s: GitHubStore, folder: Row) returns (r: RenderOutcome, shown: seq<Entry>)
      requires s.Valid() && Valid()
      modifies this, s
      ensures s.Valid() && s.files == old(s.files) && s.nextSha == old(s.nextSha)
      ensures folderState == Flipped(old(folderState), FolderKey(folder.repo, folder.path))
      ensures stored == old(stored)
      ensures Fetched(s, old(s.log), folderState, folder, r)
      ensures r == Collapsed <==> Expanded(old(folderState), FolderKey(folder.repo, folder.path))
      ensures r == Listed ==> ShownListing(s.files, folder, shown)
      ensures r != Listed ==> shown == []
      ensures RenderedAsWritten(old(rows), rows, folder, r, shown, old(nextId), nextId) && Valid()
    {
      var key := FolderKey(folder.repo, folder.path);
      folderState := Flipped(folderState, key);
      r, shown := RenderFolderAsWritten(s, folder);
    }

    /**
     * A click on a folder label in the newer admin: flipped, the whole map
     * saved, then rendered again as written.
     */
    method ClickFolderLabelV3(s: GitHubStore, folder: Row) returns (r: RenderOutcome, shown: seq<Entry>)
      requires s.Valid() && Valid()
      modifies this, s
      ensures s.Valid() && s.files == old(s.files) && s.nextSha == old(s.nextSha)
      ensures folderState == Flipped(old(folderState), FolderKey(folder.repo, folder.path))
      ensures stored == Some(Parsable(folderState))
      ensures Fetched(s, old(s.log), folderState, folder, r)
      ensures r == Collapsed <==> Expanded(old(folderState), FolderKey(folder.repo, folder.path))
      ensures r == Listed ==> ShownListing(s.files, folder, shown)
      ensures r != Listed ==> shown == []
      ensures RenderedAsWritten(old(rows), rows, folder, r, shown, old(nextId), nextId) && Valid()
    {
      var key := FolderKey(folder.repo, folder.path);
      folderState := Flipped(folderState, key);
      SaveFolderState();
      r, shown := RenderFolderAsWritten(s, folder);
    }

    /**
     * The newer admin's folder click with the corrected render: collapsing
     * clears the whole subtree, expanding shows the listing in order.
     */
    method ClickFolderLabelCorrected(s: GitHubStore, folder: Row) returns (r: RenderOutcome, shown: seq<Entry>)
      requires s.Valid() && Valid()
      modifies this, s
      ensures s.Valid() && s.files == old(s.files) && s.nextSha == old(s.nextSha)
      ensures folderState == Flipped(old(folderState), FolderKey(folder.repo, folder.path))
      ensures stored == Some(Parsable(folderState))
      ensures Fetched(s, old(s.log), folderState, folder, r)
      ensures r == Collapsed <==> Expanded(old(folderState), FolderKey(folder.repo, folder.path))
      ensures r == Listed ==> ShownListing(s.files, folder, shown)
      ensures r != Listed ==> shown == []
      ensures Rendered(old(rows), rows, folder, r, shown, old(nextId), nextId) && Valid()
    {
      var key := FolderKey(folder.repo, folder.path);
      folderState := Flipped(folderState, key);
      SaveFolderState();
      r, shown := RenderFolder(s, folder);
    }
  }

  // ---------------------------------------------------------------
  // Multi-select
  // ---------------------------------------------------------------

  /** Membership of `x` flipped, everything else as it was. */
  function Toggled(sel: set<Row>, x: Row): (r: set<Row>)
    ensures x in r <==> x !in sel
    ensures forall y :: y != x ==> (y in r <==> y in sel)
  {
    if x in sel then sel - {x} else sel + {x}
  }

  lemma ToggleTwice(sel: set<Row>, x: Row)
    ensures Toggled(Toggled(sel, x), x) == sel
  {
  }

  /**
   * The selection holds elements, not paths: a row selected before its
   * folder was collapsed and expanded again stays in the set, so
   * ctrl-clicking the new row for the same file makes two members.
   */
  lemma ReRenderedRowSelectedTwice(sel: Row, again: Row)
    requires again.path == sel.path && again.id != sel.id
    ensures Toggled({sel}, again) == {sel, again} && |Toggled({sel}, again)| == 2
  {
  }

  /**
   * A row a render created is a new element: it is in no selection of
   * elements that existed before the render, so a ctrl/meta click on it
   * adds it next to them and removes none.
   */
  lemma ReRenderedRowIsNew(rows: seq<Row>, folder: Row, shown: seq<Entry>, firstId: nat, sel: set<Row>, x: Row)
    requires forall y :: y in sel ==> y.id < firstId
    requires x in ShownAsWritten(rows, folder, shown, firstId) && x !in rows
    ensures x !in sel && Toggled(sel, x) == sel + {x}
  {
    ShownAsWrittenRows(rows, folder, shown, firstId);
  }

  class Selection {
    /** `selectedItems`: the row elements selected. */
    var selected: set<Row>

    constructor ()
      ensures selected == {}
    {
      selected := {};
    }

    /**
     * The document click handler: a click outside any row does nothing; a
     * ctrl/meta click toggles the row; a plain click selects only the row.
     */
    method Click(item: Option<Row>, multi: bool)
      modifies this
      ensures item.None? ==> selected == old(selected)
      ensures item.Some? && multi ==> selected == Toggled(old(selected), item.value)
      ensures item.Some? && !multi ==> selected == {item.value}
    {
      if item.None? {
        return;
      }
      if multi {
        if item.value in selected {
          selected := selected - {item.value};
        } else {
          selected := selected + {item.value};
        }
      } else {
        selected := {};
        selected := selected + {item.value};
      }
    }
  }
}

=== FILE: listing.dfy ===
/**
 * How the sidebars order and filter what a folder listing returns:
 * folders first, then by name, and which names count as editable text.
 *
 * Names are compared by `localeCompare` in the JavaScript; here that is
 * the lexicographic order on character codes, a total order like the
 * locale's.
 */
module Listing {
  import opened Strings
  import opened Store

  /** Lexicographic order on character codes; "" comes first. */
  predicate NameLe(a: string, b: string)
  {
    a == [] || (b != [] && (a[0] < b[0] || (a[0] == b[0] && NameLe(a[1..], b[1..]))))
  }

  lemma {:induction false} NameLeTotal(a: string, b: string)
    ensures NameLe(a, b) || NameLe(b, a)
  {
    if a != [] && b != [] && a[0] == b[0] {
      NameLeTotal(a[1..], b[1..]);
    }
  }

  lemma {:induction false} NameLeTrans(a: string, b: string, c: string)
    requires NameLe(a, b) && NameLe(b, c)
    ensures NameLe(a, c)
  {
    if a != [] && b != [] && c != [] && a[0] == b[0] && b[0] == c[0] {
      NameLeTrans(a[1..], b[1..], c[1..]);
    }
  }

  lemma {:induction false} NameLeAntisym(a: string, b: string)
    requires NameLe(a, b) && NameLe(b, a)
    ensures a == b
  {
    if a != [] && b != [] {
      NameLeAntisym(a[1..], b[1..]);
    }
  }

  /** What a folders-first comparator looks at: whether the item is a folder, and its name. */
  datatype SortKey = SortKey(isDir: bool, name: string)

  /** `cmp(x, y) <= 0` for the folders-first comparator. */
  predicate KeyLe(x: SortKey, y: SortKey)
  {
    if x.isDir != y.isDir then x.isDir else NameLe(x.name, y.name)
  }

  lemma KeyLeTotal(x: SortKey, y: SortKey)
    ensures KeyLe(x, y) || KeyLe(y, x)
  {
    NameLeTotal(x.name, y.name);
  }

  lemma KeyLeTrans(x: SortKey, y: SortKey, z: SortKey)
    requires KeyLe(x, y) && KeyLe(y, z)
    ensures KeyLe(x, z)
  {
    if x.isDir == y.isDir == z.isDir {
      NameLeTrans(x.name, y.name, z.name);
    }
  }

  /** Every element is at most every later one. */
  ghost predicate SortedBy<T>(s: seq<T>, key: T -> SortKey)
  {
    forall p, q :: 0 <= p < q < |s| ==> KeyLe(key(s[p]), key(s[q]))
  }

  /** In a sorted sequence every folder comes before every non-folder, and each group is in name order. */
  lemma SortedMeansFoldersFirst<T>(s: seq<T>, key: T -> SortKey)
    requires SortedBy(s, key)
    ensures forall p, q :: 0 <= p < q < |s| && key(s[q]).isDir ==> key(s[p]).isDir
    ensures forall p, q :: 0 <= p < q < |s| && key(s[p]).isDir == key(s[q]).isDir ==>
      NameLe(key(s[p]).name, key(s[q]).name)
  {
  }

  /**
   * Insertion sort, in place, by the folders-first order: `Array.prototype.sort`
   * with that comparator. The result is a sorted permutation of the input.
   */
  method SortFoldersFirst<T>(a: array<T>, key: T -> SortKey)
    modifies a
    ensures SortedBy(a[..], key)
    ensures multiset(a[..]) == multiset(old(a[..]))
  {
    var i := 0;
    while i < a.Length
      invariant 0 <= i <= a.Length
      invariant SortedBy(a[..i], key)
      invariant multiset(a[..]) == multiset(old(a[..]))
    {
      InsertLast(a, i, key);
      i := i + 1;
    }
  }

  /** Move `a[i]` down into the sorted prefix `a[..i]`. */
  method InsertLast<T>(a: array<T>, i: nat, key: T -> SortKey)
    requires i < a.Length && SortedBy(a[..i], key)
    modifies a
    ensures SortedBy(a[..i + 1], key)
    ensures multiset(a[..]) == multiset(old(a[..]))
  {
    var j := i;
    while j > 0 && !KeyLe(key(a[j - 1]), key(a[j]))
      invariant 0 <= j <= i
      invariant multiset(a[..]) == multiset(old(a[..]))
      invariant SortedExcept(a[..], key, j, i) && LeastFrom(a[..], key, j, i)
    {
      ghost var before := a[..];
      a[j - 1], a[j] := a[j], a[j - 1];
      assert a[..] == Swap(before, j);
      SwapStep(before, key, j, i);
      j := j - 1;
    }
    Inserted(a[..], key, j, i);
  }

  /** `s[..i + 1]` is sorted apart from the element at `j`. */
  ghost predicate SortedExcept<T>(s: seq<T>, key: T -> SortKey, j: nat, i: nat)
    requires j <= i < |s|
  {
    forall p, q :: 0 <= p < q <= i && p != j && q != j ==> KeyLe(key(s[p]), key(s[q]))
  }

  /** The element at `j` is at most everything after it up to `i`. */
  ghost predicate LeastFrom<T>(s: seq<T>, key: T -> SortKey, j: nat, i: nat)
    requires j <= i < |s|
  {
    forall q :: j < q <= i ==> KeyLe(key(s[j]), key(s[q]))
  }

  function Swap<T>(s: seq<T>, j: nat): (t: seq<T>)
    requires 0 < j < |s|
    ensures multiset(t) == multiset(s)
  {
    s[j - 1 := s[j]][j := s[j - 1]]
  }

  /** One step of insertion: swapping an element with a greater left neighbour. */
  lemma SwapStep<T>(s: seq<T>, key: T -> SortKey, j: nat, i: nat)
    requires 0 < j <= i < |s|
    requires SortedExcept(s, key, j, i) && LeastFrom(s, key, j, i)
    requires !KeyLe(key(s[j - 1]), key(s[j]))
    ensures SortedExcept(Swap(s, j), key, j - 1, i) && LeastFrom(Swap(s, j), key, j - 1, i)
  {
    KeyLeTotal(key(s[j - 1]), key(s[j]));
  }

  /** The insertion stops once the element is in place: the whole prefix is sorted. */
  lemma Inserted<T>(s: seq<T>, key: T -> SortKey, j: nat, i: nat)
    requires j <= i < |s|
    requires SortedExcept(s, key, j, i) && LeastFrom(s, key, j, i)
    requires j > 0 ==> KeyLe(key(s[j - 1]), key(s[j]))
    ensures SortedBy(s[..i + 1], key)
  {
    forall p | 0 <= p < j ensures KeyLe(key(s[p]), key(s[j])) {
      if p < j - 1 {
        KeyLeTrans(key(s[p]), key(s[j - 1]), key(s[j]));
      }
    }
  }

  // ---------------------------------------------------------------
  // The admin sidebar's listing order
  // ---------------------------------------------------------------

  /** A listing entry's key: `type === "dir"` and its name. */
  function EntryKey(e: Entry): (k: SortKey)
    ensures k.isDir <==> e.kind == Dir
    ensures k.name == e.name
  {
    SortKey(e.kind == Dir, e.name)
  }

  /**
   * `sortEntriesFoldersFirst`: the listing sorted in place, every folder
   * before every file, each group in name order, nothing lost or added.
   */
  method SortEntriesFoldersFirst(a: array<Entry>)
    modifies a
    ensures multiset(a[..]) == multiset(old(a[..]))
    ensures forall p, q :: 0 <= p < q < a.Length && a[q].kind == Dir ==> a[p].kind == Dir
    ensures forall p, q :: 0 <= p < q < a.Length && a[p].kind == a[q].kind ==> NameLe(a[p].name, a[q].name)
  {
    SortFoldersFirst(a, EntryKey);
    SortedMeansFoldersFirst(a[..], EntryKey);
  }

  /**
   * Sorting by this order determines the result: two sorted permutations
   * of the same items with distinct names are equal, so the order in
   * which the items happened to arrive does not show in the sidebar.
   */
  lemma {:induction false} SortedPermutationUnique<T>(s: seq<T>, t: seq<T>, key: T -> SortKey)
    requires multiset(s) == multiset(t)
    requires SortedBy(s, key) && SortedBy(t, key)
    requires forall p, q :: 0 <= p < q < |s| ==> key(s[p]).name != key(s[q]).name
    ensures s == t
    decreases |s|
  {
    if s != [] {
      SameFirst(s, t, key);
      SameTails(s, t);
      SortedTail(s, key);
      SortedTail(t, key);
      SortedPermutationUnique(s[1..], t[1..], key);
    }
  }

  lemma SameTails<T>(s: seq<T>, t: seq<T>)
    requires s != [] && t != [] && s[0] == t[0] && multiset(s) == multiset(t)
    ensures multiset(s[1..]) == multiset(t[1..])
  {
    assert s == [s[0]] + s[1..] && t == [t[0]] + t[1..];
    assert multiset(s[1..]) == multiset(s) - multiset([s[0]]);
    assert multiset(t[1..]) == multiset(t) - multiset([s[0]]);
  }

  /** Both sorted permutations start with the same, least, item. */
  lemma SameFirst<T>(s: seq<T>, t: seq<T>, key: T -> SortKey)
    requires s != [] && multiset(s) == multiset(t)
    requires SortedBy(s, key) && SortedBy(t, key)
    requires forall p, q :: 0 <= p < q < |s| ==> key(s[p]).name != key(s[q]).name
    ensures t != [] && s[0] == t[0]
  {
    assert s[0] in multiset(t);
    var m :| 0 <= m < |t| && t[m] == s[0];
    assert t[0] in multiset(s);
    var k :| 0 <= k < |s| && s[k] == t[0];
    if k != 0 {
      assert KeyLe(key(s[0]), key(s[k]));
      assert KeyLe(key(t[0]), key(t[m]));
      NameLeAntisym(key(s[0]).name, key(t[0]).name);
    }
  }

  lemma SortedTail<T>(s: seq<T>, key: T -> SortKey)
    requires s != [] && SortedBy(s, key)
    ensures SortedBy(s[1..], key)
  {
    forall p, q | 0 <= p < q < |s| - 1 ensures KeyLe(key(s[1..][p]), key(s[1..][q])) {
      assert s[1..][p] == s[p + 1] && s[1..][q] == s[q + 1];
    }
  }

  // ---------------------------------------------------------------
  // Which files the sidebar opens as text
  // ---------------------------------------------------------------

  const TextExtensions: seq<string> := [".html", ".css", ".js", ".txt", ".md", ".xml", ".json"]

  /** `isTextFile`: the lower-cased name ends with one of the text extensions. */
  predicate IsTextFile(name: string)
  {
    var lower := ToLower(name);
    EndsWith(lower, ".html") || EndsWith(lower, ".css") || EndsWith(lower, ".js") || EndsWith(lower, ".txt")
    || EndsWith(lower, ".md") || EndsWith(lower, ".xml") || EndsWith(lower, ".json")
  }

  /** A name is text exactly when its lower-cased form ends with one of `TextExtensions`. */
  lemma IsTextFileListed(name: string)
    ensures IsTextFile(name) <==> exists e :: e in TextExtensions && EndsWith(ToLower(name), e)
  {
    EndsWithListed(ToLower(name));
  }

  /** Ending with one of the seven extensions, spelled out, is ending with a member of `TextExtensions`. */
  lemma EndsWithListed(lower: string)
    ensures (|| EndsWith(lower, ".html") || EndsWith(lower, ".css") || EndsWith(lower, ".js") || EndsWith(lower, ".txt")
             || EndsWith(lower, ".md") || EndsWith(lower, ".xml") || EndsWith(lower, ".json"))
            <==> exists e :: e in TextExtensions && EndsWith(lower, e)
  {
    forall e | e in TextExtensions
      ensures e in {".html", ".css", ".js", ".txt", ".md", ".xml", ".json"}
    {
    }
    if EndsWith(lower, ".html") { assert ".html" in TextExtensions; }
    else if EndsWith(lower, ".css") { assert ".css" in TextExtensions; }
    else if EndsWith(lower, ".js") { assert ".js" in TextExtensions; }
    else if EndsWith(lower, ".txt") { assert ".txt" in TextExtensions; }
    else if EndsWith(lower, ".md") { assert ".md" in TextExtensions; }
    else if EndsWith(lower, ".xml") { assert ".xml" in TextExtensions; }
    else if EndsWith(lower, ".json") { assert ".json" in TextExtensions; }
  }

  /** The test ignores case: a name and its lower-cased form are both text or both not. */
  lemma IsTextFileIgnoresCase(name: string)
    ensures IsTextFile(ToLower(name)) == IsTextFile(name)
  {
    ToLowerIdempotent(name);
  }
}

=== FILE: monaco_editor.dfy ===
/**
 * The single-file editor page (editor/editor.js): it names a repository
 * and a path in its URL, loads that file through the worker into a
 * Monaco editor with a language picked from the file's extension, and
 * saves the editor's text back as a commit.
 *
 * The page's requests go through an `/api/github` proxy outside this
 * model, assumed to forward each one to the store unchanged, so they are
 * modelled as calls on the store itself. The store holds text: the page
 * saves the UTF-8 encoding of its text, so the text saved is the text
 * stored. Base64 itself is not modelled, but the page's load is: it
 * decodes with `atob` alone, which gives the stored text's UTF-8 bytes,
 * one character per byte (`Utf8ReadAsLatin1`).
 */
module MonacoEditor {
  import opened Strings
  import opened Store
  import opened FileOps

  // ---------------------------------------------------------------
  // Language by extension
  // ---------------------------------------------------------------

  const Languages: seq<string> := ["html", "css", "javascript", "json", "markdown", "xml", "plaintext"]

  /** `detectLanguage`: the language of the path's extension, in any case. */
  function DetectLanguage(path: string): (language: string)
    ensures language in Languages
  {
    LanguageOf(ToLower(path))
  }

  /** The tests `detectLanguage` makes on the lower-cased path, in its order. */
  function LanguageOf(lower: string): (language: string)
    ensures language in Languages
  {
    if EndsWith(lower, ".html") then "html"
    else if EndsWith(lower, ".css") then "css"
    else if EndsWith(lower, ".js") then "javascript"
    else if EndsWith(lower, ".json") then "json"
    else if EndsWith(lower, ".md") then "markdown"
    else if EndsWith(lower, ".xml") then "xml"
    else "plaintext"
  }

  /** One of the six extensions the editor knows. */
  predicate KnownExtension(lower: string)
  {
    || EndsWith(lower, ".html") || EndsWith(lower, ".css") || EndsWith(lower, ".js")
    || EndsWith(lower, ".json") || EndsWith(lower, ".md") || EndsWith(lower, ".xml")
  }

  /**
   * Each language is chosen exactly when the path ends with its extension,
   * in any case; no two of the extensions can end the same path, so the
   * order of the tests does not matter, and every other path is plain text.
   */
  lemma LanguageOfExtension(path: string)
    ensures var lower := ToLower(path);
            var language := DetectLanguage(path);
            && (language == "html" <==> EndsWith(lower, ".html"))
            && (language == "css" <==> EndsWith(lower, ".css"))
            && (language == "javascript" <==> EndsWith(lower, ".js"))
            && (language == "json" <==> EndsWith(lower, ".json"))
            && (language == "markdown" <==> EndsWith(lower, ".md"))
            && (language == "xml" <==> EndsWith(lower, ".xml"))
            && (language == "plaintext" <==> !KnownExtension(lower))
  {
    LanguageOfLowered(ToLower(path));
  }

  /** `LanguageOfExtension` for a path already lower-cased. */
  lemma LanguageOfLowered(lower: string)
    ensures var language := LanguageOf(lower);
            && (language == "html" <==> EndsWith(lower, ".html"))
            && (language == "css" <==> EndsWith(lower, ".css"))
            && (language == "javascript" <==> EndsWith(lower, ".js"))
            && (language == "json" <==> EndsWith(lower, ".json"))
            && (language == "markdown" <==> EndsWith(lower, ".md"))
            && (language == "xml" <==> EndsWith(lower, ".xml"))
            && (language == "plaintext" <==> !KnownExtension(lower))
  {
    if EndsWith(lower, ".js") {
      if EndsWith(lower, ".html") { SuffixesAgree(lower, ".js", ".html"); }
      if EndsWith(lower, ".css") { SuffixesAgree(lower, ".js", ".css"); }
    }
    if EndsWith(lower, ".json") {
      if EndsWith(lower, ".html") { SuffixesAgree(lower, ".json", ".html"); }
      if EndsWith(lower, ".css") { SuffixesAgree(lower, ".css", ".json"); }
      if EndsWith(lower, ".js") { SuffixesAgree(lower, ".js", ".json"); }
    }
    if EndsWith(lower, ".md") {
      if EndsWith(lower, ".html") { SuffixesAgree(lower, ".md", ".html"); }
      if EndsWith(lower, ".css") { SuffixesAgree(lower, ".md", ".css"); }
      if EndsWith(lower, ".js") { SuffixesAgree(lower, ".md", ".js"); }
      if EndsWith(lower, ".json") { SuffixesAgree(lower, ".md", ".json"); }
    }
    if EndsWith(lower, ".xml") {
      if EndsWith(lower, ".html") { SuffixesAgree(lower, ".xml", ".html"); }
      if EndsWith(lower, ".css") { SuffixesAgree(lower, ".css", ".xml"); }
      if EndsWith(lower, ".js") { SuffixesAgree(lower, ".js", ".xml"); }
      if EndsWith(lower, ".json") { SuffixesAgree(lower, ".xml", ".json"); }
      if EndsWith(lower, ".md") { SuffixesAgree(lower, ".md", ".xml"); }
    }
  }

  /** The language ignores the case of the path. */
  lemma LanguageIgnoresCase(path: string)
    ensures DetectLanguage(ToLower(path)) == DetectLanguage(path)
  {
    ToLowerIdempotent(path);
  }

  /** Two suffixes of one text: the shorter is a suffix of the longer. */
  lemma SuffixesAgree(s: string, a: string, b: string)
    requires EndsWith(s, a) && EndsWith(s, b) && |a| <= |b|
    ensures EndsWith(b, a)
  {
    var tail := s[|s| - |b|..];
    assert tail[|b| - |a|..] == s[|s| - |a|..];
  }

  // ---------------------------------------------------------------
  // Loading and saving
  // ---------------------------------------------------------------

  /**
   * The page's target from its URL parameters: both must be present and
   * non-empty, or the page stops before doing anything.
   */
  function PageTarget(repo: Option<string>, path: Option<string>): (target: Option<Loc>)
    ensures target.Some? <==> repo.Some? && repo.value != "" && path.Some? && path.value != ""
    ensures target.Some? ==> target.value.repo == repo.value && target.value.path == path.value
  {
    if repo.None? || repo.value == "" || path.None? || path.value == "" then None
    else Some(Loc(repo.value, path.value))
  }

  // ---------------------------------------------------------------
  // What `atob` gives back
  // ---------------------------------------------------------------

  /** Every character is ASCII. */
  predicate Ascii(text: string)
  {
    forall i :: 0 <= i < |text| ==> text[i] as int < 128
  }

  /**
   * The UTF-8 bytes of one character, each as the character with that
   * code: one byte for ASCII, and otherwise two to four bytes, every one
   * of them 128 or above.
   */
  function Utf8Units(c: char): (units: string)
    ensures 1 <= |units| <= 4
    ensures forall i :: 0 <= i < |units| ==> units[i] as int < 256
    ensures c as int < 128 ==> units == [c]
    ensures c as int >= 128 ==> 2 <= |units| && forall i :: 0 <= i < |units| ==> units[i] as int >= 128
  {
    var n := c as int;
    if n < 0x80 then [c]
    else if n < 0x800 then [(0xC0 + n / 64) as char, (0x80 + n % 64) as char]
    else if n < 0x1_0000 then [(0xE0 + n / 4096) as char, (0x80 + n / 64 % 64) as char, (0x80 + n % 64) as char]
    else [(0xF0 + n / 262144) as char, (0x80 + n / 4096 % 64) as char, (0x80 + n / 64 % 64) as char,
          (0x80 + n % 64) as char]
  }

  /**
   * `atob` of what the page saved, `btoa(unescape(encodeURIComponent(text)))`:
   * the text's UTF-8 bytes, each read back as one character.
   */
  function Utf8ReadAsLatin1(text: string): (bytes: string)
    ensures |bytes| >= |text|
  {
    if text == [] then [] else Utf8Units(text[0]) + Utf8ReadAsLatin1(text[1..])
  }

  /**
   * Reading the UTF-8 bytes as characters gives the text back exactly
   * when the text is ASCII; any other character comes back as two to
   * four characters.
   */
  lemma {:induction false} AsciiReadsBack(text: string)
    ensures Utf8ReadAsLatin1(text) == text <==> Ascii(text)
    ensures Ascii(text) <==> |Utf8ReadAsLatin1(text)| == |text|
  {
    if text != [] {
      AsciiReadsBack(text[1..]);
      assert Ascii(text) <==> text[0] as int < 128 && Ascii(text[1..]);
      if Utf8ReadAsLatin1(text) == text {
        assert |Utf8ReadAsLatin1(text)| == |text|;
      }
    }
  }

  /** A text with a character beyond ASCII still has one after the round. */
  lemma {:induction false} NonAsciiStays(text: string)
    requires !Ascii(text)
    ensures !Ascii(Utf8ReadAsLatin1(text))
  {
    if text[0] as int >= 128 {
      var units := Utf8Units(text[0]);
      assert Utf8ReadAsLatin1(text)[0] == units[0];
    } else {
      assert !Ascii(text[1..]) by {
        var i :| 0 <= i < |text| && text[i] as int >= 128;
        assert text[1..][i - 1] == text[i];
      }
      NonAsciiStays(text[1..]);
      var rest := Utf8ReadAsLatin1(text[1..]);
      var j :| 0 <= j < |rest| && rest[j] as int >= 128;
      assert Utf8ReadAsLatin1(text) == [text[0]] + rest;
      assert Utf8ReadAsLatin1(text)[j + 1] == rest[j];
    }
  }

  /** Saving `é` and loading it shows `Ã©`. */
  lemma EAcuteLoadsAsTwoCharacters()
    ensures Utf8ReadAsLatin1("\U{E9}") == "\U{C3}\U{A9}"
  {
    assert Utf8Units('\U{E9}') == ['\U{C3}', '\U{A9}'];
  }

  /**
   * Every further save of what was loaded changes the text again: the
   * non-ASCII text never settles.
   */
  lemma ResavedTextDrifts(text: string)
    requires !Ascii(text)
    ensures Utf8ReadAsLatin1(Utf8ReadAsLatin1(text)) != Utf8ReadAsLatin1(text)
  {
    NonAsciiStays(text);
    AsciiReadsBack(Utf8ReadAsLatin1(text));
  }

  /**
   * What `loadFile` gives for `loc` when its read was lost or not, with a
   * decode that gives the stored text back (a `TextDecoder`, as the worker
   * uses): the file's text, or nothing (it throws) when the read failed,
   * found a folder, or found a file whose content is empty.
   */
  function LoadAnswer(files: map<Loc, Blob>, loc: Loc, lost: bool): (text: Option<string>)
    ensures text.Some? ==> text.value != ""
  {
    if lost || loc !in files || files[loc].content == "" then None else Some(files[loc].content)
  }

  /** What `loadFile` as written gives: the same, decoded with `atob` alone. */
  function LoadAnswerAsWritten(files: map<Loc, Blob>, loc: Loc, lost: bool): (text: Option<string>)
    ensures text.Some? <==> LoadAnswer(files, loc, lost).Some?
    ensures text.Some? ==> text.value == Utf8ReadAsLatin1(LoadAnswer(files, loc, lost).value)
  {
    if lost || loc !in files || files[loc].content == "" then None else Some(Utf8ReadAsLatin1(files[loc].content))
  }

  /**
   * `loadFile` as written: one GET; when the file has content, its UTF-8
   * bytes read one character per byte.
   */
  method LoadFile(s: GitHubStore, loc: Loc) returns (text: Option<string>)
    requires s.Valid()
    modifies s
    ensures s.Valid() && s.files == old(s.files) && s.nextSha == old(s.nextSha)
    ensures s.log == old(s.log) + Sent(s.hasToken, Call(GetReq(loc), |old(s.log)| !in s.faults && GetOk(s.files, loc)))
    ensures text == LoadAnswerAsWritten(s.files, loc, !s.hasToken || |old(s.log)| in s.faults)
  {
    var got := s.Get(loc);
    if got.Err? {
      return None;
    }
    var content := ContentOf(got.value);
    if content.None? || content.value == "" {
      return None;
    }
    text := Some(Utf8ReadAsLatin1(content.value));
  }

  /** `loadFile` decoding the UTF-8 bytes with a `TextDecoder`: the file's text itself. */
  method LoadFileCorrected(s: GitHubStore, loc: Loc) returns (text: Option<string>)
    requires s.Valid()
    modifies s
    ensures s.Valid() && s.files == old(s.files) && s.nextSha == old(s.nextSha)
    ensures s.log == old(s.log) + Sent(s.hasToken, Call(GetReq(loc), |old(s.log)| !in s.faults && GetOk(s.files, loc)))
    ensures text == LoadAnswer(s.files, loc, !s.hasToken || |old(s.log)| in s.faults)
  {
    var got := s.Get(loc);
    if got.Err? {
      return None;
    }
    var content := ContentOf(got.value);
    if content.None? || content.value == "" {
      return None;
    }
    text := content;
  }

  /** `Edit ${filePath}` */
  function EditMessage(path: Path): (m: string)
    ensures StartsWith(m, "Edit ") && m[5..] == path
  {
    "Edit " + path
  }

  /**
   * `saveFile`: look the sha up, then PUT the text with the message
   * `Edit <path>`, carrying the sha exactly when the lookup found one, and
   * on no named branch.
   */
  method SaveFile(s: GitHubStore, loc: Loc, content: string) returns (r: Result<Sha>)
    requires s.Valid()
    modifies s
    ensures s.Valid()
    ensures !s.hasToken ==> r == Err(Unauthorized) && s.log == old(s.log) && s.files == old(s.files)
    ensures s.hasToken ==>
      var k := |old(s.log)|;
      s.log == old(s.log) + [
        Call(GetReq(loc), k !in s.faults && GetOk(old(s.files), loc)),
        Call(PutReq(loc, PutBody(EditMessage(loc.path), Some(content), ShaRead(old(s.files), loc, k in s.faults), None)),
             r.Ok?)]
    ensures r.Ok? ==> s.files == old(s.files)[loc := Blob(content, r.value)] && r.value == old(s.nextSha)
    ensures r.Err? ==> s.files == old(s.files)
    ensures s.hasToken && NoneLost(s.faults, |old(s.log)|, 2) && WellFormed(loc.path) && !Clashes(old(s.files), loc)
      ==> r.Ok?
  {
    r := CommitFile(s, loc, content, EditMessage(loc.path), None);
  }

  /**
   * With the corrected decode a saved text reads back unchanged when the
   * read is not lost, unless it is empty: an empty file saves but does
   * not load again.
   */
  lemma SavedTextLoads(files: map<Loc, Blob>, loc: Loc, content: string, sha: Sha)
    ensures LoadAnswer(files[loc := Blob(content, sha)], loc, false) == if content == "" then None else Some(content)
  {
  }

  /**
   * As written a saved text reads back unchanged exactly when it is
   * non-empty ASCII: any other character comes back as its UTF-8 bytes.
   */
  lemma SavedTextLoadsAsWritten(files: map<Loc, Blob>, loc: Loc, content: string, sha: Sha)
    ensures LoadAnswerAsWritten(files[loc := Blob(content, sha)], loc, false) == Some(content)
            <==> content != "" && Ascii(content)
  {
    AsciiReadsBack(content);
  }

  // ---------------------------------------------------------------
  // The page
  // ---------------------------------------------------------------

  /**
   * The page's state: the file it edits, and the Monaco editor, which
   * exists only once the file has loaded (`editor` stays null otherwise).
   */
  class EditorPage {
    const target: Loc
    /** The editor's text; `None` while there is no editor. */
    var value: Option<string>
    /** The language the editor was created with. */
    var language: string

    constructor (target: Loc)
      ensures this.target == target && value == None && language == "plaintext"
    {
      this.target := target;
      value := None;
      language := "plaintext";
    }

    /**
     * The page start: load the file and, when that succeeds, create the
     * editor holding its text in the language of its extension. A failed
     * load leaves the page without an editor.
     */
    method Open(s: GitHubStore) returns (loaded: bool)
      requires s.Valid()
      modifies this, s
      ensures s.Valid() && s.files == old(s.files) && s.nextSha == old(s.nextSha)
      ensures s.log == old(s.log) + Sent(s.hasToken, Call(GetReq(target), |old(s.log)| !in s.faults && GetOk(s.files, target)))
      ensures var answer := LoadAnswerAsWritten(s.files, target, !s.hasToken || |old(s.log)| in s.faults);
              && loaded == answer.Some?
              && (loaded ==> value == answer && language == DetectLanguage(target.path))
              && (loaded ==> value.value == Utf8ReadAsLatin1(s.files[target].content))
              && (!loaded ==> value == old(value) && language == old(language))
    {
      var text := LoadFile(s, target);
      loaded := text.Some?;
      if loaded {
        value := text;
        language := DetectLanguage(target.path);
      }
    }

    /** The user changes the text in the editor; without an editor there is nothing to change. */
    method Edit(text: string)
      modifies this
      ensures value == if old(value).Some? then Some(text) else None
      ensures language == old(language)
    {
      if value.Some? {
        value := Some(text);
      }
    }

    /**
     * The save button (and Ctrl+S, which clicks it): without an editor
     * nothing is sent; otherwise the editor's text is saved.
     */
    method Save(s: GitHubStore) returns (r: Outcome)
      requires s.Valid()
      modifies s
      ensures s.Valid()
      ensures old(value).None? ==> r == Skipped && s.log == old(s.log) && s.files == old(s.files)
      ensures r.Skipped? <==> value.None?
      ensures r == Completed ==> value.Some? && target in s.files && s.files[target].content == value.value
      ensures r == Completed ==> s.files == old(s.files)[target := Blob(value.value, old(s.nextSha))]
      ensures r.Failed? ==> s.files == old(s.files)
      ensures r == Completed || r.Failed? || r == Skipped
      ensures value.Some? && s.hasToken && NoneLost(s.faults, |old(s.log)|, 2) && WellFormed(target.path)
              && !Clashes(old(s.files), target)
        ==> r == Completed
    {
      if value.None? {
        return Skipped;
      }
      var committed := SaveFile(s, target, value.value);
      r := if committed.Ok? then Completed else Failed(committed.error);
    }
  }
}

=== FILE: session.dfy ===
/**
 * The worker's login session (_worker.js): after the OAuth callback the
 * worker sets a `cms_session` cookie holding `user=<login>` and an HMAC
 * signature of it; `/api/me` reads the cookie back, checks the signature
 * and answers the login.
 *
 * The HMAC (keyed with the session secret, base64-encoded) is the
 * function parameter `sign`. What a browser does with a `Set-Cookie`
 * line is modelled after section 5.2 of RFC 6265: the cookie's value is
 * the text after the first '=' of the text before the first ';'.
 */
module Session {
  import opened Strings
  import opened Store

  const CookieKey := "cms_session"
  const CookieName := CookieKey + "="

  /** The attributes after the cookie's value. */
  const Attributes := ";" + " Path=/; HttpOnly; Secure; SameSite=Lax; Max-Age=2592000"

  /** The separator between value and signature as the worker writes it. */
  const SigSepAsWritten := ";sig="

  /** A separator that may appear inside a cookie value (no ';', no space). */
  const SigSep := ".sig="

  /** The `Set-Cookie` line `/api/logout` answers: an empty value that expires at once. */
  const LogoutCookie := CookieName + LogoutAttributes
  const LogoutAttributes := ";" + " Path=/; Max-Age=0; HttpOnly; Secure; SameSite=Lax"

  /** `user=${username}`: the signed part of the cookie. */
  function SessionValue(login: string): (v: string)
    ensures StartsWith(v, "user=") && v[5..] == login
  {
    "user=" + login
  }

  /** The `Set-Cookie` line for `login`, with `sep` between the value and its signature. */
  function SetCookieWith(login: string, sign: string -> string, sep: string): string
  {
    CookieName + SessionValue(login) + sep + sign(SessionValue(login)) + Attributes
  }

  /** `createSessionCookie` as written: the signature follows ";sig=". */
  function CreateSessionCookieAsWritten(login: string, sign: string -> string): (line: string)
    ensures StartsWith(line, CookieName + SessionValue(login) + ";")
  {
    var line := SetCookieWith(login, sign, SigSepAsWritten);
    assert line[..|CookieName + SessionValue(login) + ";"|] == CookieName + SessionValue(login) + ";";
    line
  }

  /** `createSessionCookie` with a separator the browser keeps inside the value. */
  function CreateSessionCookie(login: string, sign: string -> string): (line: string)
    ensures StartsWith(line, CookieName + SignedValue(login, sign) + ";")
  {
    var line := SetCookieWith(login, sign, SigSep);
    assert line == CookieName + SignedValue(login, sign) + Attributes;
    assert line[..|CookieName + SignedValue(login, sign) + ";"|] == CookieName + SignedValue(login, sign) + ";";
    line
  }

  /** The value a browser stores for a `Set-Cookie` line. */
  function StoredValue(setCookie: string): (v: string)
    ensures ';' !in v
  {
    var pair := setCookie[..IndexOf(setCookie, ';')];
    var eq := IndexOf(pair, '=');
    if eq == |pair| then "" else pair[eq + 1..]
  }

  /** The `Cookie` header a browser sends back when the session is its only cookie. */
  function CookieHeader(value: string): string
  {
    CookieName + value
  }

  /**
   * `cookie.match(/cms_session=([^;]+)/)`: the first place "cms_session="
   * is followed by at least one character other than ';', and the run of
   * such characters there.
   */
  function MatchSession(header: string): (m: Option<string>)
    ensures m.Some? ==> m.value != "" && ';' !in m.value
    decreases |header|
  {
    var k := IndexOfStr(header, CookieName);
    if k == |header| then None
    else
      var rest := header[k + |CookieName|..];
      var raw := rest[..IndexOf(rest, ';')];
      if raw != "" then Some(raw) else MatchSession(header[k + 1..])
  }

  /**
   * The rest of `readSessionCookie`: the matched text must split at `sep`
   * into exactly two parts, the second the signature of the first; the
   * login is the first with its first "user=" removed.
   */
  function ReadWith(header: string, sign: string -> string, sep: string): Option<string>
    requires sep != []
  {
    match MatchSession(header)
    case None => None
    case Some(raw) =>
      var parts := SplitStr(raw, sep);
      if |parts| != 2 || parts[1] != sign(parts[0]) then None
      else Some(ReplaceFirst(parts[0], "user=", ""))
  }

  /** `readSessionCookie` as written. */
  function ReadSessionCookieAsWritten(header: string, sign: string -> string): (login: Option<string>)
    ensures login.Some? ==> MatchSession(header).Some?
  {
    ReadWith(header, sign, SigSepAsWritten)
  }

  /** `readSessionCookie` with the separator that survives the browser. */
  function ReadSessionCookie(header: string, sign: string -> string): (login: Option<string>)
    ensures login.Some? ==> MatchSession(header).Some?
  {
    ReadWith(header, sign, SigSep)
  }

  /**
   * As written no session is ever read: the match stops at the first ';',
   * so the matched text never contains ";sig=" and never splits in two.
   */
  lemma NoSessionEverReadAsWritten(header: string, sign: string -> string)
    ensures ReadSessionCookieAsWritten(header, sign) == None
  {
    var m := MatchSession(header);
    if m.Some? {
      NoOccurrence(m.value, SigSepAsWritten);
    }
  }

  /**
   * As written the browser keeps only `user=<login>` of the cookie: the
   * signature is lost before it can be read back.
   */
  lemma BrowserDropsSignatureAsWritten(login: string, sign: string -> string)
    requires ';' !in login
    ensures StoredValue(CreateSessionCookieAsWritten(login, sign)) == SessionValue(login)
  {
    NameFree();
    var v := SessionValue(login);
    assert CreateSessionCookieAsWritten(login, sign) == CookieName + v + (SigSepAsWritten + sign(v) + Attributes);
    StoredAfterName(v, SigSepAsWritten + sign(v) + Attributes);
  }

  /** The value and its signature, as the corrected cookie carries them. */
  function SignedValue(login: string, sign: string -> string): string
  {
    SessionValue(login) + SigSep + sign(SessionValue(login))
  }

  /** With the corrected separator the browser keeps the value and its signature. */
  lemma BrowserKeepsSignature(login: string, sign: string -> string)
    requires ';' !in login && ';' !in sign(SessionValue(login))
    ensures StoredValue(CreateSessionCookie(login, sign)) == SignedValue(login, sign)
  {
    NameFree();
    assert CreateSessionCookie(login, sign) == CookieName + SignedValue(login, sign) + Attributes;
    StoredAfterName(SignedValue(login, sign), Attributes);
  }

  /** A `Set-Cookie` line naming the session and ending its value at a ';' stores that value. */
  lemma StoredAfterName(value: string, rest: string)
    requires ';' !in value && rest != [] && rest[0] == ';'
    ensures StoredValue(CookieName + value + rest) == value
  {
    NameFree();
    var line := CookieName + value + rest;
    var pre := CookieName + value;
    assert ';' !in pre;
    FirstChar(pre, ';', rest);
    assert line[..IndexOf(line, ';')] == pre;
    FirstChar(CookieKey, '=', "=" + value);
    assert pre == CookieKey + ("=" + value);
  }

  /** The header holding only the session gives its whole value to the match. */
  lemma MatchWhole(value: string)
    requires ';' !in value && value != []
    ensures MatchSession(CookieHeader(value)) == Some(value)
  {
    var header := CookieHeader(value);
    FirstOccurrence([], CookieName, value);
    assert header == [] + CookieName + value;
    assert header[|CookieName|..] == value;
    IndexOfAbsent(value, ';');
    assert value[..IndexOf(value, ';')] == value;
  }

  /**
   * With the corrected separator the session round-trips: the login
   * signed into the cookie is the login read back, for any login free of
   * '.' and ';' (GitHub logins are letters, digits and hyphens) and a
   * signature free of them (base64 has neither).
   */
  lemma SessionRoundTrip(login: string, sign: string -> string)
    requires '.' !in login && ';' !in login
    requires '.' !in sign(SessionValue(login)) && ';' !in sign(SessionValue(login))
    ensures ReadSessionCookie(CookieHeader(StoredValue(CreateSessionCookie(login, sign))), sign) == Some(login)
  {
    NameFree();
    var v := SessionValue(login);
    assert ';' !in v && '.' !in v;
    BrowserKeepsSignature(login, sign);
    assert SignedValue(login, sign) == v + SigSep + sign(v);
    ReadSigned(v, sign);
    FirstOccurrence([], "user=", login);
    assert v == [] + "user=" + login;
    assert IndexOfStr(v, "user=") == 0;
    assert ReplaceFirst(v, "user=", "") == v[5..] == login;
  }

  /** A header carrying a value and its signature reads as that value without its "user=". */
  lemma ReadSigned(v: string, sign: string -> string)
    requires '.' !in v && ';' !in v && '.' !in sign(v) && ';' !in sign(v)
    ensures ReadSessionCookie(CookieHeader(v + SigSep + sign(v)), sign) == Some(ReplaceFirst(v, "user=", ""))
  {
    NameFree();
    var raw := v + SigSep + sign(v);
    assert ';' !in raw;
    MatchWhole(raw);
    SplitInTwo(v, SigSep, sign(v));
  }

  /** Only a value carrying its own signature is ever accepted. */
  lemma OnlySignedValuesRead(header: string, sign: string -> string)
    requires ReadSessionCookie(header, sign).Some?
    ensures MatchSession(header).Some?
    ensures var raw := MatchSession(header).value;
            exists v :: raw == v + SigSep + sign(v)
  {
    var raw := MatchSession(header).value;
    SplitTwoParts(raw, SigSep);
    var parts := SplitStr(raw, SigSep);
    assert raw == parts[0] + SigSep + sign(parts[0]);
  }

  /** After `/api/logout` the browser holds an empty session, which reads as no login. */
  lemma LogoutEndsSession(sign: string -> string)
    ensures StoredValue(LogoutCookie) == ""
    ensures ReadSessionCookie(CookieHeader(StoredValue(LogoutCookie)), sign) == None
  {
    NameFree();
    assert LogoutCookie == CookieName + [] + LogoutAttributes;
    StoredAfterName([], LogoutAttributes);
    var header := CookieHeader([]);
    FirstOccurrence([], CookieName, []);
    assert header == [] + CookieName + [];
    NoOccurrence(header[1..], CookieName);
  }

  /** The fixed texts around a session hold none of the characters that delimit it. */
  lemma NameFree()
    ensures ';' !in CookieName && '=' !in CookieKey && ';' !in "user=" && '.' !in "user="
    ensures ';' !in SigSep && SigSep[0] == '.' && SigSepAsWritten[0] == ';'
    ensures Attributes[0] == ';' && LogoutAttributes[0] == ';'
  {
  }
}

=== FILE: sha_cache.dfy ===
/**
 * The admin's sha cache (cms-admin-v2.js): a side table from
 * "repo:path" to the sha last read for that file, so that repeated
 * lookups do not each cost a request.
 */
module ShaCache {
  import opened Strings
  import opened Store
  import opened FileOps

  /** `${repo}:${path}` */
  function CacheKey(repo: string, path: Path): (key: string)
    ensures StartsWith(key, repo + ":") && EndsWith(key, path)
    ensures |key| == |repo| + 1 + |path|
  {
    repo + ":" + path
  }

  /** Repository names hold no ':', so a key names one file. */
  lemma CacheKeyInjective(r1: string, p1: Path, r2: string, p2: Path)
    requires ':' !in r1 && ':' !in r2
    requires CacheKey(r1, p1) == CacheKey(r2, p2)
    ensures r1 == r2 && p1 == p2
  {
    var k := CacheKey(r1, p1);
    FirstColon(r1, p1);
    FirstColon(r2, p2);
    assert r1 == k[..|r1|] && r2 == k[..|r2|];
    assert p1 == k[|r1| + 1..] && p2 == k[|r2| + 1..];
  }

  /** The first ':' of a key ends the repository name. */
  lemma FirstColon(repo: string, path: Path)
    requires ':' !in repo
    ensures IndexOf(CacheKey(repo, path), ':') == |repo|
  {
    var k := CacheKey(repo, path);
    assert k[|repo|] == ':';
    assert forall j :: 0 <= j < |repo| ==> k[j] == repo[j];
  }

  class Cache {
    /** `shaCache`: a key is present only with a sha (an unset key is falsy). */
    var entries: map<string, Sha>

    constructor ()
      ensures entries == map[]
    {
      entries := map[];
    }

    /**
     * Every cached sha, for a repository whose name has no ':', is the
     * current sha of that file.
     */
    ghost predicate Current(files: map<Loc, Blob>)
      reads this
    {
      forall repo: string, path: Path :: ':' !in repo && CacheKey(repo, path) in entries ==>
        Loc(repo, path) in files && files[Loc(repo, path)].sha == entries[CacheKey(repo, path)]
    }

    /**
     * `getCachedSha`: a cached sha is answered with no request; otherwise
     * the file is read, and a sha that comes back is remembered. A failed
     * read, or a folder's answer (which has no sha), caches nothing and
     * answers nothing.
     */
    method GetCachedSha(s: GitHubStore, repo: string, path: Path) returns (sha: Option<Sha>)
      requires s.Valid()
      modifies this, s
      ensures s.Valid() && s.files == old(s.files) && s.nextSha == old(s.nextSha)
      ensures CacheKey(repo, path) in old(entries) ==>
        sha == Some(old(entries)[CacheKey(repo, path)]) && s.log == old(s.log) && entries == old(entries)
      ensures CacheKey(repo, path) !in old(entries) ==>
        var loc := Loc(repo, path);
        && s.log == old(s.log) + Sent(s.hasToken, Call(GetReq(loc), |old(s.log)| !in s.faults && GetOk(s.files, loc)))
        && sha == ShaRead(s.files, loc, !s.hasToken || |old(s.log)| in s.faults)
        && entries == if sha.Some? then old(entries)[CacheKey(repo, path) := sha.value] else old(entries)
      ensures ':' !in repo && Current(old(s.files)) ==> Current(s.files)
    {
      var key := CacheKey(repo, path);
      if key in entries {
        return Some(entries[key]);
      }
      var got := s.Get(Loc(repo, path));
      if got.Err? {
        return None;
      }
      sha := ShaOf(got.value);
      if sha.Some? {
        entries := entries[key := sha.value];
        if ':' !in repo {
          forall r: string, p: Path | ':' !in r && CacheKey(r, p) == key ensures r == repo && p == path {
            CacheKeyInjective(r, p, repo, path);
          }
        }
      }
    }
  }

  /**
   * The cache is never told about writes: after a successful PUT of a new
   * version, a cached sha for that file is no longer its sha, so a commit
   * carrying it would be refused as a conflict.
   */
  lemma StaleAfterWrite(files: map<Loc, Blob>, entries: map<string, Sha>, loc: Loc, content: string, minted: Sha)
    requires loc in files && CacheKey(loc.repo, loc.path) in entries
    requires entries[CacheKey(loc.repo, loc.path)] == files[loc].sha
    requires minted != files[loc].sha
    ensures entries[CacheKey(loc.repo, loc.path)] != files[loc := Blob(content, minted)][loc].sha
    ensures PutVerdict(files[loc := Blob(content, minted)], loc,
                       PutBody("", Some(content), Some(entries[CacheKey(loc.repo, loc.path)]), None), minted + 1).Err?
  {
  }
}

=== FILE: store.dfy ===
/**
 * The remote content store behind every file operation: the GitHub
 * contents API, seen as a map from (repository, path) to a blob and its
 * `sha` version token.
 *
 *  - GET returns a file's content and sha, or the immediate children of a
 *    directory, or fails with NotFound;
 *  - PUT creates a file (no sha in the body) or replaces it (the body's sha
 *    must be the current one) and mints a fresh sha;
 *  - DELETE removes a file and needs its current sha.
 *
 * Any request may also be lost in transport. Which ones are is fixed by
 * the `faults` schedule: request number k (counting from 0 over the whole
 * session) fails iff k is in `faults`. Every request issued is appended to
 * `log` with whether it succeeded, so that the contracts of the compound
 * operations can say exactly which requests ran and in which order.
 */
module Store {
  import opened Strings

  type Path = string
  type Sha = nat

  datatype Option<T> = None | Some(value: T)

  datatype Error =
    | Unauthorized   // no credential held: thrown before any request
    | Transport      // network failure or 5xx
    | NotFound       // nothing at the path
    | Conflict       // the expected sha (or its absence) does not match the store
    | Invalid        // malformed request: missing content or sha, bad path

  datatype Result<T> = Ok(value: T) | Err(error: Error)

  datatype Loc = Loc(repo: string, path: Path)
  datatype Blob = Blob(content: string, sha: Sha)
  datatype Kind = File | Dir

  /** One item of a directory listing: `{name, path, type}`. */
  datatype Entry = Entry(name: string, path: Path, kind: Kind)

  /** What a GET answers: a file, or a directory listing. */
  datatype Resource = FileRes(content: string, sha: Sha) | DirRes(entries: seq<Entry>)

  /** The JSON body of a PUT; `content` is absent when the caller had none to send. */
  datatype PutBody = PutBody(message: string, content: Option<string>, sha: Option<Sha>, branch: Option<string>)

  datatype Request =
    | GetReq(loc: Loc)
    | PutReq(loc: Loc, body: PutBody)
    | DeleteReq(loc: Loc, message: string, sha: Option<Sha>)

  /** A request that reached the store, and whether it succeeded. */
  datatype Call = Call(req: Request, ok: bool)

  /** A file path the contents API accepts: non-empty, without empty segments. */
  predicate WellFormed(p: Path)
  {
    && p != ""
    && p[0] != '/'
    && p[|p| - 1] != '/'
    && forall i :: 0 <= i < |p| - 1 ==> !(p[i] == '/' && p[i + 1] == '/')
  }

  /** The text every path inside directory `d` starts with. */
  function DirPrefix(d: Path): string
  {
    if d == "" then "" else d + "/"
  }

  /** `p` lies strictly inside directory `d`. */
  predicate Below(p: Path, d: Path)
  {
    |DirPrefix(d)| < |p| && StartsWith(p, DirPrefix(d))
  }

  predicate AtOrBelow(p: Path, d: Path)
  {
    p == d || Below(p, d)
  }

  /** The entry of directory `d`'s listing through which `p` is reached. */
  function ChildToward(d: Path, p: Path): Entry
    requires Below(p, d)
  {
    var rest := p[|DirPrefix(d)|..];
    var i := IndexOf(rest, '/');
    if i < |rest| then Entry(rest[..i], DirPrefix(d) + rest[..i], Dir)
    else Entry(rest, p, File)
  }

  /** The immediate children of directory `dir`, derived from the file paths below it. */
  function Children(files: map<Loc, Blob>, dir: Loc): set<Entry>
  {
    set l | l in files && l.repo == dir.repo && Below(l.path, dir.path) :: ChildToward(dir.path, l.path)
  }

  /** `entries` lists the set `s`, each element once. */
  ghost predicate IsListing(entries: seq<Entry>, s: set<Entry>)
  {
    && (forall e :: e in entries <==> e in s)
    && (forall i, j :: 0 <= i < j < |entries| ==> entries[i] != entries[j])
  }

  /** Some file lies below `dir`: the folder exists. */
  predicate HasChildren(files: map<Loc, Blob>, dir: Loc)
  {
    exists l :: l in files && l.repo == dir.repo && Below(l.path, dir.path)
  }

  /** What a successful GET answers: the file, or a listing of the folder's children. */
  ghost predicate GetAnswer(files: map<Loc, Blob>, loc: Loc, res: Resource)
  {
    if loc in files then res == FileRes(files[loc].content, files[loc].sha)
    else res.DirRes? && IsListing(res.entries, Children(files, loc))
  }

  /** The store's verdict on a PUT that was not lost; `minted` is the sha it would mint. */
  function PutVerdict(files: map<Loc, Blob>, loc: Loc, body: PutBody, minted: Sha): Result<Sha>
  {
    if body.content.None? || !WellFormed(loc.path) then Err(Invalid)
    else if Clashes(files, loc) then Err(Conflict)
    else if body.sha.None? then (if loc in files then Err(Conflict) else Ok(minted))
    else if loc in files && files[loc].sha == body.sha.value then Ok(minted)
    else Err(Conflict)
  }

  /**
   * A file at `loc` would sit inside an existing file, or an existing file
   * would sit inside it: a path is never both a file and a folder.
   */
  predicate Clashes(files: map<Loc, Blob>, loc: Loc)
  {
    exists l :: l in files && l.repo == loc.repo && (Below(l.path, loc.path) || Below(loc.path, l.path))
  }

  /** The store's verdict on a DELETE that was not lost. */
  function DeleteVerdict(files: map<Loc, Blob>, loc: Loc, sha: Option<Sha>): Result<()>
  {
    if sha.None? then Err(Invalid)
    else if loc !in files then Err(NotFound)
    else if files[loc].sha != sha.value then Err(Conflict)
    else Ok(())
  }

  ghost predicate ValidFiles(files: map<Loc, Blob>, nextSha: Sha)
  {
    forall l | l in files :: WellFormed(l.path) && files[l].sha < nextSha
  }

  /** The paths form a tree: no file lies inside another file. */
  ghost predicate NoNesting(files: map<Loc, Blob>)
  {
    forall l, m | l in files && m in files && l.repo == m.repo :: !Below(m.path, l.path)
  }

  /**
   * The calls a request adds to the log: with a credential it is sent and
   * recorded; without one nothing is sent.
   */
  function Sent(token: bool, c: Call): seq<Call>
  {
    if token then [c] else []
  }

  /**
   * A request's result: refused before sending without a credential, lost
   * in transport when scheduled to be, and otherwise the store's verdict.
   */
  function Deliver<T>(token: bool, lost: bool, verdict: Result<T>): Result<T>
  {
    if !token then Err(Unauthorized) else if lost then Err(Transport) else verdict
  }

  /** A GET that is not lost succeeds: the path is a file or a non-empty folder. */
  predicate GetOk(files: map<Loc, Blob>, loc: Loc)
  {
    loc in files || HasChildren(files, loc)
  }

  /** None of the `count` requests numbered from `from` on is lost. */
  ghost predicate NoneLost(faults: set<nat>, from: nat, count: nat)
  {
    forall i :: from <= i < from + count ==> i !in faults
  }

  /**
   * The requests issued between `before` and `after` are exactly `reqs`, in
   * order; all but the last succeeded, and the last succeeded iff `lastOk`.
   */
  ghost predicate Ran(before: seq<Call>, after: seq<Call>, reqs: seq<Request>, lastOk: bool)
  {
    && |after| == |before| + |reqs|
    && after[..|before|] == before
    && (forall i :: 0 <= i < |reqs| ==> after[|before| + i].req == reqs[i])
    && OkUntilLast(after[|before|..])
    && (|reqs| > 0 ==> after[|after| - 1].ok == lastOk)
  }

  /** A run grows by one request at a time, as long as the last one succeeded. */
  lemma RanOneMore(before: seq<Call>, mid: seq<Call>, reqs: seq<Request>, req: Request, ok: bool)
    requires Ran(before, mid, reqs, true)
    ensures Ran(before, mid + [Call(req, ok)], reqs + [req], ok)
  {
    var after := mid + [Call(req, ok)];
    assert after[..|before|] == before;
    assert after[|before|..] == mid[|before|..] + [Call(req, ok)];
    if |reqs| > 0 {
      assert mid[|mid| - 1].ok;
    }
  }

  /** Two runs in a row, the first of which succeeded throughout, make one run. */
  lemma RanConcat(before: seq<Call>, mid: seq<Call>, after: seq<Call>, reqs1: seq<Request>, reqs2: seq<Request>, ok: bool)
    requires Ran(before, mid, reqs1, true) && Ran(mid, after, reqs2, ok) && |reqs2| > 0
    ensures Ran(before, after, reqs1 + reqs2, ok)
  {
    assert after[..|before|] == mid[..|before|];
    forall i | 0 <= i < |reqs1| + |reqs2| ensures after[|before| + i].req == (reqs1 + reqs2)[i] {
      if i < |reqs1| {
        assert after[|before| + i] == mid[|before| + i];
      } else {
        assert after[|before| + i] == after[|mid| + (i - |reqs1|)];
      }
    }
    forall i | 0 <= i < |after| - |before| - 1 ensures after[|before|..][i].ok {
      if i < |reqs1| {
        assert after[|before| + i] == mid[|before| + i];
        if i == |reqs1| - 1 {
          assert mid[|mid| - 1].ok;
        } else {
          assert mid[|before|..][i].ok;
        }
      } else {
        assert after[|before|..][i] == after[|mid|..][i - |reqs1|];
      }
    }
  }

  /** Every call succeeded. */
  ghost predicate AllOk(calls: seq<Call>)
  {
    forall i :: 0 <= i < |calls| ==> calls[i].ok
  }

  /** Every call but the last succeeded: nothing ran after a failure. */
  ghost predicate OkUntilLast(calls: seq<Call>)
  {
    forall i :: 0 <= i < |calls| - 1 ==> calls[i].ok
  }

  /** The locations removed by the successful DELETE calls among `calls`. */
  ghost function DeletedLocs(calls: seq<Call>): set<Loc>
  {
    if calls == [] then {}
    else
      var c := calls[|calls| - 1];
      DeletedLocs(calls[..|calls| - 1]) + (if c.ok && c.req.DeleteReq? then {c.req.loc} else {})
  }

  /** Joining a run of successes to a run that stops at its first failure. */
  lemma OkConcat(a: seq<Call>, b: seq<Call>)
    requires AllOk(a)
    ensures OkUntilLast(b) ==> OkUntilLast(a + b)
    ensures AllOk(b) ==> AllOk(a + b)
    ensures |b| > 0 ==> (a + b)[|a + b| - 1] == b[|b| - 1]
  {
    if OkUntilLast(b) {
      forall i | 0 <= i < |a + b| - 1 ensures (a + b)[i].ok {
        if i >= |a| { assert (a + b)[i] == b[i - |a|]; }
      }
    }
    if AllOk(b) {
      forall i | 0 <= i < |a + b| ensures (a + b)[i].ok {
        if i >= |a| { assert (a + b)[i] == b[i - |a|]; }
      }
    }
  }

  /** The longest stored path: a bound for every path below any folder. */
  ghost function LongestPath(ls: set<Loc>): (n: nat)
    ensures forall l | l in ls :: |l.path| <= n
  {
    if ls == {} then 0
    else
      var l :| l in ls;
      var rest := LongestPath(ls - {l});
      if |l.path| > rest then |l.path| else rest
  }

  lemma {:induction false} DeletedLocsAppend(a: seq<Call>, b: seq<Call>)
    ensures DeletedLocs(a + b) == DeletedLocs(a) + DeletedLocs(b)
    decreases |b|
  {
    if b != [] {
      var b' := b[..|b| - 1];
      assert (a + b)[..|a + b| - 1] == a + b';
      DeletedLocsAppend(a, b');
    } else {
      assert a + b == a;
    }
  }

  /** Lists a finite set of entries, in an order the store chooses. */
  method Enumerate(s: set<Entry>) returns (entries: seq<Entry>)
    ensures IsListing(entries, s)
  {
    entries := [];
    var rest := s;
    while rest != {}
      invariant rest <= s
      invariant forall e :: e in s <==> e in entries || e in rest
      invariant forall e :: e in entries ==> e !in rest
      invariant forall i, j :: 0 <= i < j < |entries| ==> entries[i] != entries[j]
      decreases rest
    {
      var e :| e in rest;
      entries := entries + [e];
      rest := rest - {e};
    }
  }

  class GitHubStore {
    var files: map<Loc, Blob>
    var nextSha: Sha
    var log: seq<Call>
    const hasToken: bool
    const faults: set<nat>

    /** Every stored path is well formed and every sha was minted before `nextSha`. */
    ghost predicate Valid()
      reads this
    {
      ValidFiles(files, nextSha)
    }


    constructor (initial: map<Loc, Blob>, firstSha: Sha, token: bool, failing: set<nat>)
      requires ValidFiles(initial, firstSha)
      ensures Valid()
      ensures files == initial && nextSha == firstSha && log == []
      ensures hasToken == token && faults == failing
    {
      files, nextSha, log := initial, firstSha, [];
      hasToken, faults := token, failing;
    }

    /** `githubApiRequest(path, "GET")` */
    method Get(loc: Loc) returns (r: Result<Resource>)
      requires Valid()
      modifies this
      ensures Valid() && files == old(files) && nextSha == old(nextSha)
      ensures log == old(log) + Sent(hasToken, Call(GetReq(loc), r.Ok?))
      ensures r.Err? ==> r == Deliver(hasToken, |old(log)| in faults, Err(NotFound))
      ensures r.Ok? <==> hasToken && |old(log)| !in faults && GetOk(files, loc)
      ensures r.Ok? ==> GetAnswer(files, loc, r.value)
    {
      if !hasToken {
        return Err(Unauthorized);
      }
      if |log| in faults {
        r := Err(Transport);
      } else if loc in files {
        r := Ok(FileRes(files[loc].content, files[loc].sha));
      } else {
        var kids := Children(files, loc);
        if !HasChildren(files, loc) {
          r := Err(NotFound);
        } else {
          var entries := Enumerate(kids);
          r := Ok(DirRes(entries));
        }
      }
      log := log + [Call(GetReq(loc), r.Ok?)];
    }

    /** `githubApiRequest(path, "PUT", body)` */
    method Put(loc: Loc, body: PutBody) returns (r: Result<Sha>)
      requires Valid()
      modifies this
      ensures Valid()
      ensures log == old(log) + Sent(hasToken, Call(PutReq(loc, body), r.Ok?))
      ensures r == Deliver(hasToken, |old(log)| in faults, PutVerdict(old(files), loc, body, old(nextSha)))
      ensures r.Ok? ==> body.content.Some? && r.value == old(nextSha)
      ensures files == if r.Ok? then old(files)[loc := Blob(body.content.value, old(nextSha))] else old(files)
      ensures nextSha == if r.Ok? then old(nextSha) + 1 else old(nextSha)
    {
      if !hasToken {
        return Err(Unauthorized);
      }
      if |log| in faults {
        r := Err(Transport);
      } else {
        r := PutVerdict(files, loc, body, nextSha);
        if r.Ok? {
          files := files[loc := Blob(body.content.value, nextSha)];
          nextSha := nextSha + 1;
        }
      }
      log := log + [Call(PutReq(loc, body), r.Ok?)];
    }

    /** `githubApiRequest(path, "DELETE", {message, sha})` */
    method Delete(loc: Loc, message: string, sha: Option<Sha>) returns (r: Result<()>)
      requires Valid()
      modifies this
      ensures Valid() && nextSha == old(nextSha)
      ensures log == old(log) + Sent(hasToken, Call(DeleteReq(loc, message, sha), r.Ok?))
      ensures r == Deliver(hasToken, |old(log)| in faults, DeleteVerdict(old(files), loc, sha))
      ensures files == if r.Ok? then old(files) - {loc} else old(files)
    {
      if !hasToken {
        return Err(Unauthorized);
      }
      if |log| in faults {
        r := Err(Transport);
      } else {
        r := DeleteVerdict(files, loc, sha);
        if r.Ok? {
          files := files - {loc};
        }
      }
      log := log + [Call(DeleteReq(loc, message, sha), r.Ok?)];
    }
  }

  // ---------------------------------------------------------------
  // The folder structure the listings derive from the flat paths
  // ---------------------------------------------------------------

  /**
   * The entry through which a well-formed path below `d` is reached is a
   * named child of `d`, strictly longer than `d`, and the path is at or
   * below it; it is a file entry exactly when it is the path itself.
   */
  lemma {:induction false} ChildTowardShape(d: Path, p: Path)
    requires WellFormed(p) && Below(p, d)
    ensures var e := ChildToward(d, p);
      && e.name != "" && '/' !in e.name
      && e.path == DirPrefix(d) + e.name
      && Below(e.path, d) && |e.path| > |d|
      && AtOrBelow(p, e.path)
      && (e.kind == File <==> e.path == p)
  {
    var pre := DirPrefix(d);
    var rest := p[|pre|..];
    RestAfterPrefix(d, p);
    var i := IndexOf(rest, '/');
    if i < |rest| {
      SubfolderStep(pre, rest, i);
    } else {
      assert '/' !in rest by {
        forall j | 0 <= j < |rest| ensures rest[j] != '/' { }
      }
    }
  }

  /** What follows a folder's prefix in a well-formed path below it is a non-empty relative path. */
  lemma RestAfterPrefix(d: Path, p: Path)
    requires WellFormed(p) && Below(p, d)
    ensures var rest := p[|DirPrefix(d)|..];
            rest != [] && rest[0] != '/' && rest[|rest| - 1] != '/' && p == DirPrefix(d) + rest
  {
    var pre := DirPrefix(d);
    var rest := p[|pre|..];
    assert p == pre + rest;
    if d != "" {
      assert p[|d|] == '/';
      assert p[|d| + 1] == rest[0];
    } else {
      assert rest == p;
    }
  }

  /**
   * When the relative path `rest` holds a '/', first at `i`, the text
   * before it names a subfolder that `pre + rest` lies below.
   */
  lemma SubfolderStep(pre: string, rest: string, i: nat)
    requires rest != [] && rest[0] != '/' && rest[|rest| - 1] != '/'
    requires i == IndexOf(rest, '/') && i < |rest|
    requires |pre| == 0 || pre[|pre| - 1] == '/'
    ensures i > 0 && '/' !in rest[..i]
    ensures Below(pre + rest, pre + rest[..i])
  {
    var name := rest[..i];
    assert '/' !in name by {
      forall j | 0 <= j < |name| ensures name[j] != '/' { assert name[j] == rest[j]; }
    }
    assert rest[i] == '/' && i > 0;
    BelowAtSlash(pre, rest, i);
  }

  /** A path with a '/' at `i` of its relative part, neither first nor last, lies below the text before that '/'. */
  lemma BelowAtSlash(pre: string, rest: string, i: nat)
    requires 0 < i && i + 1 < |rest| && rest[i] == '/'
    ensures Below(pre + rest, pre + rest[..i])
  {
    var name := rest[..i];
    var p := pre + rest;
    var ep := pre + name;
    assert rest[..i + 1] == name + "/";
    assert p[..|ep| + 1] == pre + rest[..i + 1];
    assert pre + (name + "/") == ep + "/";
    assert DirPrefix(ep) == ep + "/";
  }

  /** Being at or below a child of `d` means being below `d`. */
  lemma {:induction false} BelowChild(q: Path, d: Path, name: string)
    requires name != ""
    requires AtOrBelow(q, DirPrefix(d) + name)
    ensures Below(q, d)
  {
    var pre := DirPrefix(d);
    var c := pre + name;
    if q != c {
      assert q[..|c| + 1] == c + "/";
      assert q[..|pre|] == q[..|c| + 1][..|pre|];
      assert (c + "/")[..|pre|] == pre;
    }
  }

  /**
   * Every entry of a folder's listing is a named child of the folder, no
   * longer than the longest file below the folder; a file entry is a
   * stored file.
   */
  lemma ListedChildShape(files: map<Loc, Blob>, nextSha: Sha, dir: Loc, e: Entry, bound: nat)
    requires ValidFiles(files, nextSha)
    requires e in Children(files, dir)
    requires forall l | l in files && l.repo == dir.repo && Below(l.path, dir.path) :: |l.path| <= bound
    ensures e.name != "" && '/' !in e.name && e.path == DirPrefix(dir.path) + e.name
    ensures Below(e.path, dir.path) && |dir.path| < |e.path| <= bound
    ensures e.kind == File ==> Loc(dir.repo, e.path) in files
  {
    var l :| l in files && l.repo == dir.repo && Below(l.path, dir.path) && e == ChildToward(dir.path, l.path);
    ChildTowardShape(dir.path, l.path);
  }

  /** A file below a folder is reached through one of the folder's listed children. */
  lemma ReachedThroughChild(files: map<Loc, Blob>, nextSha: Sha, dir: Loc, l: Loc)
    requires ValidFiles(files, nextSha)
    requires l in files && l.repo == dir.repo && Below(l.path, dir.path)
    ensures ChildToward(dir.path, l.path) in Children(files, dir)
    ensures AtOrBelow(l.path, ChildToward(dir.path, l.path).path)
  {
    ChildTowardShape(dir.path, l.path);
  }

  /**
   * The store keeps its paths a tree: a write that would put a file inside
   * a file, or a file where a folder is, is refused, and a delete only
   * removes. (Kept apart from the class invariant because only the
   * recursive delete relies on it.)
   */
  lemma PutKeepsTree(files: map<Loc, Blob>, loc: Loc, b: Blob)
    requires NoNesting(files) && !Clashes(files, loc)
    ensures NoNesting(files[loc := b])
  {
  }

  lemma DeleteKeepsTree(files: map<Loc, Blob>, loc: Loc)
    requires NoNesting(files)
    ensures NoNesting(files - {loc})
  {
  }
}

=== FILE: strings.dfy ===
/**
 * Character- and path-level helpers shared by the whole model.
 * Paths are slash-separated strings, as in the contents API
 * ("docs/blog/post.md"); the repository root is the empty path.
 */
module Strings {

  predicate StartsWith(s: string, prefix: string)
  {
    |prefix| <= |s| && s[..|prefix|] == prefix
  }

  predicate EndsWith(s: string, suffix: string)
  {
    |suffix| <= |s| && s[|s| - |suffix|..] == suffix
  }

  /** ASCII lower-casing, one character at a time. */
  function LowerChar(c: char): (r: char)
    ensures 'A' <= c <= 'Z' ==> 'a' <= r <= 'z'
    ensures !('A' <= c <= 'Z') ==> r == c
  {
    if 'A' <= c <= 'Z' then (c as int + 32) as char else c
  }

  function ToLower(s: string): (r: string)
    ensures |r| == |s|
    ensures forall i :: 0 <= i < |s| ==> r[i] == LowerChar(s[i])
  {
    if s == [] then [] else [LowerChar(s[0])] + ToLower(s[1..])
  }

  /** Index of the last occurrence of `c` in `s`, or -1 when there is none. */
  function LastIndexOf(s: string, c: char): (i: int)
    ensures -1 <= i < |s|
    ensures 0 <= i ==> s[i] == c && forall j :: i < j < |s| ==> s[j] != c
    ensures i < 0 ==> c !in s
  {
    if |s| == 0 then -1
    else if s[|s| - 1] == c then |s| - 1
    else LastIndexOf(s[..|s| - 1], c)
  }

  /** Index of the first occurrence of `c` in `s`, or |s| when there is none. */
  function IndexOf(s: string, c: char): (i: nat)
    ensures i <= |s|
    ensures i < |s| ==> s[i] == c
    ensures forall j :: 0 <= j < i ==> s[j] != c
  {
    if |s| == 0 then 0
    else if s[0] == c then 0
    else 1 + IndexOf(s[1..], c)
  }

  /** A character that does not occur is found at the end. */
  lemma IndexOfAbsent(s: string, c: char)
    requires c !in s
    ensures IndexOf(s, c) == |s|
  {
    assert forall j :: 0 <= j < |s| ==> s[j] in s;
  }

  /** `path.split("/").pop()`: the text after the last slash, or the whole path. */
  function LastSegment(path: string): (name: string)
    ensures '/' !in name
    ensures EndsWith(path, name)
  {
    var i := LastIndexOf(path, '/');
    path[i + 1..]
  }

  /**
   * `path.includes("/") ? path.split("/").slice(0, -1).join("/") : ""`:
   * the text before the last slash, or "" when the path has no slash.
   */
  function ParentPath(path: string): (parent: string)
    ensures StartsWith(path, parent)
    ensures '/' !in path ==> parent == ""
    ensures '/' in path ==> path == parent + "/" + LastSegment(path)
  {
    var i := LastIndexOf(path, '/');
    if i < 0 then "" else path[..i]
  }

  /** `parent ? `${parent}/${name}` : name` */
  function JoinPath(parent: string, name: string): (path: string)
    ensures parent == "" ==> path == name
    ensures parent != "" ==> StartsWith(path, parent + "/") && |path| == |parent| + 1 + |name|
  {
    if parent == "" then name else parent + "/" + name
  }

  /** `s.replace(/^\/+/, "")` */
  function StripLeadingSlashes(s: string): (r: string)
    ensures EndsWith(s, r)
    ensures r == [] || r[0] != '/'
    ensures forall i :: 0 <= i < |s| - |r| ==> s[i] == '/'
  {
    if s != [] && s[0] == '/' then StripLeadingSlashes(s[1..]) else s
  }

  /** `s.replace(/\/+$/, "")` */
  function StripTrailingSlashes(s: string): (r: string)
    ensures StartsWith(s, r)
    ensures r == [] || r[|r| - 1] != '/'
    ensures forall i :: |r| <= i < |s| ==> s[i] == '/'
  {
    if s != [] && s[|s| - 1] == '/' then StripTrailingSlashes(s[..|s| - 1]) else s
  }

  function DigitChar(d: nat): (c: char)
    requires d < 10
    ensures '0' <= c <= '9'
  {
    ('0' as int + d) as char
  }

  /** Decimal rendering of a natural number, as `${n}` prints it. */
  function NatToString(n: nat): (s: string)
    ensures |s| >= 1
    ensures forall i :: 0 <= i < |s| ==> '0' <= s[i] <= '9'
    decreases n
  {
    if n < 10 then [DigitChar(n)] else NatToString(n / 10) + [DigitChar(n % 10)]
  }

  // ---------------------------------------------------------------
  // Properties of the path arithmetic
  // ---------------------------------------------------------------

  /**
   * Splitting a path at its last slash and joining the two parts again
   * gives the path back, except for a path whose only slash is a leading
   * one ("/x"): its parent is "", so the join drops the slash.
   */
  lemma {:induction false} JoinParentLastSegment(path: string)
    ensures JoinPath(ParentPath(path), LastSegment(path)) == path
        <==> !(LastIndexOf(path, '/') == 0)
  {
    var i := LastIndexOf(path, '/');
    if i == 0 {
      assert |LastSegment(path)| == |path| - 1;
    } else if i > 0 {
      assert path == path[..i] + "/" + path[i + 1..];
    }
  }

  /**
   * Joining a parent with a slash-free name yields a path whose parent is
   * that parent and whose last segment is that name.
   */
  lemma {:induction false} JoinThenSplit(parent: string, name: string)
    requires '/' !in name
    ensures LastSegment(JoinPath(parent, name)) == name
    ensures ParentPath(JoinPath(parent, name)) == parent
  {
    var p := JoinPath(parent, name);
    if parent == "" {
      assert LastIndexOf(p, '/') < 0;
    } else {
      var k := |parent|;
      assert p[k] == '/';
      forall j | k < j < |p| ensures p[j] != '/' {
        assert p[j] == name[j - k - 1];
      }
      LastIndexAt(p, '/', k);
      assert p[..k] == parent;
      assert p[k + 1..] == name;
    }
  }

  /** The last occurrence is determined by the characters of the string. */
  lemma {:induction false} LastIndexAt(s: string, c: char, k: nat)
    requires k < |s| && s[k] == c
    requires forall j :: k < j < |s| ==> s[j] != c
    ensures LastIndexOf(s, c) == k
  {
  }

  /** Lower-casing twice is lower-casing once. */
  lemma ToLowerIdempotent(s: string)
    ensures ToLower(ToLower(s)) == ToLower(s)
  {
    var once := ToLower(s);
    forall i | 0 <= i < |s| ensures ToLower(once)[i] == once[i] {
      assert once[i] == LowerChar(s[i]);
    }
  }

  // ---------------------------------------------------------------
  // Splitting on a separator
  // ---------------------------------------------------------------

  /** `s.split(sep)` for a one-character separator: at least one part, none holding `sep`. */
  function Split(s: string, sep: char): (parts: seq<string>)
    ensures |parts| >= 1
    ensures forall k :: 0 <= k < |parts| ==> sep !in parts[k]
    decreases |s|
  {
    var i := IndexOf(s, sep);
    if i == |s| then [s] else [s[..i]] + Split(s[i + 1..], sep)
  }

  /** `parts.join(sep)` */
  function Join(parts: seq<string>, sep: char): string
    requires |parts| >= 1
  {
    if |parts| == 1 then parts[0] else parts[0] + [sep] + Join(parts[1..], sep)
  }

  /** Splitting and joining back gives the text again. */
  lemma {:induction false} JoinSplit(s: string, sep: char)
    ensures Join(Split(s, sep), sep) == s
    decreases |s|
  {
    var i := IndexOf(s, sep);
    var parts := Split(s, sep);
    if i == |s| {
      assert parts == [s];
    } else {
      var head, tail := s[..i], s[i + 1..];
      var rest := Split(tail, sep);
      assert parts == [head] + rest;
      assert parts[0] == head && parts[1..] == rest;
      JoinSplit(tail, sep);
      assert Join(parts, sep) == head + [sep] + Join(rest, sep);
      assert s == head + [sep] + tail;
    }
  }

  /** Joining parts free of the separator and splitting again gives the parts back. */
  lemma {:induction false} SplitJoin(parts: seq<string>, sep: char)
    requires |parts| >= 1
    requires forall k :: 0 <= k < |parts| ==> sep !in parts[k]
    ensures Split(Join(parts, sep), sep) == parts
    decreases |parts|
  {
    var p := parts[0];
    assert sep !in p;
    if |parts| == 1 {
      IndexOfAbsent(p, sep);
    } else {
      var tail := parts[1..];
      assert forall k :: 0 <= k < |tail| ==> tail[k] == parts[k + 1];
      var rest := Join(tail, sep);
      assert Join(parts, sep) == p + ([sep] + rest);
      FirstChar(p, sep, [sep] + rest);
      var s := p + ([sep] + rest);
      assert s[..|p|] == p && s[|p| + 1..] == rest;
      assert Split(s, sep) == [p] + Split(rest, sep);
      SplitJoin(tail, sep);
      assert [p] + tail == parts;
    }
  }

  /** The first `c` in `a + b`, where `a` has none and `b` starts with `c`, is right after `a`. */
  lemma FirstChar(a: string, c: char, b: string)
    requires c !in a && b != [] && b[0] == c
    ensures IndexOf(a + b, c) == |a|
  {
    var s := a + b;
    assert s[|a|] == c;
    assert forall j :: 0 <= j < |a| ==> s[j] == a[j] && a[j] in a;
  }

  /** ASCII upper-casing: `toUpperCase` on the method names HTTP uses. */
  function UpperChar(c: char): (r: char)
    ensures 'a' <= c <= 'z' ==> 'A' <= r <= 'Z'
    ensures !('a' <= c <= 'z') ==> r == c
  {
    if 'a' <= c <= 'z' then (c as int - 32) as char else c
  }

  function ToUpper(s: string): (r: string)
    ensures |r| == |s|
    ensures forall i :: 0 <= i < |s| ==> r[i] == UpperChar(s[i])
  {
    if s == [] then [] else [UpperChar(s[0])] + ToUpper(s[1..])
  }

  /** Upper-casing twice is upper-casing once. */
  lemma ToUpperIdempotent(s: string)
    ensures ToUpper(ToUpper(s)) == ToUpper(s)
  {
    var once := ToUpper(s);
    assert forall i :: 0 <= i < |s| ==> ToUpper(once)[i] == once[i];
  }

  // ---------------------------------------------------------------
  // Searching for a string
  // ---------------------------------------------------------------

  /** `pat` occurs in `s` at `j`. */
  predicate OccursAt(s: string, pat: string, j: nat)
  {
    j + |pat| <= |s| && s[j..j + |pat|] == pat
  }

  /** Index of the first occurrence of `pat` in `s`, or |s| when there is none. */
  function IndexOfStr(s: string, pat: string): (i: nat)
    requires pat != []
    ensures i <= |s|
    ensures i < |s| ==> OccursAt(s, pat, i)
    ensures forall j :: 0 <= j < i ==> !OccursAt(s, pat, j)
    decreases |s|
  {
    if |s| < |pat| then |s|
    else if s[..|pat|] == pat then 0
    else
      var k := IndexOfStr(s[1..], pat);
      OccursShift(s, pat);
      1 + k
  }

  /** An occurrence past the first character is one in the tail. */
  lemma OccursShift(s: string, pat: string)
    requires s != []
    ensures forall j :: 0 < j ==> (OccursAt(s, pat, j) <==> OccursAt(s[1..], pat, j - 1))
  {
    forall j | 0 < j ensures OccursAt(s, pat, j) <==> OccursAt(s[1..], pat, j - 1) {
      if j + |pat| <= |s| {
        var t := s[1..];
        var a, b := s[j..j + |pat|], t[j - 1..j - 1 + |pat|];
        assert forall k :: 0 <= k < |pat| ==> a[k] == b[k];
        assert a == b;
      }
    }
  }

  /** An occurrence begins with the pattern's first character. */
  lemma OccursFirstChar(s: string, pat: string, j: nat)
    requires pat != []
    ensures OccursAt(s, pat, j) ==> j < |s| && s[j] == pat[0]
  {
    if OccursAt(s, pat, j) {
      assert s[j..j + |pat|][0] == s[j];
    }
  }

  /** A string without the first character of `pat` has no occurrence of it. */
  lemma NoOccurrence(s: string, pat: string)
    requires pat != [] && pat[0] !in s
    ensures IndexOfStr(s, pat) == |s|
  {
    var i := IndexOfStr(s, pat);
    OccursFirstChar(s, pat, i);
    assert forall j :: 0 <= j < |s| ==> s[j] in s;
  }

  /** In `a + pat + b`, where `a` cannot hold the start of `pat`, the first occurrence is right after `a`. */
  lemma FirstOccurrence(a: string, pat: string, b: string)
    requires pat != [] && pat[0] !in a
    ensures IndexOfStr(a + pat + b, pat) == |a|
  {
    var s := a + pat + b;
    assert s[|a|..|a| + |pat|] == pat;
    assert OccursAt(s, pat, |a|);
    var i := IndexOfStr(s, pat);
    OccursFirstChar(s, pat, i);
    assert forall j :: 0 <= j < |a| ==> s[j] == a[j] && a[j] in a;
  }

  /** `s.split(sep)` for a separator string. */
  function SplitStr(s: string, sep: string): (parts: seq<string>)
    requires sep != []
    ensures |parts| >= 1
    decreases |s|
  {
    var i := IndexOfStr(s, sep);
    if i == |s| then [s] else [s[..i]] + SplitStr(s[i + |sep|..], sep)
  }

  /** `s.replace(pat, with)` with a string pattern: the first occurrence only. */
  function ReplaceFirst(s: string, pat: string, with: string): string
    requires pat != []
  {
    var i := IndexOfStr(s, pat);
    if i == |s| then s else s[..i] + with + s[i + |pat|..]
  }

  /**
   * Splitting `a + sep + b` where neither side can hold the start of `sep`
   * gives exactly the two sides.
   */
  lemma SplitInTwo(a: string, sep: string, b: string)
    requires sep != [] && sep[0] !in a && sep[0] !in b
    ensures SplitStr(a + sep + b, sep) == [a, b]
  {
    var s := a + sep + b;
    FirstOccurrence(a, sep, b);
    assert s[..|a|] == a;
    assert s[|a| + |sep|..] == b;
    NoOccurrence(b, sep);
  }

  /** A split into exactly two parts is undone by joining them around the separator. */
  lemma SplitTwoParts(s: string, sep: string)
    requires sep != [] && |SplitStr(s, sep)| == 2
    ensures var parts := SplitStr(s, sep); s == parts[0] + sep + parts[1]
  {
    var i := IndexOfStr(s, sep);
    var rest := s[i + |sep|..];
    assert IndexOfStr(rest, sep) == |rest|;
    assert s == s[..i] + s[i..i + |sep|] + rest;
  }
}

=== FILE: worker.dfy ===
/**
 * The Cloudflare worker (_worker.js): it routes each request, and under
 * /api/ serves the CMS API from a GitHub repository through the contents
 * API (the store of module Store), committing to one branch.
 *
 * Every handler is asynchronous. A handler whose promise rejects (an
 * unparsable request body, a failed tree listing, a failed image commit)
 * produces no reply of the handler's own: `Rejected` below.
 */
module Worker {
  import opened Strings
  import opened Store
  import opened FileOps
  import opened Session

  /** The bindings the API reads: the repository, and GITHUB_BRANCH ("" when unset). */
  datatype Env = Env(repo: string, branchSetting: string)

  /** `getBranch`: GITHUB_BRANCH, or "main" when it is unset or empty. */
  function Branch(env: Env): (b: string)
    ensures b != ""
    ensures env.branchSetting != "" ==> b == env.branchSetting
    ensures env.branchSetting == "" ==> b == "main"
  {
    if env.branchSetting == "" then "main" else env.branchSetting
  }

  // ---------------------------------------------------------------
  // Routing
  // ---------------------------------------------------------------

  datatype Route = Login | Callback | Api | CmsShell | Assets

  /**
   * The top-level `fetch` dispatch. The routes are disjoint, so the order
   * in which the worker tests them does not matter.
   */
  function RouteOf(pathname: string): (r: Route)
    ensures r == Login <==> pathname == "/cms/login"
    ensures r == Callback <==> pathname == "/callback"
    ensures r == Api <==> StartsWith(pathname, "/api/")
    ensures r == CmsShell <==> pathname == "/cms" || pathname == "/cms/"
    ensures r == Assets <==> !StartsWith(pathname, "/api/") && pathname !in ["/cms/login", "/callback", "/cms", "/cms/"]
  {
    assert StartsWith(pathname, "/api/") ==> pathname[1] == "/api/"[1] == 'a';
    assert "/cms/login"[1] == "/callback"[1] == "/cms"[1] == "/cms/"[1] == 'c';
    if pathname == "/cms/login" then Login
    else if pathname == "/callback" then Callback
    else if StartsWith(pathname, "/api/") then Api
    else if pathname == "/cms" || pathname == "/cms/" then CmsShell
    else Assets
  }

  datatype Endpoint = ListFiles | ReadFile | WriteFile | NewFile | NewFolder | UploadImage | Me | Logout | NoEndpoint

  /** The API: path, upper-cased method, endpoint. */
  const Endpoints: seq<(string, string, Endpoint)> := [
    ("/api/files", "GET", ListFiles),
    ("/api/read-file", "POST", ReadFile),
    ("/api/write-file", "POST", WriteFile),
    ("/api/new-file", "POST", NewFile),
    ("/api/new-folder", "POST", NewFolder),
    ("/api/upload-image", "POST", UploadImage),
    ("/api/me", "GET", Me),
    ("/api/logout", "POST", Logout)
  ]

  /** `handleApi`'s dispatch: a request reaches an endpoint exactly when its path and method are that endpoint's. */
  function EndpointOf(pathname: string, verb: string): (e: Endpoint)
    ensures forall k :: 0 <= k < |Endpoints| ==>
      (e == Endpoints[k].2 <==> pathname == Endpoints[k].0 && ToUpper(verb) == Endpoints[k].1)
    ensures e == NoEndpoint <==>
      forall k :: 0 <= k < |Endpoints| ==> !(pathname == Endpoints[k].0 && ToUpper(verb) == Endpoints[k].1)
  {
    RouteMatchesTable(pathname, ToUpper(verb));
    ApiRoute(pathname, ToUpper(verb))
  }

  /** The chain of tests in `handleApi`, on the upper-cased method `m`. */
  function ApiRoute(pathname: string, m: string): Endpoint
  {
    if pathname == "/api/files" && m == "GET" then ListFiles
    else if pathname == "/api/read-file" && m == "POST" then ReadFile
    else if pathname == "/api/write-file" && m == "POST" then WriteFile
    else if pathname == "/api/new-file" && m == "POST" then NewFile
    else if pathname == "/api/new-folder" && m == "POST" then NewFolder
    else if pathname == "/api/upload-image" && m == "POST" then UploadImage
    else if pathname == "/api/me" && m == "GET" then Me
    else if pathname == "/api/logout" && m == "POST" then Logout
    else NoEndpoint
  }

  /** The chain of tests picks exactly the table's entry for the path and method. */
  lemma RouteMatchesTable(pathname: string, m: string)
    ensures forall k :: 0 <= k < |Endpoints| ==>
      (ApiRoute(pathname, m) == Endpoints[k].2 <==> pathname == Endpoints[k].0 && m == Endpoints[k].1)
    ensures ApiRoute(pathname, m) == NoEndpoint <==>
      forall k :: 0 <= k < |Endpoints| ==> !(pathname == Endpoints[k].0 && m == Endpoints[k].1)
  {
    var e := ApiRoute(pathname, m);
    forall k | 0 <= k < |Endpoints|
      ensures e == Endpoints[k].2 <==> pathname == Endpoints[k].0 && m == Endpoints[k].1
    {
      var entry := Endpoints[k];
      if k == 0 { assert entry == ("/api/files", "GET", ListFiles); }
      else if k == 1 { assert entry == ("/api/read-file", "POST", ReadFile); }
      else if k == 2 { assert entry == ("/api/write-file", "POST", WriteFile); }
      else if k == 3 { assert entry == ("/api/new-file", "POST", NewFile); }
      else if k == 4 { assert entry == ("/api/new-folder", "POST", NewFolder); }
      else if k == 5 { assert entry == ("/api/upload-image", "POST", UploadImage); }
      else if k == 6 { assert entry == ("/api/me", "GET", Me); }
      else { assert entry == ("/api/logout", "POST", Logout); }
    }
    if e != NoEndpoint {
      var k :| 0 <= k < |Endpoints| && Endpoints[k].2 == e by {
        assert Endpoints[0].2 == ListFiles && Endpoints[1].2 == ReadFile && Endpoints[2].2 == WriteFile
          && Endpoints[3].2 == NewFile && Endpoints[4].2 == NewFolder && Endpoints[5].2 == UploadImage
          && Endpoints[6].2 == Me && Endpoints[7].2 == Logout;
      }
    }
  }

  /** The method's case never matters: "post" reaches what "POST" reaches. */
  lemma MethodCaseIgnored(pathname: string, verb: string)
    ensures EndpointOf(pathname, verb) == EndpointOf(pathname, ToUpper(verb))
  {
    ToUpperIdempotent(verb);
  }

  // ---------------------------------------------------------------
  // Replies
  // ---------------------------------------------------------------

  /** The JSON bodies the API answers (an error's `details` text is not modelled). */
  datatype Body =
    | ErrorBody(message: string)
    | FilesBody(paths: seq<Path>)
    | ContentBody(content: string)
    | CommitBody(path: Option<Path>, folderPath: Option<Path>, commit: Sha)
    | LoginBody(login: Option<string>)
    | OkBody
    | UploadBody(original: string, thumb: string, webp: string, optimized: string, commit: Sha)

  /** A JSON reply, or a handler whose promise rejected. */
  datatype Reply = Reply(status: nat, body: Body, setCookie: Option<string>) | Rejected

  function Json(body: Body): Reply
  {
    Reply(200, body, None)
  }

  function JsonError(message: string, status: nat): Reply
  {
    Reply(status, ErrorBody(message), None)
  }

  /** `handleLogout`: `{ok: true}` with the cookie that clears the session. */
  const LogoutReply := Reply(200, OkBody, Some(LogoutCookie))

  /** The string fields of a JSON request body. */
  type Fields = map<string, string>

  /** `body.name`: a missing field reads as "", which is as falsy as an empty one. */
  function Field(fields: Fields, name: string): string
  {
    if name in fields then fields[name] else ""
  }

  // ---------------------------------------------------------------
  // /api/files
  // ---------------------------------------------------------------

  /** One entry of `git/trees/<branch>?recursive=1`. */
  datatype TreeItem = TreeItem(path: Path, kind: string)

  /** The tree request's outcome: failed, answered without a tree, or a tree. */
  datatype TreeAnswer = TreeFailed | NoTree | Tree(items: seq<TreeItem>)

  predicate IsContentBlob(item: TreeItem)
  {
    item.kind == "blob" && StartsWith(item.path, "content/")
  }

  /** `listContentFiles`: the paths of the files under content/, in the tree's order. */
  function ContentPaths(items: seq<TreeItem>): (paths: seq<Path>)
    ensures |paths| <= |items|
    ensures forall p :: p in paths ==> StartsWith(p, "content/")
    ensures forall i :: 0 <= i < |items| && IsContentBlob(items[i]) ==> items[i].path in paths
    ensures forall p :: p in paths ==> exists i :: 0 <= i < |items| && IsContentBlob(items[i]) && items[i].path == p
  {
    if items == [] then []
    else
      var rest := ContentPaths(items[1..]);
      assert forall i :: 1 <= i < |items| ==> items[i] == items[1..][i - 1];
      (if IsContentBlob(items[0]) then [items[0].path] else []) + rest
  }

  /** The filter keeps order: listing two runs of the tree lists one after the other. */
  lemma {:induction false} ContentPathsConcat(a: seq<TreeItem>, b: seq<TreeItem>)
    ensures ContentPaths(a + b) == ContentPaths(a) + ContentPaths(b)
    decreases |a|
  {
    if a != [] {
      assert (a + b)[0] == a[0];
      assert (a + b)[1..] == a[1..] + b;
      ContentPathsConcat(a[1..], b);
    } else {
      assert a + b == b;
    }
  }

  /** `handleListFiles`: a failed tree request is not caught, so the handler rejects. */
  function ListFilesReply(tree: TreeAnswer): (reply: Reply)
    ensures reply == Rejected <==> tree == TreeFailed
    ensures tree.NoTree? ==> reply == Json(FilesBody([]))
    ensures tree.Tree? ==> reply == Json(FilesBody(ContentPaths(tree.items)))
  {
    match tree
    case TreeFailed => Rejected
    case NoTree => Json(FilesBody([]))
    case Tree(items) => Json(FilesBody(ContentPaths(items)))
  }

  // ---------------------------------------------------------------
  // Reading and writing through the contents API
  // ---------------------------------------------------------------

  /** The store's state, as one value. */
  datatype State = State(files: map<Loc, Blob>, nextSha: Sha, log: seq<Call>)

  function StateOf(s: GitHubStore): State
    reads s
  {
    State(s.files, s.nextSha, s.log)
  }

  /** A read of `loc` with the `k`-th request yields text: the GET got through to a non-empty file. */
  ghost predicate Readable(token: bool, faults: set<nat>, files: map<Loc, Blob>, loc: Loc, k: nat)
  {
    token && k !in faults && loc in files && files[loc].content != ""
  }

  /**
   * `readContentFile`: the file's text. A failed GET, a folder's listing
   * (which has no content) and an empty file are all errors.
   */
  method ReadContentFile(s: GitHubStore, env: Env, path: Path) returns (r: Result<string>)
    requires s.Valid()
    modifies s
    ensures s.Valid() && s.files == old(s.files) && s.nextSha == old(s.nextSha)
    ensures var loc := Loc(env.repo, path);
            s.log == old(s.log) + Sent(s.hasToken, Call(GetReq(loc), |old(s.log)| !in s.faults && GetOk(s.files, loc)))
    ensures r.Ok? <==> Readable(s.hasToken, s.faults, s.files, Loc(env.repo, path), |old(s.log)|)
    ensures r.Ok? ==> r.value == s.files[Loc(env.repo, path)].content
  {
    var got := s.Get(Loc(env.repo, path));
    if got.Ok? && got.value.FileRes? && got.value.content != "" {
      r := Ok(got.value.content);
    } else {
      r := Err(NotFound);
    }
  }

  /** `writeContentFile`'s message: the caller's, or "Update <path> via CMS" when it gave none. */
  function CommitMessage(path: Path, message: string): string
  {
    if message == "" then "Update " + path + " via CMS" else message
  }

  /**
   * What a commit of `content` to `loc` did, from state `s0` to `s1`: a
   * GET of the path and a PUT carrying the sha that GET found (none when
   * it was lost or found no file); on success the file holds the content
   * under the newly minted sha, otherwise nothing changed. A commit with
   * no lost request to a well-formed free path succeeds, and one whose
   * sha lookup alone is lost over an existing file is refused.
   */
  ghost predicate Wrote(s0: State, s1: State, token: bool, faults: set<nat>,
                        loc: Loc, content: string, message: string, branch: string)
  {
    var k := |s0.log|;
    && (!token ==> s1.log == s0.log)
    && (token ==> |s1.log| == k + 2 && s1.log[..k] == s0.log
                  && s1.log[k] == Call(GetReq(loc), k !in faults && GetOk(s0.files, loc))
                  && s1.log[k + 1].req == PutReq(loc, PutBody(message, Some(content), ShaRead(s0.files, loc, k in faults), Some(branch))))
    && (if s1.nextSha == s0.nextSha + 1 then s1.files == s0.files[loc := Blob(content, s0.nextSha)]
        else s1.files == s0.files && s1.nextSha == s0.nextSha)
    && (token && NoneLost(faults, k, 2) && WellFormed(loc.path) && !Clashes(s0.files, loc) ==> s1.nextSha == s0.nextSha + 1)
    && (token && k in faults && k + 1 !in faults && loc in s0.files ==> s1.nextSha == s0.nextSha)
  }

  /** `writeContentFile`: commit `content` to `path` on the configured branch. */
  method WriteContentFile(s: GitHubStore, env: Env, path: Path, content: string, message: string)
    returns (r: Result<Sha>)
    requires s.Valid()
    modifies s
    ensures s.Valid()
    ensures Wrote(old(StateOf(s)), StateOf(s), s.hasToken, s.faults, Loc(env.repo, path), content,
                  CommitMessage(path, message), Branch(env))
    ensures r.Ok? <==> s.nextSha == old(s.nextSha) + 1
    ensures r.Ok? ==> r.value == old(s.nextSha)
  {
    r := CommitFile(s, Loc(env.repo, path), content, CommitMessage(path, message), Some(Branch(env)));
  }

  /** `createFolder`'s placeholder: `.gitkeep` inside the folder, trailing slashes dropped. */
  function GitkeepPath(folderPath: Path): Path
  {
    StripTrailingSlashes(folderPath) + "/.gitkeep"
  }

  function FolderMessage(folderPath: Path): string
  {
    "Create folder " + StripTrailingSlashes(folderPath) + " via CMS"
  }

  /**
   * The placeholder lies directly inside the folder, and trailing slashes
   * on the folder's name do not change where it goes.
   */
  lemma GitkeepInsideFolder(folderPath: Path)
    ensures var d := StripTrailingSlashes(folderPath);
            (Below(GitkeepPath(folderPath), d) && GitkeepPath(folderPath)[|DirPrefix(d)|..] == ".gitkeep")
            <==> d != ""
    ensures GitkeepPath(folderPath + "/") == GitkeepPath(folderPath)
  {
    var d := StripTrailingSlashes(folderPath);
    var p := GitkeepPath(folderPath);
    if d != "" {
      assert p[..|DirPrefix(d)|] == DirPrefix(d);
    } else {
      assert DirPrefix(d) == "";
      assert p != ".gitkeep";
    }
    assert (folderPath + "/")[..|folderPath|] == folderPath;
  }

  /** `createFolder`: commit an empty placeholder inside the folder. */
  method CreateFolder(s: GitHubStore, env: Env, folderPath: Path) returns (r: Result<Sha>)
    requires s.Valid()
    modifies s
    ensures s.Valid()
    ensures Wrote(old(StateOf(s)), StateOf(s), s.hasToken, s.faults, Loc(env.repo, GitkeepPath(folderPath)), "",
                  FolderMessage(folderPath), Branch(env))
    ensures r.Ok? <==> s.nextSha == old(s.nextSha) + 1
    ensures r.Ok? ==> r.value == old(s.nextSha)
  {
    r := WriteContentFile(s, env, GitkeepPath(folderPath), "", FolderMessage(folderPath));
  }

  // ---------------------------------------------------------------
  // Handlers
  // ---------------------------------------------------------------

  /**
   * What `handleReadFile` did: 400 without a path; otherwise one GET of
   * the file, answered with its text or 500 when it cannot be read. A body
   * that is not JSON rejects. Nothing is written.
   */
  ghost predicate ReadFileAnswered(env: Env, body: Option<Fields>, s0: State, s1: State, token: bool, faults: set<nat>,
                                   reply: Reply)
  {
    && s1.files == s0.files && s1.nextSha == s0.nextSha
    && (body.None? ==> reply == Rejected && s1.log == s0.log)
    && (body.Some? && Field(body.value, "filePath") == "" ==>
          reply == JsonError("filePath required", 400) && s1.log == s0.log)
    && (body.Some? && Field(body.value, "filePath") != "" ==>
          var loc := Loc(env.repo, Field(body.value, "filePath"));
          && s1.log == s0.log + Sent(token, Call(GetReq(loc), |s0.log| !in faults && GetOk(s0.files, loc)))
          && reply == if Readable(token, faults, s0.files, loc, |s0.log|) then Json(ContentBody(s0.files[loc].content))
                      else JsonError("Failed to read file", 500))
  }

  /** `handleReadFile`. */
  method HandleReadFile(s: GitHubStore, env: Env, body: Option<Fields>) returns (reply: Reply)
    requires s.Valid()
    modifies s
    ensures s.Valid()
    ensures ReadFileAnswered(env, body, old(StateOf(s)), StateOf(s), s.hasToken, s.faults, reply)
  {
    if body.None? {
      return Rejected;
    }
    var path := Field(body.value, "filePath");
    if path == "" {
      return JsonError("filePath required", 400);
    }
    var r := ReadContentFile(s, env, path);
    reply := if r.Ok? then Json(ContentBody(r.value)) else JsonError("Failed to read file", 500);
  }

  /** The reply to a commit: `okBody` carrying the new sha, or 500 with `failure`. */
  function CommitReply(before: State, after: State, okBody: Sha -> Body, failure: string): Reply
  {
    if after.nextSha == before.nextSha + 1 then Json(okBody(before.nextSha)) else JsonError(failure, 500)
  }

  /**
   * What `handleWriteFile` did: 400 without a path, sending nothing;
   * otherwise the content ("" when absent) committed with the given or
   * default message, answered with the commit's sha or 500. A body that
   * is not JSON rejects.
   */
  ghost predicate WriteFileAnswered(env: Env, body: Option<Fields>, s0: State, s1: State, token: bool, faults: set<nat>,
                                    reply: Reply)
  {
    && (body.None? ==> reply == Rejected && s1 == s0)
    && (body.Some? && Field(body.value, "filePath") == "" ==> reply == JsonError("filePath required", 400) && s1 == s0)
    && (body.Some? && Field(body.value, "filePath") != "" ==>
          var path := Field(body.value, "filePath");
          && Wrote(s0, s1, token, faults, Loc(env.repo, path), Field(body.value, "content"),
                   CommitMessage(path, Field(body.value, "message")), Branch(env))
          && reply == CommitReply(s0, s1, (sha: Sha) => CommitBody(None, None, sha), "Failed to write file"))
  }

  /** `handleWriteFile`. */
  method HandleWriteFile(s: GitHubStore, env: Env, body: Option<Fields>) returns (reply: Reply)
    requires s.Valid()
    modifies s
    ensures s.Valid()
    ensures WriteFileAnswered(env, body, old(StateOf(s)), StateOf(s), s.hasToken, s.faults, reply)
  {
    if body.None? {
      return Rejected;
    }
    var path := Field(body.value, "filePath");
    if path == "" {
      return JsonError("filePath required", 400);
    }
    var r := WriteContentFile(s, env, path, Field(body.value, "content"), Field(body.value, "message"));
    reply := if r.Ok? then Json(CommitBody(None, None, r.value)) else JsonError("Failed to write file", 500);
  }

  /** What `handleNewFile` did: as write-file, keyed by `path`, and the reply names the path. */
  ghost predicate NewFileAnswered(env: Env, body: Option<Fields>, s0: State, s1: State, token: bool, faults: set<nat>,
                                  reply: Reply)
  {
    && (body.None? ==> reply == Rejected && s1 == s0)
    && (body.Some? && Field(body.value, "path") == "" ==> reply == JsonError("path required", 400) && s1 == s0)
    && (body.Some? && Field(body.value, "path") != "" ==>
          var path := Field(body.value, "path");
          && Wrote(s0, s1, token, faults, Loc(env.repo, path), Field(body.value, "content"),
                   CommitMessage(path, Field(body.value, "message")), Branch(env))
          && reply == CommitReply(s0, s1, (sha: Sha) => CommitBody(Some(path), None, sha), "Failed to create file"))
  }

  /** `handleNewFile`. */
  method HandleNewFile(s: GitHubStore, env: Env, body: Option<Fields>) returns (reply: Reply)
    requires s.Valid()
    modifies s
    ensures s.Valid()
    ensures NewFileAnswered(env, body, old(StateOf(s)), StateOf(s), s.hasToken, s.faults, reply)
  {
    if body.None? {
      return Rejected;
    }
    var path := Field(body.value, "path");
    if path == "" {
      return JsonError("path required", 400);
    }
    var r := WriteContentFile(s, env, path, Field(body.value, "content"), Field(body.value, "message"));
    reply := if r.Ok? then Json(CommitBody(Some(path), None, r.value)) else JsonError("Failed to create file", 500);
  }

  /** What `handleNewFolder` did: 400 without a folder path; otherwise its placeholder committed. */
  ghost predicate NewFolderAnswered(env: Env, body: Option<Fields>, s0: State, s1: State, token: bool, faults: set<nat>,
                                    reply: Reply)
  {
    && (body.None? ==> reply == Rejected && s1 == s0)
    && (body.Some? && Field(body.value, "folderPath") == "" ==> reply == JsonError("folderPath required", 400) && s1 == s0)
    && (body.Some? && Field(body.value, "folderPath") != "" ==>
          var folder := Field(body.value, "folderPath");
          && Wrote(s0, s1, token, faults, Loc(env.repo, GitkeepPath(folder)), "", FolderMessage(folder), Branch(env))
          && reply == CommitReply(s0, s1, (sha: Sha) => CommitBody(None, Some(folder), sha), "Failed to create folder"))
  }

  /** `handleNewFolder`. */
  method HandleNewFolder(s: GitHubStore, env: Env, body: Option<Fields>) returns (reply: Reply)
    requires s.Valid()
    modifies s
    ensures s.Valid()
    ensures NewFolderAnswered(env, body, old(StateOf(s)), StateOf(s), s.hasToken, s.faults, reply)
  {
    if body.None? {
      return Rejected;
    }
    var folder := Field(body.value, "folderPath");
    if folder == "" {
      return JsonError("folderPath required", 400);
    }
    var r := CreateFolder(s, env, folder);
    reply := if r.Ok? then Json(CommitBody(None, Some(folder), r.value)) else JsonError("Failed to create folder", 500);
  }

  // ---------------------------------------------------------------
  // /api/upload-image
  // ---------------------------------------------------------------

  /** The form's `file` field: absent, a plain string, or an uploaded file. */
  datatype FormField = Missing | TextField(text: string) | FilePart(name: string, data: string)

  predicate SafeChar(c: char)
  {
    'a' <= c <= 'z' || 'A' <= c <= 'Z' || '0' <= c <= '9' || c == '.' || c == '-' || c == '_'
  }

  /** `name.replace(/[^a-zA-Z0-9.\-_]/g, "_")` */
  function SafeName(name: string): (safe: string)
    ensures |safe| == |name|
    ensures forall i :: 0 <= i < |name| ==> SafeChar(safe[i])
    ensures forall i :: 0 <= i < |name| ==> (SafeChar(name[i]) <==> safe[i] == name[i])
  {
    if name == [] then []
    else [if SafeChar(name[0]) then name[0] else '_'] + SafeName(name[1..])
  }

  /** Cleaning a cleaned name changes nothing. */
  lemma SafeNameIdempotent(name: string)
    ensures SafeName(SafeName(name)) == SafeName(name)
  {
    var once := SafeName(name);
    assert forall i :: 0 <= i < |once| ==> SafeName(once)[i] == once[i];
  }

  /** `images/${ts}-${safeName}` */
  function UploadPath(ts: nat, name: string): Path
  {
    "images/" + NatToString(ts) + "-" + SafeName(name)
  }

  /**
   * Whatever the uploaded file's name, the image lands directly inside
   * images/, at a path the contents API accepts.
   */
  lemma UploadStaysInImages(ts: nat, name: string)
    ensures var p := UploadPath(ts, name);
            StartsWith(p, "images/") && '/' !in p[7..] && WellFormed(p)
  {
    var tail := NatToString(ts) + "-" + SafeName(name);
    UploadTailHasNoSlash(NatToString(ts), SafeName(name));
    InsideImages(tail);
    assert UploadPath(ts, name) == "images/" + tail;
  }

  /** The part after images/ holds no '/': digits, a dash and safe characters. */
  lemma UploadTailHasNoSlash(digits: string, safe: string)
    requires forall i :: 0 <= i < |digits| ==> '0' <= digits[i] <= '9'
    requires forall i :: 0 <= i < |safe| ==> SafeChar(safe[i])
    ensures '/' !in digits + "-" + safe
  {
    var tail := digits + "-" + safe;
    forall i | 0 <= i < |tail| ensures tail[i] != '/' {
      if i < |digits| {
        assert tail[i] == digits[i];
      } else if i > |digits| {
        assert tail[i] == safe[i - |digits| - 1];
      }
    }
  }

  /** A non-empty name without '/' makes a well-formed path directly inside images/. */
  lemma InsideImages(tail: string)
    requires tail != [] && '/' !in tail
    ensures var p := "images/" + tail;
            StartsWith(p, "images/") && '/' !in p[7..] && WellFormed(p)
  {
    var p := "images/" + tail;
    assert p[..7] == "images/";
    assert p[7..] == tail;
    forall i | 0 <= i < |p| - 1 ensures !(p[i] == '/' && p[i + 1] == '/') {
      if i >= 6 {
        assert p[i + 1] == tail[i - 6];
      }
    }
  }

  /**
   * What `handleUploadImage` did: 400 unless the request is multipart and
   * carries a file; otherwise the file committed under images/ (the sha
   * sent when a file is already there) and its public URL answered four
   * times. A failed commit is not caught: the handler rejects.
   */
  ghost predicate UploadAnswered(env: Env, contentType: string, form: FormField, ts: nat, s0: State, s1: State,
                                 token: bool, faults: set<nat>, reply: Reply)
  {
    && (!StartsWith(contentType, "multipart/form-data") ==>
          reply == JsonError("multipart/form-data required", 400) && s1 == s0)
    && (StartsWith(contentType, "multipart/form-data") && !form.FilePart? ==>
          reply == JsonError("file field required", 400) && s1 == s0)
    && (StartsWith(contentType, "multipart/form-data") && form.FilePart? ==>
          var path := UploadPath(ts, form.name);
          var url := "/" + path;
          && Wrote(s0, s1, token, faults, Loc(env.repo, path), form.data, "Upload image " + path + " via CMS", Branch(env))
          && reply == if s1.nextSha == s0.nextSha + 1 then Json(UploadBody(url, url, url, url, s0.nextSha)) else Rejected)
  }

  /** `handleUploadImage`. */
  method HandleUploadImage(s: GitHubStore, env: Env, contentType: string, form: FormField, ts: nat)
    returns (reply: Reply)
    requires s.Valid()
    modifies s
    ensures s.Valid()
    ensures UploadAnswered(env, contentType, form, ts, old(StateOf(s)), StateOf(s), s.hasToken, s.faults, reply)
  {
    if !StartsWith(contentType, "multipart/form-data") {
      return JsonError("multipart/form-data required", 400);
    }
    if !form.FilePart? {
      return JsonError("file field required", 400);
    }
    var path := UploadPath(ts, form.name);
    var r := WriteContentFile(s, env, path, form.data, "Upload image " + path + " via CMS");
    if r.Err? {
      return Rejected;
    }
    var url := "/" + path;
    reply := Json(UploadBody(url, url, url, url, r.value));
  }

  // ---------------------------------------------------------------
  // handleApi
  // ---------------------------------------------------------------

  /** What a request to the API carries. */
  datatype ApiRequest = ApiRequest(pathname: string, verb: string, body: Option<Fields>,
                                   contentType: string, form: FormField)

  /** A handler rejects: its request body is unparsable, its tree request failed, or its image commit failed. */
  ghost predicate Escapes(e: Endpoint, req: ApiRequest, tree: TreeAnswer, before: State, after: State)
  {
    || (e == ListFiles && tree == TreeFailed)
    || (e in {ReadFile, WriteFile, NewFile, NewFolder} && req.body.None?)
    || (e == UploadImage && StartsWith(req.contentType, "multipart/form-data") && req.form.FilePart?
        && after.nextSha == before.nextSha)
  }

  /**
   * What `handleApi`'s dispatch did: each endpoint's handler answered as
   * it promises, and the endpoints that send nothing left the store alone.
   */
  ghost predicate Dispatched(e: Endpoint, env: Env, req: ApiRequest, tree: TreeAnswer, ts: nat, session: Option<string>,
                             s0: State, s1: State, token: bool, faults: set<nat>, reply: Reply)
  {
    && (e == NoEndpoint ==> reply == JsonError("Not found", 404) && s1 == s0)
    && (e == ListFiles ==> reply == ListFilesReply(tree) && s1 == s0)
    && (e == ReadFile ==> ReadFileAnswered(env, req.body, s0, s1, token, faults, reply))
    && (e == WriteFile ==> WriteFileAnswered(env, req.body, s0, s1, token, faults, reply))
    && (e == NewFile ==> NewFileAnswered(env, req.body, s0, s1, token, faults, reply))
    && (e == NewFolder ==> NewFolderAnswered(env, req.body, s0, s1, token, faults, reply))
    && (e == UploadImage ==> UploadAnswered(env, req.contentType, req.form, ts, s0, s1, token, faults, reply))
    && (e == Me ==> reply == Json(LoginBody(session)) && s1 == s0)
    && (e == Logout ==> reply == LogoutReply && s1 == s0)
  }

  /**
   * `handleApi` as written: the matching handler's promise is returned
   * from inside `try` without being awaited, so a handler that rejects
   * is never caught and its request gets no JSON reply. `/api/me` reads
   * the `Cookie` header with the reader as written, so it never answers a
   * login.
   */
  method Dispatch(s: GitHubStore, env: Env, req: ApiRequest, tree: TreeAnswer, ts: nat,
                  cookie: string, sign: string -> string)
    returns (reply: Reply)
    requires s.Valid()
    modifies s
    ensures s.Valid()
    ensures Dispatched(EndpointOf(req.pathname, req.verb), env, req, tree, ts, ReadSessionCookieAsWritten(cookie, sign),
                       old(StateOf(s)), StateOf(s), s.hasToken, s.faults, reply)
    ensures reply == Rejected <==> Escapes(EndpointOf(req.pathname, req.verb), req, tree, old(StateOf(s)), StateOf(s))
    ensures EndpointOf(req.pathname, req.verb) == Me ==> reply == Json(LoginBody(None))
  {
    NoSessionEverReadAsWritten(cookie, sign);
    reply := Answer(s, env, EndpointOf(req.pathname, req.verb), req, tree, ts, ReadSessionCookieAsWritten(cookie, sign));
  }

  /** The handler of endpoint `e` answers the request. */
  method Answer(s: GitHubStore, env: Env, e: Endpoint, req: ApiRequest, tree: TreeAnswer, ts: nat, session: Option<string>)
    returns (reply: Reply)
    requires s.Valid()
    modifies s
    ensures s.Valid()
    ensures Dispatched(e, env, req, tree, ts, session, old(StateOf(s)), StateOf(s), s.hasToken, s.faults, reply)
    ensures reply == Rejected <==> Escapes(e, req, tree, old(StateOf(s)), StateOf(s))
  {
    match e {
      case ListFiles => reply := ListFilesReply(tree);
      case ReadFile => reply := HandleReadFile(s, env, req.body);
      case WriteFile => reply := HandleWriteFile(s, env, req.body);
      case NewFile => reply := HandleNewFile(s, env, req.body);
      case NewFolder => reply := HandleNewFolder(s, env, req.body);
      case UploadImage => reply := HandleUploadImage(s, env, req.contentType, req.form, ts);
      case Me => reply := Json(LoginBody(session));
      case Logout => reply := LogoutReply;
      case NoEndpoint => reply := JsonError("Not found", 404);
    }
  }

  /** The evidently intended `try`/`catch`: a rejection becomes a 500 "API error" reply. */
  function Caught(reply: Reply): (r: Reply)
    ensures r.Reply?
    ensures reply.Reply? ==> r == reply
  {
    if reply.Rejected? then JsonError("API error", 500) else reply
  }

  /**
   * `handleApi` with the handler awaited inside `try` and the session
   * cookie read with the separator that survives the browser: every
   * request gets a JSON reply, and /api/me answers the signed-in login.
   */
  method HandleApi(s: GitHubStore, env: Env, req: ApiRequest, tree: TreeAnswer, ts: nat,
                   cookie: string, sign: string -> string)
    returns (reply: Reply, handled: Reply)
    requires s.Valid()
    modifies s
    ensures s.Valid()
    ensures Dispatched(EndpointOf(req.pathname, req.verb), env, req, tree, ts, ReadSessionCookie(cookie, sign),
                       old(StateOf(s)), StateOf(s), s.hasToken, s.faults, handled)
    ensures reply == Caught(handled)
    ensures reply.Reply?
    ensures handled.Reply? ==> reply == handled
    ensures var e := EndpointOf(req.pathname, req.verb);
            && (e == NoEndpoint ==> reply == JsonError("Not found", 404))
            && (e == Me ==> reply == Json(LoginBody(ReadSessionCookie(cookie, sign))))
            && (e in {NoEndpoint, ListFiles, Me, Logout} ==> StateOf(s) == old(StateOf(s)))
            && (Escapes(e, req, tree, old(StateOf(s)), StateOf(s)) ==> reply == JsonError("API error", 500))
  {
    handled := Answer(s, env, EndpointOf(req.pathname, req.verb), req, tree, ts, ReadSessionCookie(cookie, sign));
    reply := Caught(handled);
  }

  /**
   * As written, `POST /api/read-file` with a body that is not JSON gets no
   * reply from the worker, never the "API error" the `catch` is there to
   * give: any reply that rejects exactly when `Escapes` says, as
   * `Dispatch`'s does, is a rejection.
   */
  lemma UnparsableReadNeverCaught(req: ApiRequest, tree: TreeAnswer, before: State, after: State, reply: Reply)
    requires req.pathname == "/api/read-file" && req.verb == "POST" && req.body.None?
    requires reply == Rejected <==> Escapes(EndpointOf(req.pathname, req.verb), req, tree, before, after)
    ensures reply == Rejected && reply != JsonError("API error", 500)
  {
    assert ToUpper(req.verb) == "POST";
    assert EndpointOf(req.pathname, req.verb) == ReadFile;
  }
}
